=== FILE: README.md ===
# GRASP matheuristic for the Firefighter Problem — a Dafny model

The Firefighter Problem works on a graph. Some vertices are burning at the
start. In each round up to `D` firefighters defend untouched vertices, and then
the fire spreads to every undefended neighbour of a burned vertex. The goal is
to save as many vertices as possible.

The modelled program is a GRASP matheuristic for this problem. It has three
stages:

- A randomised constructive heuristic (Th) builds candidate solutions.
- A small pool of good and diverse candidates is chosen from them.
- Each pool member gets an integer-programming local search. Only the variables
  near the current defence are left free. The size of that neighbourhood
  (sigma) adapts after every search, and an intensification loop follows,
  with one restart.

This project models the sequential, set-based logic around the solver calls.
The solver itself is a parameter. The modules follow the program's files:

| module | file | content |
|---|---|---|
| `Wrappers` | — | `Option`, and `Result` with the Python exceptions the code raises |
| `PyOps` | — | `math.ceil` of a quotient, slicing, `sorted`, set listing |
| `Text` | — | `str.split()`, `' '.join`, `int()` of a token, `str()` of an int |
| `Graphs` | — | k-hop balls and `shortest_path_length`, as networkx computes them |
| `Solutions` | `Solution.py` | the `Solution` value, cost, k-neighbourhood, filter, decoding of solver variables |
| `Construction` | `NatGRASP.py` | `constructive_heuristic_th` |
| `Pool` | `NatGRASP.py` | `pool_selection` |
| `Adaptive` | `NatGRASP.py` | `neighborhood_update`, `adaptive_local_search`, `intensification` |
| `Ffp` | `FFP.py` | `read_input` and the part of `local_search` before the solve |
| `Descendants` | `f_desc.py`, `desc.py` | `is_descendant`, `num_of_descendants` |
| `IoUtil` | `io_util.py` | `generate_instance_list`, `result_to_dict`, the CSV row |

## Representation

- **Vertices and graphs.**
  - Vertices are the naturals `0 .. n-1`, because the construction indexes its
    round list `its` by vertex.
  - A `Graph(n, edges)` holds undirected edges.
- **Integers instead of floats.**
  - Sigma is kept in tenths: 5 stands for 0.5 and 10 for 1.0.
  - Alpha is an exact fraction.
  - The quartile thresholds are doubled. The "median" is the mean of two costs,
    so doubling keeps every comparison in integers.
- **Random choices become parameters.**
  - `random.sample` becomes a `Picker` oracle.
  - The local search becomes a function of the solution, the sigma and a call
    number. The call number stands for the time budget the clock would give
    that call.
  - The `time()` guard of the intensification loop becomes a fuel bound.
- **Set iteration order** (`list(th)`, `list(U - th)`, `list(self.kn)`) is
  taken as ascending vertex order, in place of CPython's hash-table order.
- **Exceptions are values.** Every exception the modelled code can raise on
  the inputs a member admits is an `Err` (inputs a member excludes by its
  `requires` are listed under "## Left out"):
  - `IndexError` for too few candidates or a line with one token;
  - `ValueError` for a bad integer token, the `min` of an empty list or a
    negative `D` handed to `random.sample`;
  - `ZeroDivisionError` for `D == 0`;
  - `KeyError` for a missing `sp_len` entry;
  - `NoPath` for disconnected vertices.
- **Behaviour kept as written.** The model follows the code where it looks
  surprising:
  - Burned vertices are not removed from the k-neighbourhood.
  - The bucket index stops at 2, so the fourth bucket of `pool_selection` is
    always empty.
  - The quartile "median" averages `S[n//2]` and `S[n//2+1]`.
  - Fewer than four candidates raise `IndexError`.
  - A two-token header line is an edge.
  - `FFP.__init__` has mutable defaults, so a second `read_input` keeps
    appending to `B` and to the graph.
- **`construct_neighborhood` is never defined in `Solution.py`.** Its callers
  still use it. It is modelled as `filter_neighborhood` that also stores its
  result as the solution's `neighborhood` and returns it. With sigma 1 this
  equals `construct_full_neighborhood`; `Solutions.FullSigmaIsFullNeighborhood`
  proves it.

## Model

| member | source | states |
|---|---|---|
| Solutions.CalculateCost | src/Solution.py:35-36 | the cost is the number of vertices that are not burned; nothing else in the solution changes |
| Solutions.ConstructKNeighborhood | src/Solution.py:38-62 | the loop over the defended vertices collects exactly the vertices within k hops of some defended vertex that are not defended themselves; the result stays inside the graph |
| Solutions.KHopShape | src/Solution.py:49-62 | the k-neighbourhood is disjoint from the defended set, is empty for k = 0 or no defended vertex, and grows with k |
| Solutions.KHopKeepsBurned | src/Solution.py:56-60 | burned vertices are not excluded: on the edge 0–1 with 0 defended and 1 burned, the 1-neighbourhood is exactly the burned vertex |
| Solutions.ConstructFullNeighborhood | src/Solution.py:64-77 | the neighbourhood is the k-neighbourhood joined with the defended set; an existing k-neighbourhood is reused and a missing one is computed; nothing else changes |
| Solutions.FullNeighborhoodReusesCache | src/Solution.py:74-77 | a second call with a different k changes nothing, because the cached k-neighbourhood is kept |
| Solutions.RankByScore | src/Solution.py:97-100 | the ranking lists every k-neighbour exactly once, in non-increasing score order |
| Solutions.KeepCount | src/Solution.py:103 | `ceil(sigma * size)` lies between 0 and the size for sigma in [0, 1]; it is the whole size at 1 and nothing at 0 |
| Solutions.FilterNeighborhood | src/Solution.py:79-104 | the filtered set contains the defended vertices and lies within the k-neighbourhood joined with them; the solution gains its cached k-neighbourhood and nothing else |
| Solutions.FilterKeepsFraction | src/Solution.py:97-104 | exactly `ceil(sigma * len(kn))` neighbours are kept beyond the defended set; sigma 1 keeps the full neighbourhood and sigma 0 keeps only the defended set |
| Solutions.FilterKeepsBestScores | src/Solution.py:97-104 | every kept neighbour scores at least as high as every dropped one |
| Solutions.ConstructNeighborhood | src/FFP.py:66 | the neighbourhood returned and stored on the solution is exactly `filter_neighborhood`'s sigma filter (the `ceil(sigma·len(kn))` best-scored k-neighbours joined with the defended vertices), stored together with the cached k-neighbourhood; nothing else changes |
| Solutions.FullSigmaIsFullNeighborhood | src/NatGRASP.py:111 | with sigma 1 the constructed neighbourhood equals the full neighbourhood for every scoring function |
| Solutions.VarsToSolution | src/Solution.py:118-144 | a vertex is burned if b is set at its first marked round, and defended if d is set there and b is not; the two sets are disjoint; an unmarked vertex keeps `inf` and a marked one its first marked round; `optimal` holds exactly when the status is OPTIMAL |
| Solutions.FirstMark | src/Solution.py:129-140 | the scan over rounds 0..T stops at the first round where b or d is set, and reports no mark exactly when none is set up to T |
| Construction.Threatened | src/NatGRASP.py:73-78 | a vertex is threatened exactly when it is adjacent to a burned vertex and is neither defended nor burned |
| Construction.Ranked | src/NatGRASP.py:86 | the ranking lists the threatened vertices first, then the other untouched vertices, each exactly once |
| Construction.Rcl | src/NatGRASP.py:89 | for alpha in [0, 1] the RCL is the shortest prefix of the ranking that covers the fraction alpha of it |
| Construction.Sample | src/NatGRASP.py:92 | the defended sample has `min(D, len(RCL))` distinct members, all drawn from the RCL; a negative D never gets here (see Construction.Construct) |
| Construction.Defend | src/NatGRASP.py:86-92 | each round defends exactly `min(D, len(RCL))` vertices, all from the RCL prefix of the ranked candidates |
| Construction.DefendFromUntouched | src/NatGRASP.py:73-92 | threatened and defended vertices are untouched |
| Construction.Start | src/NatGRASP.py:56-66 | the initial state meets the loop invariant: B is burned and stamped 0, nothing is defended, and every other vertex is untouched and stamped `inf` |
| Construction.ApplySets | src/NatGRASP.py:94-105 | a round keeps defended and burned disjoint, keeps B burned, keeps `U = V − (defended ∪ burned)`, and shrinks U |
| Construction.ApplyStamps | src/NatGRASP.py:97-100 | a round stamps its number on exactly the vertices it defends or burns; earlier stamps and the `inf` of untouched vertices stay |
| Construction.ApplySpread | src/NatGRASP.py:73-78 | every newly burned vertex has a burned neighbour from an earlier round |
| Construction.StepKeepsInv | src/NatGRASP.py:69-105 | a round with a threatened vertex keeps the invariant, strictly shrinks U, and only adds to the defended and burned sets |
| Construction.Rounds | src/NatGRASP.py:69-105 | the loop ends, keeps the invariant, and stops with U empty or nothing threatened |
| Construction.FinishSpec | src/NatGRASP.py:107-111 | the returned solution copies the final sets, stamps and round counter; its cost is `n − len(burned)` and its neighbourhood is the full k-neighbourhood joined with the defended set |
| Construction.Construct | src/NatGRASP.py:68-92 | with D as an integer: a negative D raises `ValueError` exactly when the first round runs, that is when B threatens some vertex; otherwise a negative D ends the loop at once with nothing defended, only B burned, T = 1 and cost `n − len(B)`; a non-negative D gives the construction below |
| Construction.ConstructiveHeuristic | src/NatGRASP.py:38-112 | defended and burned are disjoint graph vertices with B burned, and the cost is `n − len(burned)`; at the end nothing is threatened or nothing is untouched; `its` is 0 exactly on B, the touch round for every other touched vertex and `inf` elsewhere; every round below T is used; each burned vertex outside B has a burned neighbour from an earlier round |
| Pool.DoubledQuartiles | src/NatGRASP.py:133-138 | the three thresholds exist exactly when there are at least four candidates; fewer raise `IndexError` |
| Pool.QuartilesAscend | src/NatGRASP.py:129-138 | over costs sorted ascending the thresholds ascend |
| Pool.AdvanceReachesClass | src/NatGRASP.py:147-148 | the inner `while` moves the scan index to the first threshold at or above the cost, capped at 2 |
| Pool.ClassMonotone | src/NatGRASP.py:145-149 | a costlier candidate never lands in a lower bucket, so the forward-only index loses nothing |
| Pool.Bucketize | src/NatGRASP.py:143-149 | the buckets concatenate to the candidates in order, the index never decreases and never exceeds 2, and the fourth bucket stays empty |
| Pool.BucketizeClassifies | src/NatGRASP.py:143-149 | over sorted candidates every candidate lands in the bucket its cost selects |
| Pool.ArgMin | src/NatGRASP.py:170-171 | `min(pool, key=…)` picks the first least-diverse pool member |
| Pool.SwapKeepsDiversity | src/NatGRASP.py:168-179 | a swap keeps the pool size; it happens only when the newcomer is strictly more diverse than the least-diverse member, and then it replaces exactly that member |
| Pool.VisitFills | src/NatGRASP.py:161-179 | visiting a bucket fills the pool up to `rho − 1` members, all drawn from the pool and the bucket |
| Pool.WalkFills | src/NatGRASP.py:160-183 | the walk from the top bucket down leaves `min(rho − 1, visited)` members, all drawn from the visited buckets |
| Pool.VisitAppends | src/NatGRASP.py:161-165 | a bucket that fits in the pool's free room is appended whole and in order |
| Pool.WalkStopsWhenFull | src/NatGRASP.py:181-183 | once a bucket fills the pool to `rho − 1` the walk stops: its result is that bucket's visit, a full pool drawn from the earlier pool and that bucket only, so no cheaper bucket's candidate enters it |
| Pool.WalkPassesWhenShort | src/NatGRASP.py:160-183 | a bucket that leaves the pool short of `rho − 1` is taken whole and the walk continues with the next lower bucket |
| Pool.WalkFailsForNonPositiveRho | src/NatGRASP.py:164-171 | with `rho ≤ 0` the first candidate reaches `min` of the empty pool, which raises `ValueError` |
| Pool.SortedLastIsBest | src/NatGRASP.py:129-142 | the popped last element of the sorted list has the largest cost, and the rest are the other candidates |
| Pool.FillPoolSpec | src/NatGRASP.py:140-185 | filling succeeds exactly for `rho ≥ 1`; it keeps `best` and returns `min(rho − 1, len(rest))` members of the rest |
| Pool.SelectFromSortedSpec | src/NatGRASP.py:133-185 | over a sorted list selection succeeds exactly for at least four candidates and `rho ≥ 1`; best is the last element and the pool holds `min(rho − 1, n − 1)` of the others |
| Pool.PoolSelectionOutcome | src/NatGRASP.py:114-185 | `pool_selection` succeeds exactly when there are at least four candidates and `rho ≥ 1`, and then the pool has `min(rho − 1, len(S) − 1)` members |
| Pool.PoolSelectionContents | src/NatGRASP.py:129-185 | best is a candidate of maximal cost, and the pool plus best is a sub-multiset of the candidates |
| Adaptive.NeighborhoodUpdate | src/NatGRASP.py:187-188 | sigma stays in [0, 1] and moves by at most a tenth; it never drops after an optimal solve and never rises otherwise; it is unchanged exactly at the clamp |
| Adaptive.Improve | src/NatGRASP.py:218 | the incumbent is whichever of the two has the larger cost, ties keeping the old one |
| Adaptive.ChampionIsFirstMax | src/NatGRASP.py:218 | repeated incumbent updates keep the first solution of maximal cost |
| Adaptive.SearchPoolCalls | src/NatGRASP.py:211-217 | the i-th pool search runs on the i-th member with the i-th sigma |
| Adaptive.SearchPoolSigmas | src/NatGRASP.py:211-221 | sigma starts at the given value and each step applies `neighborhood_update` to the previous search's optimality |
| Adaptive.SearchPoolIncumbent | src/NatGRASP.py:211-218 | the incumbent after the pool is the champion of the start and every result |
| Adaptive.Reverse | src/NatGRASP.py:205 | `pool.reverse()` puts the last member first |
| Adaptive.AdaptivePass | src/NatGRASP.py:204-229 | the pool is searched last member first with sigma starting at 0.5, then best with the sigma the pool left; each sigma follows from the previous search; the incumbent is the first solution of maximal cost among best and the results |
| Adaptive.SearchRound | src/NatGRASP.py:256-273 | a round searches prev, numbered call, after storing on it the neighbourhood for sigma, a set between its defended vertices and its k-neighbourhood joined with them, with nothing else changed; sigma then steps by `neighborhood_update` of the search's optimality; the new neighbourhood for the stepped sigma is stored on the result in the same way; the round converges exactly when the two stored neighbourhoods are equal; each stored neighbourhood is exactly `filter_neighborhood`'s sigma filter of its solution, ranked by that solution's scores, the first for sigma and the second for the stepped sigma |
| Adaptive.SearchRoundKeepsFraction | src/NatGRASP.py:256-273 | both neighbourhoods a round compares keep `ceil(sigma·len(kn))` of their solution's k-neighbours besides its defended vertices, for the round's sigma and for the stepped sigma |
| Adaptive.Intensify | src/NatGRASP.py:249-286 | the loop makes at most fuel rounds and stops early only after a round; a first round that converges ends the loop as converged with one result; a first round that does not converge but leaves sigma unchanged with gamma set ends it as stalled; the restart fires at most once and never after gamma is set; a stall means gamma was set; sigma stays in [0, 1] |
| Adaptive.IntensifyTrace | src/NatGRASP.py:250-283 | the first round searches the starting solution with the starting sigma; each recorded result is its round's search result; every later round follows a round that did not converge and searches that round's result, with 0.5 when that round left sigma unchanged (the restart) and with its stepped sigma otherwise |
| Adaptive.IntensifyEnds | src/NatGRASP.py:269-274 | a loop that did not run out of time ended on its last round: it converged exactly when that round's neighbourhoods are equal, it stalled only when that round left sigma unchanged, and it reports that round's sigma |
| Adaptive.IntensifyRestartCount | src/NatGRASP.py:276-279 | the restart counter is the number of rounds that left sigma unchanged without ending the loop |
| Adaptive.IntensifyRestartsOnce | src/NatGRASP.py:272-279 | no round restarts the loop when gamma starts set; no round after a restart restarts it again; a reported restart is a round that restarted |
| Adaptive.IntensifyChampion | src/NatGRASP.py:250-286 | the best solution returned is the first of maximal cost among the starting best and every round's result |
| Adaptive.AdaptiveLocalSearchSpec | src/NatGRASP.py:204-286 | the final solution has maximal cost among best and every search result, and is the first such; its cost never falls below best's; at most one restart; a stall implies the restart fired; sigma stays in [0, 1] |
| Ffp.ClassifyLineSpec | src/FFP.py:40-49 | past the five header lines, a one-token line is a burned vertex; a two-token line at any index is an edge; everything else is ignored; a non-integer token raises `ValueError` |
| Ffp.Classes | src/FFP.py:40-41 | every line is classified with its own index |
| Ffp.ApplyAppend | src/FFP.py:40-49 | reading consecutive lines accumulates in order, and the first error stops reading |
| Ffp.ReadLinesAppend | src/FFP.py:37-49 | reading a file in two parts equals reading it whole |
| Ffp.Nodes | src/FFP.py:49-52 | the vertices are exactly the edge endpoints |
| Ffp.ReadInput | src/FFP.py:34-55 | B and the edges only grow and D is kept; `T = ceil(n / D)` over the distinct edge endpoints; the B and edge list returned are exactly those the line loop accumulates, and a line that fails to parse is the error returned; the only failure after a clean read is `ZeroDivisionError` for `D == 0` |
| Ffp.ReadInputRendered | src/FFP.py:34-55 | `read_input` of a file of five header lines, then the burned vertices one per line, then the edges, each line with or without its `'\n'`, appends exactly those vertices and edges in order and sets `T = ceil(n / D)` over all the edges' endpoints |
| Ffp.ClassifyTerminated | src/FFP.py:40-49 | the `'\n'` ending a line read from the file does not change how the line is classified |
| Ffp.HorizonBounds | src/FFP.py:52-55 | for `D ≥ 1`: `(T − 1)·D < n ≤ T·D` |
| Ffp.ClassifyWritten | src/FFP.py:41-49 | the line `str(b)` past the header reads as burned vertex b, and `"u v"` reads as the edge (u, v) |
| Ffp.ReadRendered | src/FFP.py:37-49 | a file of five header lines, then the burned vertices one per line, then the edges, is read back as exactly those vertices and edges, in order |
| Ffp.LocalSearch | src/FFP.py:60-80 | with no time left the solution comes back untouched and nothing is fixed; otherwise the solution searched is the input with its k-neighbourhood cached and a neighbourhood between its defended set and its k-neighbourhood joined with them stored, nothing else changed; the fixed set is exactly the graph's vertices outside that neighbourhood and the defended set, holds no other value, and the solver runs on it |
| Ffp.LocalSearchKeepsFraction | src/FFP.py:66 | for sigma in [0, 1], the searched neighbourhood keeps exactly `ceil(sigma * len(kn))` vertices besides the defended ones |
| Ffp.LocalSearchKeepsBestScores | src/FFP.py:66 | every vertex the searched neighbourhood keeps scores, under f on the input solution, at least as high as every vertex of the k-neighbourhood it drops |
| Ffp.LocalSearchFixesOutsideBall | src/FFP.py:62-67 | with sigma 1 and nothing cached, the fixed vertices are those more than k hops from every defended vertex |
| Text.Split | src/FFP.py:41 | every token is non-empty and free of whitespace |
| Text.SplitJoin | src/FFP.py:41 | splitting words joined by single spaces gives the words back |
| Text.SplitAtSpace | src/FFP.py:41 | `split()` cuts at every whitespace character: splitting around one is splitting each side on its own and concatenating |
| Text.SplitTrailingSpace | src/FFP.py:40-41 | trailing whitespace, such as the `'\n'` each line read from a file keeps, does not change the tokens |
| Text.ParseInt | src/FFP.py:45 | `int()` accepts exactly an optional sign followed by a numeral |
| Text.ParseIntToString | src/FFP.py:45 | `int(str(n)) == n`, and `str(n)` is one token |
| Graphs.BallMonotone | src/Solution.py:56 | the cutoff ball grows with the radius |
| Graphs.BallUnion | src/Solution.py:51-60 | the union of the balls around each defended vertex is the ball around the defended set |
| Graphs.ShortestPathLength | src/desc.py:33-34 | the length is the least radius whose ball around u contains b, and it exists exactly when u is a vertex and some ball reaches b |
| Descendants.MinLookup | src/f_desc.py:35-36 | the minimum is attained by some lookup and bounds every lookup; the lookups are made in order, so the first failing one is the error; an empty set raises `ValueError` |
| Descendants.DistToSetSpec | src/f_desc.py:35-36 | the distance to the burned set exists exactly when the set is non-empty and every lookup succeeds; it is the least distance to a member |
| Descendants.IsDescendant | src/f_desc.py:24-40 | the verdict exists exactly when both distances exist, and no vertex is its own descendant |
| Descendants.DescendantByWitness | src/f_desc.py:35-40 | v is a descendant of u exactly when some burned vertex is closer to u than every burned vertex is to v |
| Descendants.DescendantStrictOrder | src/f_desc.py:35-40 | the relation is irreflexive, asymmetric and transitive |
| Descendants.NumOfDescendants | src/f_desc.py:43-48 | the count never exceeds the number of vertices |
| Descendants.CountDefined | src/f_desc.py:47-48 | the count exists exactly when every distance it needs exists |
| Descendants.CountIsFarther | src/f_desc.py:47-48 | the count is the number of vertices strictly farther from the burned set than u |
| Descendants.CountBound | src/f_desc.py:47-48 | the count is at most n − 1 |
| Descendants.CountAntitone | src/f_desc.py:35-48 | a vertex nearer the burned set has at least as many descendants |
| Descendants.TableFailures | src/f_desc.py:35-48 | the table variant fails only with `ValueError` for an empty burned set or `KeyError` for a missing entry; a complete table and a non-empty burned set never fail |
| Descendants.BurnedAtZero | src/desc.py:33-34 | a vertex is at distance 0 from the burned set exactly when it is burned |
| Descendants.BurnedCountsUnburned | src/desc.py:33-45 | a burned vertex counts every vertex that is not burned |
| IoUtil.NonEmpty | src/io_util.py:25 | the filter drops exactly the empty lines and keeps the rest |
| IoUtil.NonEmptyAppend | src/io_util.py:25 | the filter keeps order: filtering two parts equals filtering the whole |
| IoUtil.PathJoin | src/io_util.py:29 | `os.path.join` ends with its second part, and an absolute second part replaces the first |
| IoUtil.PathSplit | src/io_util.py:41 | the tail is a slash-free suffix of the path preceded by a slash unless it is the whole path, that is the part after the last slash; the head is a prefix of the path |
| IoUtil.SplitOfJoin | src/io_util.py:29-41 | splitting a joined path gives back the last component |
| IoUtil.InstancePath | src/io_util.py:28-29 | a line yields a path exactly when it has at least two tokens, and fails with `IndexError` otherwise |
| IoUtil.InstancePaths | src/io_util.py:27-29 | every line maps to its own path, in order, and any short line raises `IndexError` |
| IoUtil.GenerateInstanceListSpec | src/io_util.py:20-31 | the list has one entry per non-empty line; it fails with `IndexError` exactly when a non-empty line has fewer than two tokens |
| IoUtil.LineToPath | src/io_util.py:28-29 | a line of words becomes `instances/<first>/<second>`, and further tokens are ignored |
| IoUtil.BlankLineFails | src/io_util.py:28-29 | a whitespace-only line raises `IndexError` |
| IoUtil.Header | src/io_util.py:52 | the header is `set, n, result, instance, D, runtime` |
| IoUtil.CsvRow | src/io_util.py:53-57 | a key outside the field names is an error; otherwise each column holds its value, or an empty cell |
| IoUtil.FullRow | src/io_util.py:52-57 | a dict with all six keys is written in header order |
| IoUtil.ResultRowWritten | src/io_util.py:40-57 | the row written for a result is the parent directory, n, the best cost, the file name, D and the runtime |
| IoUtil.SplitTwice | src/io_util.py:41-42 | splitting `root/s/name` gives the file name, and splitting its head gives `s` |
| IoUtil.RowOfListedInstance | src/io_util.py:29-45 | for a path built from an instance-list line, `set` is the directory token and `instance` the file token |
| PyOps.CeilDiv | src/FFP.py:55 | `ceil(a / b)` is the least integer at or above the quotient |
| PyOps.Prefix | src/NatGRASP.py:89 | a slice `xs[:m]` is a prefix whose length follows Python's slicing rules, negative m included |
| PyOps.SortBy | src/NatGRASP.py:129 | `sorted` returns a permutation in ascending key order |
| PyOps.ListOfSet | src/NatGRASP.py:86 | listing a set gives each member once, in ascending order |

## Left out

- Gurobi is not modelled: the integer-programming formulations (`FFM.py`, `M-FFM.py`), `start_model`, the solve in `local_search` and the solver-driven scripts (`solve.py`, `solve_exact.py`). `local_search` takes the solver as a function of the fixed set. `vars_to_solution` takes the variables' values as booleans, `model.objVal` as an integer and the status as a number.
- `main.py` and `pp.py` are not modelled: the orchestration driven by wall-clock time and `random.seed`, the printing, and the plotting.
- `print_result` and the file handling of `dicts_to_csv` are not modelled. They only format and write output; the row and header contents are modelled.
- File reading is not modelled: an input file is given as its list of lines.
- Adaptive.NeighborhoodUpdate: uses exact tenths. It does not model the float drift of repeated `±0.1` (for example 0.5 + 0.1 + 0.1 ≠ 0.7), so the clamp is reached one step later than in the model: from 0.5, five `+0.1` steps give 0.9999999999999999 and only the sixth gives 1, and five `-0.1` steps give 2.78e-17 and only the sixth gives 0. Adaptive.Intensify and Adaptive.IntensifyRestartsOnce therefore see the unchanged sigma (the `sigma == prev_sig` test at NatGRASP.py:272-279, which triggers the restart or the stall) one round earlier than the source does on any run whose searches keep the same optimality. Drift also changes the filter size `ceil(sigma * len(kn))`: a drifted "zero" such as 2.78e-17 keeps one neighbour instead of none, and a drifted 0.5000000000000001 keeps one more neighbour for every even size. Literal tenths and `alpha = 0.3` give exact ceilings.
- Adaptive.AdaptivePass: the time budgets (`local_time`, `sol_time`, `limit − curr_time`) and the horizon `ceil((1 + eps) * T)` are not modelled. Each search gets its call number in their place.
- Adaptive.Intensify: the `curr_time < self.limit` guard becomes a fuel bound. Fuel zero ends the loop as `OutOfTime`.
- Adaptive.Intensify: sigma steps in exact tenths (see Adaptive.NeighborhoodUpdate). On a run whose searches keep the same optimality, the source reaches the clamp, and so its restart or stall, one round after the model does.
- Adaptive.Intensify: mutation is not modelled. In the source, `construct_neighborhood` mutates solution objects, so a neighbourhood stored on `prev_sol` is visible through `best_sol` when they are the same object. The model passes values, and the stop test compares the neighbourhoods the round itself builds.
- Construction.Sample: `random.sample` becomes the `pick` oracle. When the oracle's answer is not a set of `min(D, |RCL|)` RCL members, the first that many RCL members are taken instead.
- Construction.ConstructiveHeuristic: B must be graph vertices 0..n−1 (`Elems(B) <= Vertices(g)`, also on Construction.Construct and Construction.Start). Otherwise the source raises `KeyError` at `G.adj[b]` or `IndexError` at `its[v] = t`, and `read_input` can produce such a B, since seeds are never checked against the edge endpoints.
- PyOps.ListOfSet: CPython lists a set of ints in hash-table order, which depends on the values modulo the table size and on insertion history (`list({1, 8})` is `[8, 1]`). The model fixes ascending order in its place.
- Construction.Ranked: the iteration order of Python sets is taken as ascending vertex order.
- Solutions.RankByScore: the iteration order of Python sets is taken as ascending vertex order. `PyOps.SortBy` keeps equal keys in input order, as Python's stable sort does, but no contract states this.
- Solutions.VarsToSolution: the `.X == 1.0` float test becomes a boolean, and `int(model.objVal)` is taken as already an integer.
- Text.ParseInt: accepts ASCII digits with single underscores between digits. It does not model the Unicode digits that Python's `int()` also accepts.
- Graphs.ShortestPathLength: networkx's `NodeNotFound`, for a vertex outside the graph, and `NetworkXNoPath` are both modelled as `NoPath`.
- Descendants.TableDist: `FFP.sp_len`, read by `f_desc.py`, is never set in `FFP.py`. The table is therefore a parameter; a missing entry is a `KeyError`.
- Descendants.NumOfDescendants: the order of `G.nodes` is a parameter (the `nodes` sequence).
- Ffp.ReadInput: a failure in the middle of a file does not model the partial mutation of `B` and of the graph that happens before the exception.
- IoUtil.ResultRowWritten: `round(final_time, 4)` is taken as an already rounded real.
- IoUtil.GenerateInstanceListSpec: `splitlines` is not modelled: the file is given as its lines.
- Pool.PoolSelectionContents: solutions are compared by value, while the source keys `n_s` by object identity. The source's candidate set deduplicates by identity only, so the model takes the candidates as a sequence, duplicates allowed.

=== FILE: adaptive.dfy ===
/** The adaptive part of the matheuristic: the sigma step
    (`neighborhood_update`), the local search over the pool
    (`adaptive_local_search`) and the intensification loop with its single
    restart (`intensification`). Sigma is kept in tenths: 5 stands for 0.5
    and 10 for 1.0. The local search is a parameter, and the wall-clock guard
    of the intensification loop becomes a fuel bound. */
module Adaptive {
  import opened Graphs
  import opened Solutions
  import opened Wrappers

  /** `neighborhood_update`: one tenth up after an optimal solve, one tenth
      down otherwise, clamped to [0, 10]. */
  function NeighborhoodUpdate(sigma: int, optimal: bool): (r: int)
    ensures 0 <= sigma <= 10 ==> 0 <= r <= 10
    ensures 0 <= sigma <= 10 ==> (optimal ==> sigma <= r) && (!optimal ==> r <= sigma)
    ensures 0 <= sigma <= 10 ==> -1 <= r - sigma <= 1
    ensures 0 <= sigma <= 10 ==> (r == sigma <==> (optimal && sigma == 10) || (!optimal && sigma == 0))
  {
    if optimal then (if sigma + 1 < 10 then sigma + 1 else 10)
    else (if sigma - 1 > 0 then sigma - 1 else 0)
  }

  /** The local search `problem.local_search(s, k, sigma, f, time)` with the
      horizon `problem.T` it sets: a solution, a sigma, and the number of the
      call, which stands for the time budget the clock would give it. */
  type Search = (Solution, int, nat) -> Solution

  /** `curr if curr.cost > inc.cost else inc`. */
  function Improve(inc: Solution, curr: Solution): (r: Solution)
    ensures r == inc || r == curr
    ensures r.cost >= inc.cost && r.cost >= curr.cost
    ensures r == curr <==> curr.cost > inc.cost || curr == inc
  {
    if curr.cost > inc.cost then curr else inc
  }

  /** The incumbent a left-to-right scan of `xs` keeps when it replaces its
      incumbent only on a strict improvement. */
  function Champion(xs: seq<Solution>): Solution
    requires |xs| > 0
  {
    if |xs| == 1 then xs[0] else Improve(Champion(xs[..|xs| - 1]), xs[|xs| - 1])
  }

  /** The scan keeps the first of `xs` with the largest cost. */
  lemma {:induction false} ChampionIsFirstMax(xs: seq<Solution>)
    requires |xs| > 0
    ensures forall j :: 0 <= j < |xs| ==> xs[j].cost <= Champion(xs).cost
    ensures exists i :: 0 <= i < |xs| && xs[i] == Champion(xs)
                        && forall j :: 0 <= j < i ==> xs[j].cost < Champion(xs).cost
  {
    if |xs| > 1 {
      var init := xs[..|xs| - 1];
      ChampionIsFirstMax(init);
      var i :| 0 <= i < |init| && init[i] == Champion(init)
               && forall j :: 0 <= j < i ==> init[j].cost < Champion(init).cost;
      var c := Champion(xs);
      if c == Champion(init) {
        assert xs[i] == c;
        assert forall j :: 0 <= j < i ==> xs[j] == init[j];
      } else {
        assert xs[|xs| - 1] == c;
        assert forall j :: 0 <= j < |xs| - 1 ==> xs[j] == init[j];
      }
    } else {
      assert xs[0] == Champion(xs);
    }
  }

  /** Scanning `x, y` and then `rest` keeps what scanning the winner of `x`
      and `y` and then `rest` keeps. */
  lemma {:induction false} ChampionOfPair(x: Solution, y: Solution, rest: seq<Solution>)
    ensures Champion([x] + ([y] + rest)) == Champion([Improve(x, y)] + rest)
    decreases |rest|
  {
    if rest == [] {
      assert [x] + ([y] + rest) == [x] + [y];
      ChampionSnoc([x], y);
      assert [Improve(x, y)] + rest == [Improve(x, y)];
    } else {
      var r, last := rest[..|rest| - 1], rest[|rest| - 1];
      ChampionOfPair(x, y, r);
      assert [x] + ([y] + rest) == ([x] + ([y] + r)) + [last];
      assert [Improve(x, y)] + rest == ([Improve(x, y)] + r) + [last];
      ChampionSnoc([x] + ([y] + r), last);
      ChampionSnoc([Improve(x, y)] + r, last);
    }
  }

  /** Scanning one more solution improves the incumbent with it. */
  lemma ChampionSnoc(xs: seq<Solution>, y: Solution)
    requires |xs| > 0
    ensures Champion(xs + [y]) == Improve(Champion(xs), y)
  {
    assert (xs + [y])[..|xs|] == xs;
  }

  /** The record of a pass over the pool: the incumbent, the sigma reached,
      the solution each call returned and the sigma each call was given. */
  datatype Pass = Pass(incumbent: Solution, sigma: int, results: seq<Solution>, sigmas: seq<int>)

  /** The `for s in pool` loop of `adaptive_local_search`, from call number
      `call` on. */
  function SearchPool(xs: seq<Solution>, inc: Solution, sigma: int, search: Search,
                      call: nat): (r: Pass)
    ensures |r.results| == |r.sigmas| == |xs|
    ensures 0 <= sigma <= 10 ==> 0 <= r.sigma <= 10
    decreases |xs|
  {
    if xs == [] then
      Pass(inc, sigma, [], [])
    else
      var curr := search(xs[0], sigma, call);
      var rest := SearchPool(xs[1..], Improve(inc, curr), NeighborhoodUpdate(sigma, curr.optimal),
                             search, call + 1);
      Pass(rest.incumbent, rest.sigma, [curr] + rest.results, [sigma] + rest.sigmas)
  }

  /** One step of the pool loop: the first member is searched, and the
      rest of the pass starts from the improved incumbent and the updated
      sigma. */
  lemma SearchPoolStep(xs: seq<Solution>, inc: Solution, sigma: int, search: Search, call: nat)
    requires xs != []
    ensures var curr := search(xs[0], sigma, call);
            var rest := SearchPool(xs[1..], Improve(inc, curr), NeighborhoodUpdate(sigma, curr.optimal),
                                   search, call + 1);
            var r := SearchPool(xs, inc, sigma, search, call);
            && r.results == [curr] + rest.results
            && r.sigmas == [sigma] + rest.sigmas
            && r.sigma == rest.sigma
  {
  }

  /** The incumbent after the pool loop is what a scan of the starting
      incumbent and the returned solutions keeps. */
  lemma {:induction false} SearchPoolIncumbent(xs: seq<Solution>, inc: Solution, sigma: int,
                                               search: Search, call: nat)
    ensures var r := SearchPool(xs, inc, sigma, search, call);
            r.incumbent == Champion([inc] + r.results)
    decreases |xs|
  {
    if xs != [] {
      var curr := search(xs[0], sigma, call);
      var sigma' := NeighborhoodUpdate(sigma, curr.optimal);
      var rest := SearchPool(xs[1..], Improve(inc, curr), sigma', search, call + 1);
      SearchPoolIncumbent(xs[1..], Improve(inc, curr), sigma', search, call + 1);
      ChampionOfPair(inc, curr, rest.results);
      SearchPoolStep(xs, inc, sigma, search, call);
    }
  }

  /** The pool loop calls the search on each member in turn, with the call
      numbers counting up. */
  lemma {:induction false} SearchPoolCalls(xs: seq<Solution>, inc: Solution, sigma: int,
                                           search: Search, call: nat)
    ensures var r := SearchPool(xs, inc, sigma, search, call);
            forall i :: 0 <= i < |xs| ==> r.results[i] == search(xs[i], r.sigmas[i], call + i)
    decreases |xs|
  {
    if xs != [] {
      var curr := search(xs[0], sigma, call);
      var sigma' := NeighborhoodUpdate(sigma, curr.optimal);
      var tail := xs[1..];
      var rest := SearchPool(tail, Improve(inc, curr), sigma', search, call + 1);
      var r := SearchPool(xs, inc, sigma, search, call);
      assert r.results == [curr] + rest.results && r.sigmas == [sigma] + rest.sigmas by {
        SearchPoolStep(xs, inc, sigma, search, call);
      }
      assert forall i :: 0 <= i < |tail| ==> rest.results[i] == search(tail[i], rest.sigmas[i], call + 1 + i) by {
        SearchPoolCalls(tail, Improve(inc, curr), sigma', search, call + 1);
      }
      forall i | 0 <= i < |xs| ensures r.results[i] == search(xs[i], r.sigmas[i], call + i) {
        if i > 0 {
          assert xs[i] == tail[i - 1];
          assert r.results[i] == rest.results[i - 1] && r.sigmas[i] == rest.sigmas[i - 1];
        }
      }
    }
  }

  /** The first member is searched with the starting sigma, each later one
      with the sigma the previous result left, and the pass ends with the
      sigma the last result left. */
  lemma {:induction false} SearchPoolSigmas(xs: seq<Solution>, inc: Solution, sigma: int,
                                            search: Search, call: nat)
    ensures var r := SearchPool(xs, inc, sigma, search, call);
            && (|xs| > 0 ==> r.sigmas[0] == sigma)
            && (forall i :: 0 < i < |xs| ==>
                  r.sigmas[i] == NeighborhoodUpdate(r.sigmas[i - 1], r.results[i - 1].optimal))
            && r.sigma == if xs == [] then sigma
                          else NeighborhoodUpdate(r.sigmas[|xs| - 1], r.results[|xs| - 1].optimal)
    decreases |xs|
  {
    if xs != [] {
      var curr := search(xs[0], sigma, call);
      var sigma' := NeighborhoodUpdate(sigma, curr.optimal);
      var tail := xs[1..];
      var rest := SearchPool(tail, Improve(inc, curr), sigma', search, call + 1);
      var r := SearchPool(xs, inc, sigma, search, call);
      assert r.results == [curr] + rest.results && r.sigmas == [sigma] + rest.sigmas
             && r.sigma == rest.sigma by {
        SearchPoolStep(xs, inc, sigma, search, call);
      }
      assert && (|tail| > 0 ==> rest.sigmas[0] == sigma')
             && (forall i :: 0 < i < |tail| ==>
                   rest.sigmas[i] == NeighborhoodUpdate(rest.sigmas[i - 1], rest.results[i - 1].optimal))
             && rest.sigma == if tail == [] then sigma'
                              else NeighborhoodUpdate(rest.sigmas[|tail| - 1], rest.results[|tail| - 1].optimal)
      by {
        SearchPoolSigmas(tail, Improve(inc, curr), sigma', search, call + 1);
      }
      forall i | 0 < i < |xs|
        ensures r.sigmas[i] == NeighborhoodUpdate(r.sigmas[i - 1], r.results[i - 1].optimal)
      {
        assert r.sigmas[i] == rest.sigmas[i - 1];
        if i > 1 {
          assert r.results[i - 1] == rest.results[i - 2] && r.sigmas[i - 1] == rest.sigmas[i - 2];
        }
      }
      if tail != [] {
        assert r.results[|xs| - 1] == rest.results[|tail| - 1];
        assert r.sigmas[|xs| - 1] == rest.sigmas[|tail| - 1];
      }
    }
  }

  function Reverse<T>(xs: seq<T>): (r: seq<T>)
    ensures |r| == |xs|
    ensures forall i :: 0 <= i < |xs| ==> r[i] == xs[|xs| - 1 - i]
  {
    if xs == [] then [] else Reverse(xs[1..]) + [xs[0]]
  }

  /** The pool loop and the final search on `best`, without the
      intensification that follows: the pool is searched from its last
      member to its first with sigma starting at 0.5, then `best` with the
      sigma the pool left, and the incumbent is the first of `best` and the
      returned solutions with the largest cost. */
  function AdaptivePass(pool: seq<Solution>, best: Solution, search: Search): (r: Pass)
    ensures |r.results| == |r.sigmas| == |pool| + 1
    ensures forall i :: 0 <= i < |pool| ==>
              r.results[i] == search(pool[|pool| - 1 - i], r.sigmas[i], i)
    ensures r.results[|pool|] == search(best, r.sigmas[|pool|], |pool|)
    ensures r.sigmas[0] == 5
    ensures forall i :: 0 < i <= |pool| ==>
              r.sigmas[i] == NeighborhoodUpdate(r.sigmas[i - 1], r.results[i - 1].optimal)
    ensures r.sigma == r.sigmas[|pool|]
    ensures 0 <= r.sigma <= 10
    ensures r.incumbent == Champion([best] + r.results)
  {
    var p := SearchPool(Reverse(pool), best, 5, search, 0);
    PoolFactsHold(pool, best, search);
    PassFromPool(pool, best, search, p);
    PassChampion(pool, best, search, p);
    var curr := search(best, p.sigma, |pool|);
    Pass(Improve(p.incumbent, curr), p.sigma, p.results + [curr], p.sigmas + [p.sigma])
  }

  /** What the pool loop over the reversed pool leaves: member `i` of the
      reversed pool searched with the `i`-th sigma, the sigmas stepping from
      0.5, and the incumbent the best of `best` and the results. */
  ghost predicate PoolFacts(pool: seq<Solution>, best: Solution, search: Search, p: Pass) {
    && |p.results| == |p.sigmas| == |pool|
    && (forall i :: 0 <= i < |pool| ==> p.results[i] == search(pool[|pool| - 1 - i], p.sigmas[i], i))
    && (|pool| > 0 ==> p.sigmas[0] == 5)
    && (forall i :: 0 < i < |pool| ==>
          p.sigmas[i] == NeighborhoodUpdate(p.sigmas[i - 1], p.results[i - 1].optimal))
    && p.sigma == (if pool == [] then 5
                   else NeighborhoodUpdate(p.sigmas[|pool| - 1], p.results[|pool| - 1].optimal))
    && 0 <= p.sigma <= 10
    && p.incumbent == Champion([best] + p.results)
  }

  /** The pool loop over the reversed pool leaves what `PoolFacts` says. */
  lemma PoolFactsHold(pool: seq<Solution>, best: Solution, search: Search)
    ensures PoolFacts(pool, best, search, SearchPool(Reverse(pool), best, 5, search, 0))
  {
    var p := SearchPool(Reverse(pool), best, 5, search, 0);
    SearchPoolCalls(Reverse(pool), best, 5, search, 0);
    SearchPoolSigmas(Reverse(pool), best, 5, search, 0);
    SearchPoolIncumbent(Reverse(pool), best, 5, search, 0);
    forall i | 0 <= i < |pool|
      ensures p.results[i] == search(pool[|pool| - 1 - i], p.sigmas[i], i)
    {
      assert Reverse(pool)[i] == pool[|pool| - 1 - i];
    }
  }

  /** The search of `best` after the pool loop completes the pass. */
  lemma PassFromPool(pool: seq<Solution>, best: Solution, search: Search, p: Pass)
    requires PoolFacts(pool, best, search, p)
    ensures var curr := search(best, p.sigma, |pool|);
            var r := Pass(Improve(p.incumbent, curr), p.sigma, p.results + [curr], p.sigmas + [p.sigma]);
            && (forall i :: 0 <= i < |pool| ==> r.results[i] == search(pool[|pool| - 1 - i], r.sigmas[i], i))
            && r.results[|pool|] == search(best, r.sigmas[|pool|], |pool|)
            && r.sigmas[0] == 5
            && (forall i :: 0 < i <= |pool| ==>
                  r.sigmas[i] == NeighborhoodUpdate(r.sigmas[i - 1], r.results[i - 1].optimal))
  {
    var curr := search(best, p.sigma, |pool|);
    var r := Pass(Improve(p.incumbent, curr), p.sigma, p.results + [curr], p.sigmas + [p.sigma]);
    forall i | 0 <= i < |pool|
      ensures r.results[i] == search(pool[|pool| - 1 - i], r.sigmas[i], i)
    {
      assert r.results[i] == p.results[i] && r.sigmas[i] == p.sigmas[i];
    }
  }

  /** The incumbent after the search of `best` is the best of `best` and
      every result. */
  lemma PassChampion(pool: seq<Solution>, best: Solution, search: Search, p: Pass)
    requires p.incumbent == Champion([best] + p.results)
    ensures var curr := search(best, p.sigma, |pool|);
            Improve(p.incumbent, curr) == Champion([best] + (p.results + [curr]))
  {
    var curr := search(best, p.sigma, |pool|);
    var all := [best] + (p.results + [curr]);
    assert all[..|all| - 1] == [best] + p.results;
  }

  /** Why the intensification loop ended. */
  datatype Stop = OutOfTime | Converged | Stalled

  /** The record of the intensification loop: the incumbent, the final
      sigma, the restarts that fired, the solutions the searches returned,
      why the loop ended, and the solution and sigma each round started
      from. */
  datatype Outcome = Outcome(best: Solution, sigma: int, restarts: nat,
                             results: seq<Solution>, stop: Stop,
                             inputs: seq<Solution>, sigmas: seq<int>)

  /** The neighbourhood `construct_neighborhood(k, sigma, G, f)` stores on a
      solution, ranked by the solution's own scores. */
  function Neighborhood(g: Graph, k: nat, f: (Solution, nat) -> int, s: Solution,
                        sigma: int): (Solution, set<nat>)
  {
    ConstructNeighborhood(s, g, k, sigma, Scores(f, s))
  }

  /** The scores `f(s, v)` of one solution, as a ranking key. */
  function Scores(f: (Solution, nat) -> int, s: Solution): nat -> int {
    (v: nat) => f(s, v)
  }

  /** One round of the intensification loop: `prev` with the neighbourhood
      for `sigma` stored on it (`searched`), the solution its search
      returned, the updated sigma, that solution with the neighbourhood for
      the updated sigma stored on it (`next`), and whether the two stored
      neighbourhoods coincide (an empty symmetric difference). */
  datatype RoundResult = RoundResult(searched: Solution, curr: Solution, sigma: int,
                                     next: Solution, converged: bool)

  /** `s'` is `s` with a neighbourhood between its defended set and its
      k-neighbourhood joined with it stored, and nothing else changed. */
  ghost predicate Stored(g: Graph, k: nat, s: Solution, s': Solution) {
    && s' == s.(kn := Some(CachedKn(s, g, k)), neighborhood := s'.neighborhood)
    && s'.neighborhood.Some?
    && s.defended <= s'.neighborhood.value <= CachedKn(s, g, k) + s.defended
  }

  /** The neighbourhood stored on `s'` is the sigma filter of `s`'s
      k-neighbourhood ranked by `s`'s own scores. */
  ghost predicate Filtered(g: Graph, k: nat, f: (Solution, nat) -> int, s: Solution,
                           sigma: int, s': Solution) {
    s'.neighborhood == Some(FilterNeighborhood(s, g, k, sigma, Scores(f, s)).1)
  }

  function SearchRound(g: Graph, k: nat, f: (Solution, nat) -> int, search: Search,
                       prev: Solution, sigma: int, call: nat): (r: RoundResult)
    ensures Stored(g, k, prev, r.searched)
    ensures r.curr == search(r.searched, sigma, call)
    ensures r.sigma == NeighborhoodUpdate(sigma, r.curr.optimal)
    ensures Stored(g, k, r.curr, r.next)
    ensures r.converged <==> r.searched.neighborhood == r.next.neighborhood
    ensures Filtered(g, k, f, prev, sigma, r.searched)
    ensures Filtered(g, k, f, r.curr, r.sigma, r.next)
  {
    var (prev', nPrev) := Neighborhood(g, k, f, prev, sigma);
    var curr := search(prev', sigma, call);
    var sigma' := NeighborhoodUpdate(sigma, curr.optimal);
    var (curr', nCurr) := Neighborhood(g, k, f, curr, sigma');
    RoundResult(prev', curr, sigma', curr', nPrev == nCurr)
  }

  /** Both neighbourhoods a round compares keep the fraction sigma of their
      solution's k-neighbourhood, rounded up, besides its defended
      vertices: the searched one for the round's sigma, the next one for the
      updated sigma. */
  lemma SearchRoundKeepsFraction(g: Graph, k: nat, f: (Solution, nat) -> int, search: Search,
                                 prev: Solution, sigma: int, call: nat)
    requires 0 <= sigma <= 10
    requires CachedKn(prev, g, k) !! prev.defended
    requires var c := SearchRound(g, k, f, search, prev, sigma, call).curr;
             CachedKn(c, g, k) !! c.defended
    ensures var r := SearchRound(g, k, f, search, prev, sigma, call);
            && r.searched.neighborhood.Some? && r.next.neighborhood.Some?
            && |r.searched.neighborhood.value - prev.defended| == KeepCount(sigma, |CachedKn(prev, g, k)|)
            && |r.next.neighborhood.value - r.curr.defended| == KeepCount(r.sigma, |CachedKn(r.curr, g, k)|)
  {
    var r := SearchRound(g, k, f, search, prev, sigma, call);
    FilterKeepsFraction(prev, g, k, sigma, Scores(f, prev));
    FilterKeepsFraction(r.curr, g, k, r.sigma, Scores(f, r.curr));
  }

  /** A round of the intensification loop as a function of the solution
      searched, its sigma and the call number. */
  type RoundFn = (Solution, int, nat) -> RoundResult

  /** The rounds `SearchRound` plays for a graph, a radius, a scoring and a
      local search. */
  function Rounds(g: Graph, k: nat, f: (Solution, nat) -> int, search: Search): RoundFn {
    (prev: Solution, sigma: int, call: nat) => SearchRound(g, k, f, search, prev, sigma, call)
  }

  /** Every round steps sigma with `neighborhood_update`. */
  ghost predicate StepsSigma(round: RoundFn) {
    forall prev, sigma, call ::
      round(prev, sigma, call).sigma == NeighborhoodUpdate(sigma, round(prev, sigma, call).curr.optimal)
  }

  lemma RoundsStepSigma(g: Graph, k: nat, f: (Solution, nat) -> int, search: Search)
    ensures StepsSigma(Rounds(g, k, f, search))
  {
  }

  /** The `while` loop of `intensification`, at most `fuel` more rounds.
      `prev` is the solution searched next and `sigma` both the sigma it is
      searched with and the running sigma (`prev_sig == sigma` at the top of
      every round); `gamma` records whether the restart has fired. */
  function Intensify(round: RoundFn, prev: Solution, sigma: int, gamma: bool, best: Solution,
                     call: nat, fuel: nat): (r: Outcome)
    ensures |r.results| <= fuel
    ensures r.stop == OutOfTime ==> |r.results| == fuel
    ensures r.stop != OutOfTime ==> 1 <= |r.results|
    ensures r.restarts <= 1
    ensures gamma ==> r.restarts == 0
    ensures r.stop == Stalled ==> gamma || r.restarts == 1
    ensures StepsSigma(round) && 0 <= sigma <= 10 ==> 0 <= r.sigma <= 10
    ensures |r.inputs| == |r.results| == |r.sigmas|
    ensures fuel > 0 && round(prev, sigma, call).converged ==>
              r.stop == Converged && |r.results| == 1
    ensures fuel > 0 && !round(prev, sigma, call).converged
            && round(prev, sigma, call).sigma == sigma && gamma ==>
              r.stop == Stalled && |r.results| == 1
    decreases fuel
  {
    if fuel == 0 then
      Outcome(best, sigma, 0, [], OutOfTime, [], [])
    else
      var rr := round(prev, sigma, call);
      var best' := Improve(best, rr.curr);
      if rr.converged || (rr.sigma == sigma && gamma) then
        Outcome(best', rr.sigma, 0, [rr.curr], if rr.converged then Converged else Stalled,
                [prev], [sigma])
      else
        var restart := rr.sigma == sigma && !gamma;
        var next := if restart then 5 else rr.sigma;
        var rest := Intensify(round, rr.next, next, gamma || restart, best', call + 1, fuel - 1);
        Outcome(rest.best, rest.sigma, rest.restarts + (if restart then 1 else 0),
                [rr.curr] + rest.results, rest.stop, [prev] + rest.inputs, [sigma] + rest.sigmas)
  }

  /** Round `i` of an outcome: the round run on the solution and sigma the
      outcome records for it, numbered from `call`. */
  ghost function RoundAt(round: RoundFn, r: Outcome, call: nat, i: nat): RoundResult
    requires i < |r.inputs| && i < |r.sigmas|
  {
    round(r.inputs[i], r.sigmas[i], call + i)
  }

  /** Round `i` of `r` follows from round `i - 1`: that round neither
      converged nor stopped the loop, round `i` searches the solution it
      returned with its neighbourhood stored, and with the updated sigma,
      or with 5 (sigma 0.5) when the update left sigma unchanged. */
  ghost predicate Continues(round: RoundFn, r: Outcome, call: nat, i: nat)
    requires 0 < i < |r.inputs| && |r.inputs| == |r.sigmas|
  {
    var rr := RoundAt(round, r, call, i - 1);
    && !rr.converged
    && r.inputs[i] == rr.next
    && r.sigmas[i] == (if rr.sigma == r.sigmas[i - 1] then 5 else rr.sigma)
  }

  /** Round `j` of `r` restarted the loop: it did not end the loop and its
      update left sigma unchanged. */
  ghost predicate Restart(round: RoundFn, r: Outcome, call: nat, j: nat)
    requires j < |r.inputs| && |r.inputs| == |r.sigmas|
  {
    && (j < |r.inputs| - 1 || r.stop == OutOfTime)
    && RoundAt(round, r, call, j).sigma == r.sigmas[j]
  }

  /** Dropping the first round of an outcome renumbers the others. */
  lemma ShiftRound(round: RoundFn, x: Solution, y: int, r: Outcome, rest: Outcome, call: nat, j: nat)
    requires |rest.inputs| == |rest.sigmas|
    requires r.inputs == [x] + rest.inputs && r.sigmas == [y] + rest.sigmas
    requires 0 < j < |r.inputs|
    ensures RoundAt(round, r, call, j) == RoundAt(round, rest, call + 1, j - 1)
    ensures r.stop == rest.stop ==>
              (Restart(round, r, call, j) <==> Restart(round, rest, call + 1, j - 1))
    ensures 1 < j ==> (Continues(round, r, call, j) <==> Continues(round, rest, call + 1, j - 1))
  {
    assert call + j == call + 1 + (j - 1);
    if 1 < j {
      assert call + (j - 1) == call + 1 + (j - 2);
    }
  }

  /** Every result `r` records is the search result of its round, and
      every round after the first follows from the one before. */
  ghost predicate Traced(round: RoundFn, r: Outcome, call: nat) {
    && |r.inputs| == |r.results| == |r.sigmas|
    && (forall i :: 0 <= i < |r.results| ==> r.results[i] == RoundAt(round, r, call, i).curr)
    && (forall i :: 0 < i < |r.inputs| ==> Continues(round, r, call, i))
  }

  /** A loop that did not run out of time ended on its last round: it
      converged exactly when that round's neighbourhoods coincide, it
      stalled only when that round's update left sigma unchanged, and it
      reports that round's sigma. */
  ghost predicate EndsOnLast(round: RoundFn, r: Outcome, call: nat)
    requires |r.inputs| == |r.sigmas|
  {
    r.stop != OutOfTime ==>
      && 0 < |r.inputs|
      && var rr := RoundAt(round, r, call, |r.inputs| - 1);
         && r.sigma == rr.sigma
         && (r.stop == Converged <==> rr.converged)
         && (r.stop == Stalled ==> rr.sigma == r.sigmas[|r.inputs| - 1])
  }

  /** The number of rounds of `r` from round `i` on that restart the loop. */
  ghost function RestartsFrom(round: RoundFn, r: Outcome, call: nat, i: nat): nat
    requires |r.inputs| == |r.sigmas|
    decreases |r.inputs| - i
  {
    if i >= |r.inputs| then 0
    else (if Restart(round, r, call, i) then 1 else 0) + RestartsFrom(round, r, call, i + 1)
  }

  /** No round of `r` after round `i` restarts the loop. */
  ghost predicate NoRestartAfter(round: RoundFn, r: Outcome, call: nat, i: nat)
    requires |r.inputs| == |r.sigmas|
  {
    forall j :: i < j < |r.inputs| ==> !Restart(round, r, call, j)
  }

  /** A round that ends the loop is its only round. */
  lemma IntensifyStop(round: RoundFn, prev: Solution, sigma: int, gamma: bool, best: Solution,
                      call: nat, fuel: nat)
    requires fuel > 0
    requires var rr := round(prev, sigma, call); rr.converged || (rr.sigma == sigma && gamma)
    ensures var r := Intensify(round, prev, sigma, gamma, best, call, fuel);
            var rr := round(prev, sigma, call);
            && r.inputs == [prev] && r.sigmas == [sigma] && r.results == [rr.curr]
            && r.sigma == rr.sigma && r.restarts == 0
            && r.stop == (if rr.converged then Converged else Stalled)
  {
  }

  /** A round that does not end the loop is followed by the rest of it. */
  lemma IntensifyStep(round: RoundFn, prev: Solution, sigma: int, gamma: bool, best: Solution,
                      call: nat, fuel: nat)
    requires fuel > 0
    requires var rr := round(prev, sigma, call); !(rr.converged || (rr.sigma == sigma && gamma))
    ensures var r := Intensify(round, prev, sigma, gamma, best, call, fuel);
            var rr := round(prev, sigma, call);
            var restart := rr.sigma == sigma && !gamma;
            var rest := Intensify(round, rr.next, if restart then 5 else rr.sigma, gamma || restart,
                                  Improve(best, rr.curr), call + 1, fuel - 1);
            && r.inputs == [prev] + rest.inputs && r.sigmas == [sigma] + rest.sigmas
            && r.results == [rr.curr] + rest.results
            && r.sigma == rest.sigma && r.stop == rest.stop
            && r.restarts == rest.restarts + (if restart then 1 else 0)
  {
  }

  /** The rounds of the intensification loop: the first searches `prev`
      with `sigma`, every later one follows from the one before, and each
      result recorded is that round's search result. */
  lemma {:induction false} IntensifyTrace(round: RoundFn, prev: Solution, sigma: int,
                                          gamma: bool, best: Solution, call: nat, fuel: nat)
    ensures var r := Intensify(round, prev, sigma, gamma, best, call, fuel);
            && Traced(round, r, call)
            && (fuel > 0 ==> 0 < |r.inputs| && r.inputs[0] == prev && r.sigmas[0] == sigma)
    decreases fuel, 1
  {
    if fuel > 0 {
      var rr := round(prev, sigma, call);
      if rr.converged || (rr.sigma == sigma && gamma) {
        TraceCaseStop(round, prev, sigma, gamma, best, call, fuel);
      } else {
        TraceCaseStep(round, prev, sigma, gamma, best, call, fuel);
      }
    }
  }

  /** A round that ends the loop is its whole trace. */
  lemma TraceCaseStop(round: RoundFn, prev: Solution, sigma: int, gamma: bool, best: Solution,
                      call: nat, fuel: nat)
    requires fuel > 0
    requires var rr := round(prev, sigma, call); rr.converged || (rr.sigma == sigma && gamma)
    ensures var r := Intensify(round, prev, sigma, gamma, best, call, fuel);
            && Traced(round, r, call)
            && 0 < |r.inputs| && r.inputs[0] == prev && r.sigmas[0] == sigma
  {
    var r := Intensify(round, prev, sigma, gamma, best, call, fuel);
    IntensifyStop(round, prev, sigma, gamma, best, call, fuel);
    assert RoundAt(round, r, call, 0) == round(prev, sigma, call);
  }

  /** A round that does not end the loop heads the trace of the rest. */
  lemma {:induction false} TraceCaseStep(round: RoundFn, prev: Solution, sigma: int, gamma: bool,
                                         best: Solution, call: nat, fuel: nat)
    requires fuel > 0
    requires var rr := round(prev, sigma, call); !(rr.converged || (rr.sigma == sigma && gamma))
    ensures var r := Intensify(round, prev, sigma, gamma, best, call, fuel);
            && Traced(round, r, call)
            && 0 < |r.inputs| && r.inputs[0] == prev && r.sigmas[0] == sigma
    decreases fuel, 0
  {
    var rr := round(prev, sigma, call);
    var restart := rr.sigma == sigma && !gamma;
    var rest := Intensify(round, rr.next, if restart then 5 else rr.sigma, gamma || restart,
                          Improve(best, rr.curr), call + 1, fuel - 1);
    IntensifyTrace(round, rr.next, if restart then 5 else rr.sigma, gamma || restart,
                   Improve(best, rr.curr), call + 1, fuel - 1);
    IntensifyStep(round, prev, sigma, gamma, best, call, fuel);
    TraceStep(round, prev, sigma, Intensify(round, prev, sigma, gamma, best, call, fuel), rest, call, call + 1);
  }

  /** The trace of an outcome follows from that of its rest, whose rounds
      are numbered from `next`, when its first round searched `x` with `y`
      and the rest went on from there. */
  lemma TraceStep(round: RoundFn, x: Solution, y: int, r: Outcome, rest: Outcome,
                  call: nat, next: nat)
    requires next == call + 1
    requires Traced(round, rest, next)
    requires r.inputs == [x] + rest.inputs && r.sigmas == [y] + rest.sigmas
    requires r.results == [round(x, y, call).curr] + rest.results
    requires 0 < |rest.inputs| ==>
               var rr := round(x, y, call);
               && !rr.converged
               && rest.inputs[0] == rr.next
               && rest.sigmas[0] == (if rr.sigma == y then 5 else rr.sigma)
    ensures Traced(round, r, call)
  {
    assert RoundAt(round, r, call, 0) == round(x, y, call);
    forall i | 0 < i < |r.results|
      ensures r.results[i] == RoundAt(round, r, call, i).curr
      ensures Continues(round, r, call, i)
    {
      ShiftRound(round, x, y, r, rest, call, i);
    }
  }

  /** How the intensification loop ends. */
  lemma {:induction false} IntensifyEnds(round: RoundFn, prev: Solution, sigma: int,
                                         gamma: bool, best: Solution, call: nat, fuel: nat)
    ensures EndsOnLast(round, Intensify(round, prev, sigma, gamma, best, call, fuel), call)
    decreases fuel, 1
  {
    if fuel > 0 {
      var rr := round(prev, sigma, call);
      if rr.converged || (rr.sigma == sigma && gamma) {
        EndsCaseStop(round, prev, sigma, gamma, best, call, fuel);
      } else {
        EndsCaseStep(round, prev, sigma, gamma, best, call, fuel);
      }
    }
  }

  /** A round that ends the loop is its last. */
  lemma EndsCaseStop(round: RoundFn, prev: Solution, sigma: int, gamma: bool, best: Solution,
                     call: nat, fuel: nat)
    requires fuel > 0
    requires var rr := round(prev, sigma, call); rr.converged || (rr.sigma == sigma && gamma)
    ensures EndsOnLast(round, Intensify(round, prev, sigma, gamma, best, call, fuel), call)
  {
    IntensifyStop(round, prev, sigma, gamma, best, call, fuel);
    EndsOnStop(round, prev, sigma, Intensify(round, prev, sigma, gamma, best, call, fuel), call);
  }

  /** A round that does not end the loop leaves the ending to the rest. */
  lemma {:induction false} EndsCaseStep(round: RoundFn, prev: Solution, sigma: int, gamma: bool,
                                        best: Solution, call: nat, fuel: nat)
    requires fuel > 0
    requires var rr := round(prev, sigma, call); !(rr.converged || (rr.sigma == sigma && gamma))
    ensures EndsOnLast(round, Intensify(round, prev, sigma, gamma, best, call, fuel), call)
    decreases fuel, 0
  {
    var rr := round(prev, sigma, call);
    var restart := rr.sigma == sigma && !gamma;
    var rest := Intensify(round, rr.next, if restart then 5 else rr.sigma, gamma || restart,
                          Improve(best, rr.curr), call + 1, fuel - 1);
    IntensifyEnds(round, rr.next, if restart then 5 else rr.sigma, gamma || restart,
                  Improve(best, rr.curr), call + 1, fuel - 1);
    IntensifyStep(round, prev, sigma, gamma, best, call, fuel);
    EndsStep(round, prev, sigma, Intensify(round, prev, sigma, gamma, best, call, fuel), rest, call, call + 1);
  }

  /** A loop whose only round ended it ends on that round. */
  lemma EndsOnStop(round: RoundFn, x: Solution, y: int, r: Outcome, call: nat)
    requires r.inputs == [x] && r.sigmas == [y]
    requires var rr := round(x, y, call);
             && r.sigma == rr.sigma
             && r.stop == (if rr.converged then Converged else Stalled)
             && (!rr.converged ==> rr.sigma == y)
    ensures EndsOnLast(round, r, call)
  {
    assert RoundAt(round, r, call, 0) == round(x, y, call);
  }

  /** How an outcome ends follows from how its rest, whose rounds are
      numbered from `next`, ends. */
  lemma EndsStep(round: RoundFn, x: Solution, y: int, r: Outcome, rest: Outcome,
                 call: nat, next: nat)
    requires next == call + 1
    requires |rest.inputs| == |rest.sigmas| == |rest.results|
    requires rest.stop != OutOfTime ==> 1 <= |rest.results|
    requires EndsOnLast(round, rest, next)
    requires r.inputs == [x] + rest.inputs && r.sigmas == [y] + rest.sigmas
    requires r.sigma == rest.sigma && r.stop == rest.stop
    ensures EndsOnLast(round, r, call)
  {
    if r.stop != OutOfTime {
      ShiftRound(round, x, y, r, rest, call, |r.inputs| - 1);
    }
  }

  /** The restart counter of the intensification loop counts the rounds
      that restarted it. */
  lemma {:induction false} IntensifyRestartCount(round: RoundFn, prev: Solution, sigma: int,
                                                 gamma: bool, best: Solution, call: nat, fuel: nat)
    ensures var r := Intensify(round, prev, sigma, gamma, best, call, fuel);
            r.restarts == RestartsFrom(round, r, call, 0)
    decreases fuel, 1
  {
    if fuel > 0 {
      var rr := round(prev, sigma, call);
      if rr.converged || (rr.sigma == sigma && gamma) {
        CountCaseStop(round, prev, sigma, gamma, best, call, fuel);
      } else {
        CountCaseStep(round, prev, sigma, gamma, best, call, fuel);
      }
    }
  }

  /** A round that ends the loop does not restart it. */
  lemma CountCaseStop(round: RoundFn, prev: Solution, sigma: int, gamma: bool, best: Solution,
                      call: nat, fuel: nat)
    requires fuel > 0
    requires var rr := round(prev, sigma, call); rr.converged || (rr.sigma == sigma && gamma)
    ensures var r := Intensify(round, prev, sigma, gamma, best, call, fuel);
            r.restarts == RestartsFrom(round, r, call, 0)
  {
    var r := Intensify(round, prev, sigma, gamma, best, call, fuel);
    IntensifyStop(round, prev, sigma, gamma, best, call, fuel);
    assert !Restart(round, r, call, 0);
  }

  /** A round that does not end the loop adds its own restart, if any, to
      those of the rest. */
  lemma {:induction false} CountCaseStep(round: RoundFn, prev: Solution, sigma: int, gamma: bool,
                                         best: Solution, call: nat, fuel: nat)
    requires fuel > 0
    requires var rr := round(prev, sigma, call); !(rr.converged || (rr.sigma == sigma && gamma))
    ensures var r := Intensify(round, prev, sigma, gamma, best, call, fuel);
            r.restarts == RestartsFrom(round, r, call, 0)
    decreases fuel, 0
  {
    var rr := round(prev, sigma, call);
    var restart := rr.sigma == sigma && !gamma;
    var rest := Intensify(round, rr.next, if restart then 5 else rr.sigma, gamma || restart,
                          Improve(best, rr.curr), call + 1, fuel - 1);
    IntensifyRestartCount(round, rr.next, if restart then 5 else rr.sigma, gamma || restart,
                          Improve(best, rr.curr), call + 1, fuel - 1);
    IntensifyStep(round, prev, sigma, gamma, best, call, fuel);
    CountStep(round, prev, sigma, Intensify(round, prev, sigma, gamma, best, call, fuel), rest,
              call, call + 1, restart);
  }

  /** The restarts counted in an outcome are those of its first round and
      those counted in its rest. */
  lemma CountStep(round: RoundFn, x: Solution, y: int, r: Outcome, rest: Outcome,
                  call: nat, next: nat, restart: bool)
    requires next == call + 1
    requires |rest.inputs| == |rest.sigmas|
    requires r.inputs == [x] + rest.inputs && r.sigmas == [y] + rest.sigmas
    requires r.stop == rest.stop && r.restarts == rest.restarts + (if restart then 1 else 0)
    requires restart <==> round(x, y, call).sigma == y
    requires restart ==> 0 < |rest.inputs| || r.stop == OutOfTime
    requires rest.restarts == RestartsFrom(round, rest, next, 0)
    ensures r.restarts == RestartsFrom(round, r, call, 0)
  {
    assert RoundAt(round, r, call, 0) == round(x, y, call);
    assert Restart(round, r, call, 0) <==> restart;
    CountShift(round, x, y, r, rest, call, next, 1);
  }

  /** Counting from round `i` of an outcome counts from round `i - 1` of its
      rest. */
  lemma {:induction false} CountShift(round: RoundFn, x: Solution, y: int, r: Outcome, rest: Outcome,
                                      call: nat, next: nat, i: nat)
    requires next == call + 1
    requires |rest.inputs| == |rest.sigmas|
    requires r.inputs == [x] + rest.inputs && r.sigmas == [y] + rest.sigmas
    requires r.stop == rest.stop
    requires 1 <= i <= |r.inputs|
    ensures RestartsFrom(round, r, call, i) == RestartsFrom(round, rest, next, i - 1)
    decreases |r.inputs| - i
  {
    if i < |r.inputs| {
      ShiftRound(round, x, y, r, rest, call, i);
      CountShift(round, x, y, r, rest, call, next, i + 1);
    }
  }

  /** Every round from `i` on that restarts adds one to the count from `i`. */
  lemma {:induction false} CountCovers(round: RoundFn, r: Outcome, call: nat, i: nat)
    requires |r.inputs| == |r.sigmas| && i <= |r.inputs|
    ensures forall j :: i <= j < |r.inputs| && Restart(round, r, call, j) ==>
                          RestartsFrom(round, r, call, i) >= 1 + RestartsFrom(round, r, call, j + 1)
    decreases |r.inputs| - i
  {
    if i < |r.inputs| {
      CountCovers(round, r, call, i + 1);
      forall j | i < j < |r.inputs| && Restart(round, r, call, j)
        ensures RestartsFrom(round, r, call, i) >= 1 + RestartsFrom(round, r, call, j + 1)
      {
        assert RestartsFrom(round, r, call, i) >= RestartsFrom(round, r, call, i + 1);
      }
    }
  }

  /** With at most one restart counted, no round after a restart restarts
      again, and a counted restart is some round that restarted. */
  lemma AtMostOneRestart(round: RoundFn, r: Outcome, call: nat)
    requires |r.inputs| == |r.sigmas|
    requires RestartsFrom(round, r, call, 0) <= 1
    ensures forall i :: 0 <= i < |r.inputs| && Restart(round, r, call, i) ==>
                          NoRestartAfter(round, r, call, i)
    ensures RestartsFrom(round, r, call, 0) == 1 ==>
              exists i :: 0 <= i < |r.inputs| && Restart(round, r, call, i)
  {
    CountCovers(round, r, call, 0);
    forall i | 0 <= i < |r.inputs| && Restart(round, r, call, i)
      ensures NoRestartAfter(round, r, call, i)
    {
      CountCovers(round, r, call, i + 1);
    }
    if RestartsFrom(round, r, call, 0) == 1 {
      CountFound(round, r, call, 0);
    }
  }

  /** A positive count from round `i` names a round from `i` on that
      restarts. */
  lemma {:induction false} CountFound(round: RoundFn, r: Outcome, call: nat, i: nat)
    requires |r.inputs| == |r.sigmas| && RestartsFrom(round, r, call, i) > 0
    ensures exists j :: i <= j < |r.inputs| && Restart(round, r, call, j)
    decreases |r.inputs| - i
  {
    if !Restart(round, r, call, i) {
      CountFound(round, r, call, i + 1);
    }
  }

  /** The restart fires at most once and only while `gamma` is unset: no
      round after a restarting one restarts again, and a reported restart
      is a round that restarted. */
  lemma IntensifyRestartsOnce(round: RoundFn, prev: Solution, sigma: int,
                              gamma: bool, best: Solution, call: nat, fuel: nat)
    ensures var r := Intensify(round, prev, sigma, gamma, best, call, fuel);
            && (forall i :: 0 <= i < |r.inputs| && Restart(round, r, call, i) ==>
                              !gamma && NoRestartAfter(round, r, call, i))
            && (r.restarts == 1 ==> exists i :: 0 <= i < |r.inputs| && Restart(round, r, call, i))
  {
    var r := Intensify(round, prev, sigma, gamma, best, call, fuel);
    IntensifyRestartCount(round, prev, sigma, gamma, best, call, fuel);
    AtMostOneRestart(round, r, call);
    if gamma {
      forall i | 0 <= i < |r.inputs|
        ensures !Restart(round, r, call, i)
      {
        CountCovers(round, r, call, 0);
      }
    }
  }

  /** The best solution after the intensification loop is what a scan of
      the starting best and the solutions of every round keeps. */
  lemma {:induction false} IntensifyChampion(round: RoundFn, prev: Solution, sigma: int,
                                             gamma: bool, best: Solution, call: nat, fuel: nat)
    ensures KeepsChampion(best, Intensify(round, prev, sigma, gamma, best, call, fuel))
    decreases fuel
  {
    if fuel > 0 {
      var rr := round(prev, sigma, call);
      var r := Intensify(round, prev, sigma, gamma, best, call, fuel);
      if rr.converged || (rr.sigma == sigma && gamma) {
        ChampionStop(best, rr.curr, r);
      } else {
        var restart := rr.sigma == sigma && !gamma;
        var rest := Intensify(round, rr.next, if restart then 5 else rr.sigma, gamma || restart,
                              Improve(best, rr.curr), call + 1, fuel - 1);
        IntensifyChampion(round, rr.next, if restart then 5 else rr.sigma, gamma || restart,
                          Improve(best, rr.curr), call + 1, fuel - 1);
        ChampionStep(best, rr.curr, rest, r);
      }
    }
  }

  /** The best of an outcome is what a scan of `best` and the outcome's
      results keeps. */
  ghost predicate KeepsChampion(best: Solution, r: Outcome) {
    r.best == Champion([best] + r.results)
  }

  lemma ChampionStop(best: Solution, curr: Solution, r: Outcome)
    requires r.best == Improve(best, curr) && r.results == [curr]
    ensures KeepsChampion(best, r)
  {
    assert [best] + [curr] == [best, curr];
    assert [best, curr][..1] == [best];
  }

  lemma ChampionStep(best: Solution, curr: Solution, rest: Outcome, r: Outcome)
    requires r.best == rest.best && r.results == [curr] + rest.results
    requires KeepsChampion(Improve(best, curr), rest)
    ensures KeepsChampion(best, r)
  {
    ChampionOfPair(best, curr, rest.results);
  }

  /** `adaptive_local_search` followed by `intensification`: the pass over
      the pool and `best`, then the intensification of its incumbent. */
  function AdaptiveLocalSearch(g: Graph, k: nat, f: (Solution, nat) -> int, search: Search,
                               pool: seq<Solution>, best: Solution, fuel: nat): (r: Outcome)
  {
    var p := AdaptivePass(pool, best, search);
    Intensify(Rounds(g, k, f, search), p.incumbent, p.sigma, false, p.incumbent, |pool| + 1, fuel)
  }

  /** Scanning `xs` and then `ys` keeps what scanning the incumbent of `xs`
      and then `ys` keeps. */
  lemma {:induction false} ChampionOfConcat(xs: seq<Solution>, ys: seq<Solution>)
    requires |xs| > 0
    ensures Champion(xs + ys) == Champion([Champion(xs)] + ys)
    decreases |ys|
  {
    if ys != [] {
      var init := ys[..|ys| - 1];
      ChampionOfConcat(xs, init);
      assert (xs + ys)[..|xs + ys| - 1] == xs + init;
      assert ([Champion(xs)] + ys)[..|ys|] == [Champion(xs)] + init;
    } else {
      assert xs + ys == xs;
      assert [Champion(xs)] + ys == [Champion(xs)];
    }
  }

  /** The solution returned is the first of `best`, the pool's search
      results and the intensification's search results with the largest
      cost, so it never costs less than any of them. The restart fires at
      most once, sigma stays in [0, 1], and a loop that stalls has restarted
      before. */
  lemma AdaptiveLocalSearchSpec(g: Graph, k: nat, f: (Solution, nat) -> int, search: Search,
                                pool: seq<Solution>, best: Solution, fuel: nat)
    ensures var p := AdaptivePass(pool, best, search);
            var r := AdaptiveLocalSearch(g, k, f, search, pool, best, fuel);
            var all := [best] + p.results + r.results;
            && (forall j :: 0 <= j < |all| ==> all[j].cost <= r.best.cost)
            && (exists i :: 0 <= i < |all| && all[i] == r.best
                            && forall j :: 0 <= j < i ==> all[j].cost < r.best.cost)
            && r.best.cost >= best.cost
            && r.restarts <= 1
            && (r.stop == Stalled ==> r.restarts == 1)
            && 0 <= r.sigma <= 10
  {
    var p := AdaptivePass(pool, best, search);
    var r := AdaptiveLocalSearch(g, k, f, search, pool, best, fuel);
    var all := [best] + p.results + r.results;
    RoundsStepSigma(g, k, f, search);
    IntensifyChampion(Rounds(g, k, f, search), p.incumbent, p.sigma, false, p.incumbent, |pool| + 1, fuel);
    ChampionOfConcat([best] + p.results, r.results);
    ChampionIsFirstMax(all);
    assert all[0] == best;
  }
}

=== FILE: construction.dfy ===
/** The randomised constructive heuristic Th (`constructive_heuristic_th`):
    round by round, defend up to D vertices from a restricted candidate list
    that ranks the threatened vertices first, then burn the rest of the
    threatened vertices. `random.sample` is replaced by a `pick` parameter. */
module Construction {
  import opened Wrappers
  import opened PyOps
  import opened Graphs
  import opened Solutions

  /** The GRASP greediness `alpha`, as the exact fraction `num / den`. */
  datatype Alpha = Alpha(num: int, den: int)

  /** The choice `random.sample` makes in round `t`: given the RCL and the
      sample size, the set of vertices drawn. */
  type Picker = (nat, seq<nat>, nat) -> set<nat>

  /** The loop state: defended, burned and untouched (`U`) vertices, the
      touch rounds `its`, and the round counter `t`. */
  datatype State = State(defended: set<nat>, burned: set<nat>, untouched: set<nat>,
                         its: seq<Iter>, t: nat)

  /** Vertices adjacent to a burned vertex that are neither defended nor
      burned. */
  function Threatened(g: Graph, defended: set<nat>, burned: set<nat>): (r: set<nat>)
    ensures forall v :: v in r <==>
              v in Vertices(g) && Touches(g, burned, v) && v !in defended && v !in burned
    ensures r <= Vertices(g)
    ensures r !! defended && r !! burned
  {
    Neighbors(g, burned) - (defended + burned)
  }

  /** The ranked candidates: the threatened vertices first, then the other
      untouched ones. */
  function Ranked(th: set<nat>, untouched: set<nat>): (r: seq<nat>)
    ensures |th| <= |r| && Elems(r[..|th|]) == th
    ensures Elems(r) == th + untouched
    ensures Distinct(r)
  {
    var a, b := ListOfSet(th), ListOfSet(untouched - th);
    RankedParts(a, b, th, untouched);
    a + b
  }

  lemma RankedParts(a: seq<nat>, b: seq<nat>, th: set<nat>, untouched: set<nat>)
    requires |a| == |th| && Elems(a) == th && Distinct(a)
    requires Elems(b) == untouched - th && Distinct(b)
    ensures (a + b)[..|th|] == a
    ensures Elems(a + b) == th + untouched
    ensures Distinct(a + b)
  {
    assert (a + b)[..|th|] == a;
    forall i, j | 0 <= i < j < |a + b| ensures (a + b)[i] != (a + b)[j] {
      if j < |a| {
        assert a[i] != a[j];
      } else if i >= |a| {
        assert b[i - |a|] != b[j - |a|];
      } else {
        assert a[i] in th && b[j - |a|] !in th;
      }
    }
  }

  /** The restricted candidate list: the first `ceil(alpha * |ranked|)`
      ranked candidates. */
  function Rcl(ranked: seq<nat>, alpha: Alpha): (r: seq<nat>)
    requires alpha.den > 0
    ensures r <= ranked
    ensures 0 <= alpha.num <= alpha.den ==>
              (|r| - 1) * alpha.den < alpha.num * |ranked| <= |r| * alpha.den
  {
    var m := CeilDiv(alpha.num * |ranked|, alpha.den);
    assert 0 <= alpha.num <= alpha.den ==> 0 <= m <= |ranked| by {
      if 0 <= alpha.num <= alpha.den {
        MulMonotone(alpha.num, alpha.den, |ranked|);
        MulMonotone(0, alpha.num, |ranked|);
        CeilDivWithin(alpha.num * |ranked|, alpha.den, |ranked|);
      }
    }
    Prefix(ranked, m)
  }

  /** `sample(RCL, min(D, len(RCL)))`: `pick`'s answer when it is a set of
      that many RCL members, otherwise the first that many RCL members. */
  function Sample(rcl: seq<nat>, D: nat, pick: Picker, t: nat): (r: set<nat>)
    requires Distinct(rcl)
    ensures r <= Elems(rcl)
    ensures |r| == if D < |rcl| then D else |rcl|
  {
    var m := if D < |rcl| then D else |rcl|;
    var c := pick(t, rcl, m);
    if c <= Elems(rcl) && |c| == m then c
    else
      DistinctCard(rcl[..m]);
      Elems(rcl[..m])
  }

  /** `its[v]` is 0 exactly for the initial burned vertices. */
  ghost predicate SeedStamps(g: Graph, B: set<nat>, st: State)
    requires |st.its| == g.n
  {
    forall v :: 0 <= v < g.n ==> (st.its[v] == Round(0) <==> v in B)
  }

  /** Every other touched vertex carries the round in which it was touched,
      every untouched one `inf`. */
  ghost predicate RoundStamps(g: Graph, B: set<nat>, st: State)
    requires |st.its| == g.n
  {
    && (forall v :: 0 <= v < g.n && v in st.defended + st.burned - B ==>
          st.its[v].Round? && 1 <= st.its[v].t < st.t)
    && (forall v :: 0 <= v < g.n && v !in st.defended + st.burned ==> st.its[v] == Inf)
  }

  /** Some vertex was touched in round `r`. */
  ghost predicate Stamped(its: seq<Iter>, r: nat) {
    exists v :: 0 <= v < |its| && its[v] == Round(r)
  }

  /** Fire only spreads along edges: every vertex burned after round 0 has a
      neighbour that burned in an earlier round. */
  ghost predicate SpreadsAlongEdges(g: Graph, B: set<nat>, st: State)
    requires |st.its| == g.n
  {
    forall v :: v in st.burned - B ==>
      (v < g.n && exists u :: u in st.burned && Adjacent(g, u, v) && EarlierRound(st.its, u, v))
  }

  predicate EarlierRound(its: seq<Iter>, u: nat, v: nat) {
    u < |its| && v < |its| && its[u].Round? && its[v].Round? && its[u].t < its[v].t
  }

  /** The invariant of the construction loop. */
  ghost predicate Inv(g: Graph, B: set<nat>, st: State) {
    && st.defended !! st.burned
    && B <= st.burned
    && st.defended + st.burned <= Vertices(g)
    && st.untouched == Vertices(g) - (st.defended + st.burned)
    && |st.its| == g.n
    && st.t >= 1
    && SeedStamps(g, B, st)
    && RoundStamps(g, B, st)
    && (forall r :: 1 <= r < st.t ==> Stamped(st.its, r))
    && SpreadsAlongEdges(g, B, st)
  }

  /** The state before the first round. */
  function Start(g: Graph, B: set<nat>): (st: State)
    requires B <= Vertices(g)
    ensures Inv(g, B, st)
  {
    var its := seq(g.n, v => if v in B then Round(0) else Inf);
    State({}, B, Vertices(g) - B, its, 1)
  }

  /** The vertices defended in round `st.t`. */
  function Defend(g: Graph, D: nat, alpha: Alpha, pick: Picker, st: State): (r: set<nat>)
    requires alpha.den > 0
    ensures var th := Threatened(g, st.defended, st.burned);
            var rcl := Rcl(Ranked(th, st.untouched), alpha);
            && r <= Elems(rcl)
            && |r| == if D < |rcl| then D else |rcl|
  {
    var th := Threatened(g, st.defended, st.burned);
    var rcl := Rcl(Ranked(th, st.untouched), alpha);
    Sample(rcl, D, pick, st.t)
  }

  /** One round with threatened set `th` and sample `defend`: defend the
      sample, burn the other threatened vertices, stamp both with the round
      number. */
  function Apply(g: Graph, st: State, th: set<nat>, defend: set<nat>): (r: State)
    requires |st.its| == g.n
  {
    var burn := th - defend;
    var its := seq(g.n, v requires 0 <= v < g.n =>
                 if v in burn + defend then Round(st.t) else st.its[v]);
    State(st.defended + defend, st.burned + burn, st.untouched - (th + defend), its, st.t + 1)
  }

  /** The round `st.t` of `constructive_heuristic_th`. */
  function Step(g: Graph, D: nat, alpha: Alpha, pick: Picker, st: State): (r: State)
    requires alpha.den > 0
    requires |st.its| == g.n
  {
    Apply(g, st, Threatened(g, st.defended, st.burned), Defend(g, D, alpha, pick, st))
  }

  /** The defended sample is drawn from the untouched vertices. */
  lemma DefendFromUntouched(g: Graph, B: set<nat>, D: nat, alpha: Alpha, pick: Picker, st: State)
    requires alpha.den > 0
    requires Inv(g, B, st)
    ensures Threatened(g, st.defended, st.burned) <= st.untouched
    ensures Defend(g, D, alpha, pick, st) <= st.untouched
  {
    var th := Threatened(g, st.defended, st.burned);
    var ranked := Ranked(th, st.untouched);
    forall v | v in Defend(g, D, alpha, pick, st) ensures v in st.untouched {
      assert v in Rcl(ranked, alpha);
      assert v in ranked;
    }
  }

  /** What a round may rely on about its threatened set and its sample. */
  ghost predicate RoundInput(g: Graph, st: State, th: set<nat>, defend: set<nat>) {
    && th != {}
    && th <= st.untouched
    && defend <= st.untouched
    && (forall v :: v in th ==> Touches(g, st.burned, v))
  }

  /** The set part of the invariant survives a round, and the round touches
      at least one untouched vertex. */
  lemma ApplySets(g: Graph, B: set<nat>, st: State, th: set<nat>, defend: set<nat>)
    requires |st.its| == g.n
    requires st.defended !! st.burned && B <= st.burned
    requires st.untouched == Vertices(g) - (st.defended + st.burned)
    requires st.defended + st.burned <= Vertices(g)
    requires RoundInput(g, st, th, defend)
    ensures var r := Apply(g, st, th, defend);
            && r.defended !! r.burned
            && B <= r.burned
            && r.defended + r.burned <= Vertices(g)
            && r.untouched == Vertices(g) - (r.defended + r.burned)
            && |r.untouched| < |st.untouched|
  {
    var r := Apply(g, st, th, defend);
    assert r.defended == st.defended + defend && r.burned == st.burned + (th - defend);
    assert r.untouched == st.untouched - (th + defend);
    var x :| x in th;
    SplitUntouched(Vertices(g), st.defended, st.burned, st.untouched, th, defend, x);
  }

  /** Moving the threatened set `th` out of the untouched vertices, `defend`
      to the defended side and the rest to the burned side, keeps the three
      parts a partition of `V` and shrinks the untouched part. */
  lemma SplitUntouched(V: set<nat>, d: set<nat>, b: set<nat>, u: set<nat>, th: set<nat>,
                       defend: set<nat>, x: nat)
    requires d !! b && d + b <= V && u == V - (d + b)
    requires th <= u && defend <= u && x in th
    ensures (d + defend) !! (b + (th - defend))
    ensures (d + defend) + (b + (th - defend)) <= V
    ensures u - (th + defend) == V - ((d + defend) + (b + (th - defend)))
    ensures |u - (th + defend)| < |u|
  {
    LoseOne(u, th + defend, x);
  }

  /** Removing a set that holds a member of `u` makes `u` smaller. */
  lemma LoseOne(u: set<nat>, s: set<nat>, x: nat)
    requires x in s && x in u
    ensures |u - s| < |u|
  {
    assert u - s <= u - {x};
    SubsetCard(u - s, u - {x});
  }

  /** The stamps survive a round, and the new round number is stamped on a
      threatened vertex. */
  lemma ApplyStamps(g: Graph, B: set<nat>, st: State, th: set<nat>, defend: set<nat>)
    requires |st.its| == g.n && st.t >= 1
    requires st.untouched == Vertices(g) - (st.defended + st.burned)
    requires SeedStamps(g, B, st) && RoundStamps(g, B, st)
    requires forall rr :: 1 <= rr < st.t ==> Stamped(st.its, rr)
    requires RoundInput(g, st, th, defend)
    ensures var r := Apply(g, st, th, defend);
            && |r.its| == g.n
            && SeedStamps(g, B, r)
            && RoundStamps(g, B, r)
            && (forall rr :: 1 <= rr < r.t ==> Stamped(r.its, rr))
  {
    var r := Apply(g, st, th, defend);
    var burn := th - defend;
    forall rr | 1 <= rr < r.t ensures Stamped(r.its, rr) {
      if rr < st.t {
        assert Stamped(st.its, rr);
        var v :| 0 <= v < |st.its| && st.its[v] == Round(rr);
        assert v !in burn + defend;
        assert r.its[v] == Round(rr);
      } else {
        var x :| x in th;
        assert x in burn + defend;
        assert r.its[x] == Round(rr);
      }
    }
  }

  /** A vertex burned in the new round has a neighbour burned earlier. */
  lemma ApplySpread(g: Graph, B: set<nat>, st: State, th: set<nat>, defend: set<nat>)
    requires |st.its| == g.n && st.t >= 1
    requires st.defended + st.burned <= Vertices(g)
    requires st.untouched == Vertices(g) - (st.defended + st.burned)
    requires SeedStamps(g, B, st) && RoundStamps(g, B, st)
    requires SpreadsAlongEdges(g, B, st)
    requires RoundInput(g, st, th, defend)
    ensures SpreadsAlongEdges(g, B, Apply(g, st, th, defend))
  {
    var r := Apply(g, st, th, defend);
    var burn := th - defend;
    forall v | v in r.burned - B
      ensures v < g.n && exists u :: u in r.burned && Adjacent(g, u, v) && EarlierRound(r.its, u, v)
    {
      if v in st.burned {
        assert v in st.burned - B;
        var u :| u in st.burned && Adjacent(g, u, v) && EarlierRound(st.its, u, v);
        assert u !in burn + defend && v !in burn + defend;
        assert EarlierRound(r.its, u, v);
      } else {
        assert v in burn;
        var u :| u in st.burned && Adjacent(g, u, v);
        assert u !in burn + defend;
        assert u < g.n && v < g.n;
        assert st.its[u].Round? && st.its[u].t < st.t by {
          if u !in B {
            assert u in st.defended + st.burned - B;
          }
        }
        assert r.its[u] == st.its[u] && r.its[v] == Round(st.t);
        assert EarlierRound(r.its, u, v);
      }
    }
  }

  /** A round with a threatened vertex keeps the invariant, touches at
      least one untouched vertex, and only adds to the defended and burned
      sets. */
  lemma StepKeepsInv(g: Graph, B: set<nat>, D: nat, alpha: Alpha, pick: Picker, st: State)
    requires alpha.den > 0
    requires Inv(g, B, st)
    requires Threatened(g, st.defended, st.burned) != {}
    ensures var r := Step(g, D, alpha, pick, st);
            && Inv(g, B, r)
            && |r.untouched| < |st.untouched|
            && st.defended <= r.defended && st.burned <= r.burned
  {
    var th := Threatened(g, st.defended, st.burned);
    var defend := Defend(g, D, alpha, pick, st);
    DefendFromUntouched(g, B, D, alpha, pick, st);
    assert RoundInput(g, st, th, defend);
    ApplySets(g, B, st, th, defend);
    ApplyStamps(g, B, st, th, defend);
    ApplySpread(g, B, st, th, defend);
  }

  /** Rounds until no vertex is untouched or none is threatened. */
  function Rounds(g: Graph, B: set<nat>, D: nat, alpha: Alpha, pick: Picker, st: State): (r: State)
    requires alpha.den > 0
    requires Inv(g, B, st)
    ensures Inv(g, B, r)
    ensures r.untouched == {} || Threatened(g, r.defended, r.burned) == {}
    ensures st.defended <= r.defended && st.burned <= r.burned
    ensures st.t <= r.t
    decreases |st.untouched|
  {
    if st.untouched == {} then st
    else if Threatened(g, st.defended, st.burned) == {} then st
    else
      StepKeepsInv(g, B, D, alpha, pick, st);
      Rounds(g, B, D, alpha, pick, Step(g, D, alpha, pick, st))
  }

  /** `constructive_heuristic_th(alpha)`: the rounds from the initial burned
      list `B`, then the cost and the neighbourhood for `sigma = 1`. The
      defended and burned sets are disjoint and contain `B` in the burned
      part; the cost counts the vertices that did not burn; the loop stops
      only when nothing is untouched or nothing is threatened; `its` is 0 on
      `B`, the touch round elsewhere and `inf` on untouched vertices; every
      round number below `T` is stamped on some vertex; fire only spread
      along edges. */
  function ConstructiveHeuristic(g: Graph, B: seq<nat>, D: nat, alpha: Alpha, pick: Picker,
                                 k: nat, score: nat -> int): (sol: Solution)
    requires Elems(B) <= Vertices(g)
    requires alpha.den > 0
    ensures sol.defended !! sol.burned
    ensures Elems(B) <= sol.burned
    ensures sol.defended + sol.burned <= Vertices(g)
    ensures sol.cost == g.n - |sol.burned|
    ensures Vertices(g) - (sol.defended + sol.burned) == {}
            || Threatened(g, sol.defended, sol.burned) == {}
    ensures |sol.iterations| == g.n
    ensures forall v :: 0 <= v < g.n ==> (sol.iterations[v] == Round(0) <==> v in B)
    ensures forall v :: 0 <= v < g.n && v in sol.defended + sol.burned - Elems(B) ==>
              sol.iterations[v].Round? && 1 <= sol.iterations[v].t < sol.T
    ensures forall v :: 0 <= v < g.n && v !in sol.defended + sol.burned ==> sol.iterations[v] == Inf
    ensures sol.T >= 1 && forall r :: 1 <= r < sol.T ==> Stamped(sol.iterations, r)
    ensures forall v :: v in sol.burned - Elems(B) ==>
              exists u :: u in sol.burned && Adjacent(g, u, v) && EarlierRound(sol.iterations, u, v)
    ensures sol.neighborhood == Some(KHop(g, sol.defended, k) + sol.defended)
    ensures sol.optimal
  {
    var final := Rounds(g, Elems(B), D, alpha, pick, Start(g, Elems(B)));
    FinishSpec(g, Elems(B), final, k, score);
    Finish(g, final, k, score)
  }

  /** `constructive_heuristic_th(alpha)` with the defence budget `D` as the
      integer the source accepts. A negative `D` is handed to `sample` as a
      negative count, which raises `ValueError`, as soon as a round runs,
      that is when the initial burned vertices threaten some vertex;
      otherwise no round runs and the loop ends where it started. */
  function Construct(g: Graph, B: seq<nat>, D: int, alpha: Alpha, pick: Picker,
                     k: nat, score: nat -> int): (r: Result<Solution>)
    requires Elems(B) <= Vertices(g)
    requires alpha.den > 0
    ensures r.Err? <==> D < 0 && Threatened(g, {}, Elems(B)) != {}
    ensures r.Err? ==> r.error == ValueError
    ensures D >= 0 ==> r == Ok(ConstructiveHeuristic(g, B, D, alpha, pick, k, score))
    ensures r.Ok? && D < 0 ==>
              && r.value.defended == {} && r.value.burned == Elems(B) && r.value.T == 1
              && r.value.cost == g.n - |Elems(B)|
  {
    if D >= 0 then Ok(ConstructiveHeuristic(g, B, D, alpha, pick, k, score))
    else if Threatened(g, {}, Elems(B)) != {} then Err(ValueError)
    else
      var st := Start(g, Elems(B));
      assert Rounds(g, Elems(B), 0, alpha, pick, st) == st;
      FinishSpec(g, Elems(B), st, k, score);
      Ok(ConstructiveHeuristic(g, B, 0, alpha, pick, k, score))
  }

  /** The solution built from the final loop state: its cost and its
      neighbourhood for `sigma = 1`. */
  function Finish(g: Graph, final: State, k: nat, score: nat -> int): Solution {
    var initial := NewSolution(final.defended, final.burned, final.its, final.t, 0, true);
    ConstructNeighborhood(CalculateCost(initial, g), g, k, 10, score).0
  }

  /** The loop invariant and the stopping condition carry over to the
      solution built from the final state. */
  lemma FinishSpec(g: Graph, B: set<nat>, final: State, k: nat, score: nat -> int)
    requires Inv(g, B, final)
    requires final.untouched == {} || Threatened(g, final.defended, final.burned) == {}
    ensures var sol := Finish(g, final, k, score);
            && sol.defended == final.defended && sol.burned == final.burned
            && sol.iterations == final.its && sol.T == final.t
            && sol.cost == g.n - |sol.burned|
            && sol.neighborhood == Some(KHop(g, sol.defended, k) + sol.defended)
            && sol.optimal
  {
    var initial := NewSolution(final.defended, final.burned, final.its, final.t, 0, true);
    var costed := CalculateCost(initial, g);
    FullSigmaIsFullNeighborhood(costed, g, k, score);
  }
}

=== FILE: descendants.dfy ===
/** The descendant score of a vertex `u` in a solution: the number of
    vertices lying strictly farther from the burned set than `u` does. The
    distance to the set is the least distance to one of its members; one
    variant reads distances from a precomputed table `sp_len[u][b]`, the
    other computes shortest-path lengths in the graph. */
module Descendants {
  import opened Wrappers
  import opened PyOps
  import opened Graphs

  /** A distance lookup `d(u, b)`; a failure is the exception the lookup
      raises. */
  type Dist = (nat, nat) -> Result<nat>

  /** `min([d(u, b) for b in bs])`: every lookup is made, in order, before
      the minimum is taken, so the first failing lookup is the error, and
      an empty list raises `ValueError`. */
  function MinLookup(d: Dist, u: nat, bs: seq<nat>): (r: Result<nat>)
    ensures r.Ok? <==> |bs| > 0 && forall i :: 0 <= i < |bs| ==> d(u, bs[i]).Ok?
    ensures r.Ok? ==> exists i :: 0 <= i < |bs| && d(u, bs[i]) == Ok(r.value)
    ensures r.Ok? ==> forall i :: 0 <= i < |bs| ==> r.value <= d(u, bs[i]).value
    ensures bs == [] ==> r == Err(ValueError)
    ensures r.Err? && bs != [] ==>
              exists i :: 0 <= i < |bs| && d(u, bs[i]) == Err(r.error)
                          && forall j :: 0 <= j < i ==> d(u, bs[j]).Ok?
  {
    if bs == [] then Err(ValueError)
    else
      var x :- d(u, bs[0]);
      if |bs| == 1 then Ok(x)
      else
        var m :- MinLookup(d, u, bs[1..]);
        assert forall i :: 1 <= i < |bs| ==> bs[i] == bs[1..][i - 1];
        Ok(if x <= m then x else m)
  }

  /** `min([d(u, b) for b in B])`, the members of `B` taken in ascending
      order. */
  function DistToSet(d: Dist, u: nat, B: set<nat>): Result<nat> {
    MinLookup(d, u, ListOfSet(B))
  }

  /** The distance to a set is defined exactly when the set is non-empty
      and every lookup succeeds; it is then the least of the distances to
      the members, and otherwise the error of a failing lookup, or
      `ValueError` for the empty set. */
  lemma DistToSetSpec(d: Dist, u: nat, B: set<nat>)
    ensures DistToSet(d, u, B).Ok? <==> B != {} && forall b :: b in B ==> d(u, b).Ok?
    ensures DistToSet(d, u, B).Ok? ==> exists b :: b in B && d(u, b) == Ok(DistToSet(d, u, B).value)
    ensures DistToSet(d, u, B).Ok? ==> forall b :: b in B ==> DistToSet(d, u, B).value <= d(u, b).value
    ensures B == {} ==> DistToSet(d, u, B) == Err(ValueError)
    ensures DistToSet(d, u, B).Err? && B != {} ==> exists b :: b in B && d(u, b) == Err(DistToSet(d, u, B).error)
  {
    var bs := ListOfSet(B);
    var r := MinLookup(d, u, bs);
    if r.Ok? {
      var i :| 0 <= i < |bs| && d(u, bs[i]) == Ok(r.value);
      assert bs[i] in B;
    } else if B != {} {
      var x :| x in B;
      assert bs != [];
      var i :| 0 <= i < |bs| && d(u, bs[i]) == Err(r.error);
      assert bs[i] in B;
    }
  }

  /** A vertex's distance to the burned set, or the exception computing it
      raises. */
  type Key = nat -> Result<nat>

  /** The distances to `B` that both `is_descendant` functions compute. */
  function SetDist(d: Dist, B: set<nat>): (key: Key)
    ensures forall x :: key(x) == DistToSet(d, x, B)
  {
    (x: nat) => DistToSet(d, x, B)
  }

  /** `is_descendant(u, v)`: `v` is strictly farther from the burned set
      than `u`. The distance of `u` is computed first, so its failure is the
      one reported. */
  function IsDescendant(key: Key, u: nat, v: nat): (r: Result<bool>)
    ensures r.Ok? <==> key(u).Ok? && key(v).Ok?
    ensures key(u).Err? ==> r == Err(key(u).error)
    ensures u == v ==> r != Ok(true)
  {
    var du :- key(u);
    var dv :- key(v);
    Ok(du < dv)
  }

  /** `v` descends from `u` exactly when some member of `B` is nearer to
      `u` than every member of `B` is to `v`. */
  lemma DescendantByWitness(d: Dist, B: set<nat>, u: nat, v: nat)
    requires IsDescendant(SetDist(d, B), u, v).Ok?
    ensures IsDescendant(SetDist(d, B), u, v) == Ok(true) <==>
      exists a :: a in B && forall b :: b in B ==> d(u, a).value < d(v, b).value
  {
    DistToSetSpec(d, u, B);
    DistToSetSpec(d, v, B);
    var du, dv := DistToSet(d, u, B).value, DistToSet(d, v, B).value;
    var a :| a in B && d(u, a) == Ok(du);
    var c :| c in B && d(v, c) == Ok(dv);
    if du < dv {
      assert forall b :: b in B ==> d(u, a).value < d(v, b).value;
    } else {
      forall a' | a' in B ensures d(u, a').value >= d(v, c).value {
      }
    }
  }

  /** Descent is a strict order: irreflexive, asymmetric and transitive. */
  lemma DescendantStrictOrder(key: Key, u: nat, v: nat, w: nat)
    ensures IsDescendant(key, u, u) != Ok(true)
    ensures IsDescendant(key, u, v) == Ok(true) ==> IsDescendant(key, v, u) == Ok(false)
    ensures IsDescendant(key, u, v) == Ok(true) && IsDescendant(key, v, w) == Ok(true) ==>
      IsDescendant(key, u, w) == Ok(true)
  {
  }

  /** `sum(is_descendant(u, v) for v in nodes)`: the generator stops at the
      first test that raises. */
  function NumOfDescendants(key: Key, nodes: seq<nat>, u: nat): (r: Result<nat>)
    ensures r.Ok? ==> r.value <= |nodes|
  {
    if nodes == [] then Ok(0)
    else
      var x :- IsDescendant(key, u, nodes[0]);
      var rest :- NumOfDescendants(key, nodes[1..], u);
      Ok((if x then 1 else 0) + rest)
  }

  /** The score is computed exactly when the list is empty or `u` and every
      listed vertex have a distance. */
  lemma {:induction false} CountDefined(key: Key, nodes: seq<nat>, u: nat)
    ensures NumOfDescendants(key, nodes, u).Ok? <==>
      (nodes == [] || (key(u).Ok? && forall i :: 0 <= i < |nodes| ==> key(nodes[i]).Ok?))
  {
    if nodes != [] {
      var tail := nodes[1..];
      CountDefined(key, tail, u);
      assert forall i :: 0 <= i < |tail| ==> tail[i] == nodes[i + 1];
    }
  }

  /** The vertices of `nodes` strictly farther than `u`. */
  ghost function Farther(key: Key, nodes: seq<nat>, u: nat): set<nat> {
    set v | v in nodes && IsDescendant(key, u, v) == Ok(true)
  }

  /** Over a list of distinct vertices the score is the number of vertices
      farther than `u`. */
  lemma {:induction false} CountIsFarther(key: Key, nodes: seq<nat>, u: nat)
    requires Distinct(nodes)
    requires NumOfDescendants(key, nodes, u).Ok?
    ensures NumOfDescendants(key, nodes, u).value == |Farther(key, nodes, u)|
  {
    if nodes != [] {
      var tail := nodes[1..];
      CountIsFarther(key, tail, u);
      var v := nodes[0];
      assert nodes == [v] + tail;
      assert v !in tail;
      if IsDescendant(key, u, v) == Ok(true) {
        assert Farther(key, nodes, u) == Farther(key, tail, u) + {v};
      } else {
        assert Farther(key, nodes, u) == Farther(key, tail, u);
      }
    }
  }

  /** A vertex is never its own descendant, so its score is below the
      number of listed vertices. */
  lemma {:induction false} CountBound(key: Key, nodes: seq<nat>, u: nat)
    requires u in nodes
    requires NumOfDescendants(key, nodes, u).Ok?
    ensures NumOfDescendants(key, nodes, u).value <= |nodes| - 1
  {
    if nodes[0] != u {
      CountBound(key, nodes[1..], u);
    }
  }

  /** A vertex nearer to the burned set has at least as many descendants. */
  lemma {:induction false} CountAntitone(key: Key, nodes: seq<nat>, u: nat, w: nat)
    requires NumOfDescendants(key, nodes, u).Ok?
    requires NumOfDescendants(key, nodes, w).Ok?
    requires nodes != []
    requires key(u).value <= key(w).value
    ensures NumOfDescendants(key, nodes, u).value >= NumOfDescendants(key, nodes, w).value
  {
    if |nodes| > 1 {
      CountAntitone(key, nodes[1..], u, w);
    }
  }

  /** Distances as a table `sp_len[u][b]`; a missing entry raises
      `KeyError`. */
  function TableDist(sp: map<nat, map<nat, nat>>): (r: Dist)
    ensures forall u, b :: r(u, b).Ok? <==> u in sp && b in sp[u]
    ensures forall u, b :: r(u, b).Ok? ==> r(u, b).value == sp[u][b]
  {
    (u: nat, b: nat) => if u in sp && b in sp[u] then Ok(sp[u][b]) else Err(KeyError)
  }

  /** `num_of_descendants(sol, ffp, u)` of the table variant: distances to
      `sol.burned` read from `sp_len`, over the graph's vertex list. */
  function TableNumOfDescendants(sp: map<nat, map<nat, nat>>, burned: set<nat>, nodes: seq<nat>, u: nat): Result<nat> {
    NumOfDescendants(SetDist(TableDist(sp), burned), nodes, u)
  }

  /** With the table, the score fails with `ValueError` when nothing is
      burned and with `KeyError` when an entry is missing, and it succeeds
      whenever the table holds every needed entry. */
  lemma TableFailures(sp: map<nat, map<nat, nat>>, burned: set<nat>, nodes: seq<nat>, u: nat)
    ensures TableNumOfDescendants(sp, burned, nodes, u).Err? ==>
      TableNumOfDescendants(sp, burned, nodes, u).error == if burned == {} then ValueError else KeyError
    ensures
      (&& nodes != [] && burned != {}
       && (forall x, b :: x in sp && b in burned ==> b in sp[x])
       && u in sp && (forall i :: 0 <= i < |nodes| ==> nodes[i] in sp))
      ==> TableNumOfDescendants(sp, burned, nodes, u).Ok?
  {
    var d := TableDist(sp);
    var key := SetDist(d, burned);
    TableKeyFailures(sp, burned, u);
    CountDefined(key, nodes, u);
    if TableNumOfDescendants(sp, burned, nodes, u).Err? {
      TableFailuresOf(sp, burned, key, nodes, u);
    }
    forall x | x in sp
      ensures (forall b :: b in burned ==> b in sp[x]) && burned != {} ==> key(x).Ok?
    {
      DistToSetSpec(d, x, burned);
    }
  }

  lemma TableKeyFailures(sp: map<nat, map<nat, nat>>, burned: set<nat>, x: nat)
    ensures SetDist(TableDist(sp), burned)(x).Err? ==>
      SetDist(TableDist(sp), burned)(x).error == if burned == {} then ValueError else KeyError
  {
    DistToSetSpec(TableDist(sp), x, burned);
  }

  lemma {:induction false} TableFailuresOf(sp: map<nat, map<nat, nat>>, burned: set<nat>, key: Key, nodes: seq<nat>, u: nat)
    requires key == SetDist(TableDist(sp), burned)
    requires NumOfDescendants(key, nodes, u).Err?
    ensures NumOfDescendants(key, nodes, u).error == if burned == {} then ValueError else KeyError
  {
    TableKeyFailures(sp, burned, u);
    TableKeyFailures(sp, burned, nodes[0]);
    if key(u).Ok? && key(nodes[0]).Ok? {
      TableFailuresOf(sp, burned, key, nodes[1..], u);
    }
  }

  /** Distances as shortest-path lengths in `g`. */
  function PathDist(g: Graph): (r: Dist)
    ensures forall u, b :: r(u, b) == ShortestPathLength(g, u, b)
  {
    (u: nat, b: nat) => ShortestPathLength(g, u, b)
  }

  /** A vertex of the graph is at distance 0 from itself and only from
      itself. */
  lemma PathDistZero(g: Graph, u: nat, b: nat)
    requires u < g.n
    ensures ShortestPathLength(g, u, u) == Ok(0)
    ensures ShortestPathLength(g, u, b).Ok? && b != u ==> ShortestPathLength(g, u, b).value > 0
  {
    assert u in Ball(g, {u}, 0);
    var r := ShortestPathLength(g, u, b);
    if r.Ok? && r.value == 0 {
      assert b in {u} * Vertices(g);
    }
  }

  /** With shortest-path distances, a vertex of the burned set is at
      distance 0 from it and every other vertex is farther. */
  lemma BurnedAtZero(g: Graph, B: set<nat>, v: nat)
    requires v < g.n
    requires DistToSet(PathDist(g), v, B).Ok?
    ensures DistToSet(PathDist(g), v, B).value == 0 <==> v in B
  {
    var d := PathDist(g);
    DistToSetSpec(d, v, B);
    var r := DistToSet(d, v, B).value;
    PathDistZero(g, v, v);
    if v in B {
      assert r <= d(v, v).value;
    } else {
      var b :| b in B && d(v, b) == Ok(r);
      PathDistZero(g, v, b);
    }
  }

  /** `num_of_descendants(sol, G, u)` of the shortest-path variant. */
  function PathNumOfDescendants(g: Graph, burned: set<nat>, nodes: seq<nat>, u: nat): Result<nat> {
    NumOfDescendants(SetDist(PathDist(g), burned), nodes, u)
  }

  /** A burned vertex counts every vertex outside the burned set. */
  lemma BurnedCountsUnburned(g: Graph, burned: set<nat>, nodes: seq<nat>, u: nat)
    requires u in burned && u < g.n
    requires Distinct(nodes)
    requires Elems(nodes) == Vertices(g)
    requires PathNumOfDescendants(g, burned, nodes, u).Ok?
    ensures PathNumOfDescendants(g, burned, nodes, u).value == |Vertices(g) - burned|
  {
    var key := SetDist(PathDist(g), burned);
    ZeroExactlyBurned(g, burned, key);
    assert forall i :: 0 <= i < |nodes| ==> nodes[i] < g.n by {
      forall i | 0 <= i < |nodes| ensures nodes[i] < g.n {
        assert nodes[i] in Elems(nodes);
      }
    }
    CountFromZero(key, nodes, u, burned, g.n);
  }

  /** With shortest-path distances, exactly the burned vertices of the
      graph are at distance 0. */
  lemma ZeroExactlyBurned(g: Graph, burned: set<nat>, key: Key)
    requires key == SetDist(PathDist(g), burned)
    ensures forall x: nat :: x < g.n && key(x).Ok? ==> (key(x).value == 0 <==> x in burned)
  {
    forall x: nat | x < g.n && key(x).Ok?
      ensures key(x).value == 0 <==> x in burned
    {
      BurnedAtZero(g, burned, x);
    }
  }

  /** From a vertex at distance 0, the score counts the listed vertices
      whose distance is not 0. */
  lemma CountFromZero(key: Key, nodes: seq<nat>, u: nat, zero: set<nat>, n: nat)
    requires Distinct(nodes)
    requires u in nodes
    requires forall i :: 0 <= i < |nodes| ==> nodes[i] < n
    requires NumOfDescendants(key, nodes, u).Ok?
    requires forall x: nat :: x < n && key(x).Ok? ==> (key(x).value == 0 <==> x in zero)
    requires u in zero
    ensures NumOfDescendants(key, nodes, u).value == |Elems(nodes) - zero|
  {
    CountDefined(key, nodes, u);
    CountIsFarther(key, nodes, u);
    forall v | v in Elems(nodes)
      ensures v in Farther(key, nodes, u) <==> v !in zero
    {
      var i :| 0 <= i < |nodes| && nodes[i] == v;
      assert key(v).Ok?;
    }
    assert Farther(key, nodes, u) == Elems(nodes) - zero;
  }
}

=== FILE: ffp.dfy ===
/** The problem object (`FFP`): reading an instance (line classification and
    the horizon `T`), and the part of `local_search` that runs before the
    restricted integer program is solved: the early return and the set of
    vertices whose defence variables are fixed to zero. */
module Ffp {
  import opened Wrappers
  import opened PyOps
  import opened Text
  import opened Graphs
  import opened Solutions

  /** The state `read_input` accumulates: the firefighter budget `D`, the
      initially burned vertices `B` in file order, the edges in file order,
      and the horizon `T`. Because `FFP.__init__` uses mutable default
      arguments, `B` and the graph carry over from earlier reads. */
  datatype Instance = Instance(D: int, B: seq<int>, edges: seq<(int, int)>, T: int)

  /** What one line of the file contributes. */
  datatype Line = Seed(b: int) | Edge(u: int, v: int) | Ignored

  /** The classification of line `idx`: after the five header lines a single
      token is a burned vertex; two tokens at any index are an edge;
      everything else is ignored. A token that is not an integer raises
      `ValueError`. */
  function ClassifyLine(idx: nat, line: string): Result<Line> {
    var values := Split(line);
    if idx > 4 && |values| == 1 then
      var b :- ParseInt(values[0]);
      Ok(Seed(b))
    else if |values| == 2 then
      var u :- ParseInt(values[0]);
      var v :- ParseInt(values[1]);
      Ok(Edge(u, v))
    else
      Ok(Ignored)
  }

  /** A line is a burned vertex exactly when it is past the header and holds
      one integer token; an edge exactly when it does not qualify as a burned
      vertex and holds two integer tokens; ignored exactly when it holds
      neither one token past the header nor two tokens. */
  lemma ClassifyLineSpec(idx: nat, line: string)
    ensures var r := ClassifyLine(idx, line);
            var values := Split(line);
            && (r.Ok? && r.value.Seed? <==>
                  idx > 4 && |values| == 1 && ParseInt(values[0]).Ok?)
            && (r.Ok? && r.value.Seed? ==> ParseInt(values[0]) == Ok(r.value.b))
            && (r.Ok? && r.value.Edge? <==>
                  !(idx > 4 && |values| == 1) && |values| == 2
                  && ParseInt(values[0]).Ok? && ParseInt(values[1]).Ok?)
            && (r.Ok? && r.value.Edge? ==>
                  ParseInt(values[0]) == Ok(r.value.u) && ParseInt(values[1]) == Ok(r.value.v))
            && (r.Ok? && r.value.Ignored? <==> !(idx > 4 && |values| == 1) && |values| != 2)
            && (r.Err? ==> r.error == ValueError)
  {
  }

  /** The classification of each line, line `i` of `lines` being line
      `idx + i` of the file. */
  function Classes(lines: seq<string>, idx: nat): (r: seq<Result<Line>>)
    ensures |r| == |lines|
    ensures forall i :: 0 <= i < |lines| ==> r[i] == ClassifyLine(idx + i, lines[i])
    decreases |lines|
  {
    if lines == [] then []
    else
      var rest := Classes(lines[1..], idx + 1);
      assert forall i :: 1 <= i < |lines| ==> lines[i] == lines[1..][i - 1];
      [ClassifyLine(idx, lines[0])] + rest
  }

  /** `B.append(b)` for a burned vertex, `G.add_edge(u, v)` for an edge. */
  function Add(line: Line, B: seq<int>, edges: seq<(int, int)>): (seq<int>, seq<(int, int)>) {
    match line
    case Seed(b) => (B + [b], edges)
    case Edge(u, v) => (B, edges + [(u, v)])
    case Ignored => (B, edges)
  }

  /** The effect of classified lines, in order; the first line that fails
      to parse raises. */
  function Apply(cs: seq<Result<Line>>, B: seq<int>, edges: seq<(int, int)>)
    : (r: Result<(seq<int>, seq<(int, int)>)>)
    ensures r.Ok? ==> B <= r.value.0 && edges <= r.value.1
    ensures r.Err? <==> exists i :: 0 <= i < |cs| && cs[i].Err?
    decreases |cs|
  {
    if cs == [] then Ok((B, edges))
    else if cs[0].Err? then Err(cs[0].error)
    else
      var p := Add(cs[0].value, B, edges);
      var r := Apply(cs[1..], p.0, p.1);
      assert forall i :: 1 <= i < |cs| ==> cs[i] == cs[1..][i - 1];
      r
  }

  /** The `for (idx, line) in enumerate(f)` loop over the lines from line
      `idx` on, appending to `B` and to the edge list. */
  function ReadLines(lines: seq<string>, idx: nat, B: seq<int>,
                     edges: seq<(int, int)>): Result<(seq<int>, seq<(int, int)>)>
  {
    Apply(Classes(lines, idx), B, edges)
  }

  lemma {:induction false} ApplyAppend(c1: seq<Result<Line>>, c2: seq<Result<Line>>,
                                       B: seq<int>, edges: seq<(int, int)>)
    ensures var r1 := Apply(c1, B, edges);
            Apply(c1 + c2, B, edges) == if r1.Err? then r1 else Apply(c2, r1.value.0, r1.value.1)
    decreases |c1|
  {
    if c1 == [] {
      assert c1 + c2 == c2;
    } else {
      assert (c1 + c2)[0] == c1[0];
      assert (c1 + c2)[1..] == c1[1..] + c2;
      if c1[0].Ok? {
        var p := Add(c1[0].value, B, edges);
        ApplyAppend(c1[1..], c2, p.0, p.1);
      }
    }
  }

  lemma ClassesAppend(l1: seq<string>, l2: seq<string>, idx: nat)
    ensures Classes(l1 + l2, idx) == Classes(l1, idx) + Classes(l2, idx + |l1|)
  {
    var a, b := Classes(l1 + l2, idx), Classes(l1, idx) + Classes(l2, idx + |l1|);
    forall i | 0 <= i < |a| ensures a[i] == b[i] {
      if i >= |l1| {
        assert (l1 + l2)[i] == l2[i - |l1|];
      }
    }
  }

  /** Reading a file in two parts is reading the first part and then the
      second part from where the first ended: lines contribute in file
      order. */
  lemma ReadLinesAppend(l1: seq<string>, l2: seq<string>, idx: nat,
                        B: seq<int>, edges: seq<(int, int)>)
    ensures var r1 := ReadLines(l1, idx, B, edges);
            ReadLines(l1 + l2, idx, B, edges)
            == if r1.Err? then r1 else ReadLines(l2, idx + |l1|, r1.value.0, r1.value.1)
  {
    ClassesAppend(l1, l2, idx);
    ApplyAppend(Classes(l1, idx), Classes(l2, idx + |l1|), B, edges);
  }

  /** The distinct endpoints of the edges: the graph's vertices. */
  function Nodes(edges: seq<(int, int)>): (r: set<int>)
    ensures forall x :: x in r <==> exists i :: 0 <= i < |edges| && (edges[i].0 == x || edges[i].1 == x)
  {
    if edges == [] then {}
    else
      var rest := Nodes(edges[1..]);
      assert forall i :: 1 <= i < |edges| ==> edges[i] == edges[1..][i - 1];
      {edges[0].0, edges[0].1} + rest
  }

  /** `read_input`: classify every line, then `T = ceil(n / D)` with `n` the
      number of vertices; `D == 0` raises `ZeroDivisionError`. */
  function ReadInput(inst: Instance, lines: seq<string>): (r: Result<Instance>)
    ensures r.Ok? ==> r.value.D == inst.D && inst.B <= r.value.B && inst.edges <= r.value.edges
    ensures r.Ok? ==> inst.D != 0 && r.value.T == CeilDiv(|Nodes(r.value.edges)|, inst.D)
    ensures ReadLines(lines, 0, inst.B, inst.edges).Ok? && inst.D != 0 ==> r.Ok?
    ensures r.Err? && ReadLines(lines, 0, inst.B, inst.edges).Ok? ==> r.error == ZeroDivisionError
    ensures r.Ok? ==> ReadLines(lines, 0, inst.B, inst.edges) == Ok((r.value.B, r.value.edges))
    ensures ReadLines(lines, 0, inst.B, inst.edges).Err? ==>
              r == Err(ReadLines(lines, 0, inst.B, inst.edges).error)
  {
    var p :- ReadLines(lines, 0, inst.B, inst.edges);
    if inst.D == 0 then Err(ZeroDivisionError)
    else Ok(Instance(inst.D, p.0, p.1, CeilDiv(|Nodes(p.1)|, inst.D)))
  }

  /** With at least one firefighter per round, `T` rounds defend every
      vertex and `T - 1` do not: `T * D >= n > (T - 1) * D`. */
  lemma HorizonBounds(inst: Instance, lines: seq<string>)
    requires inst.D >= 1
    ensures var r := ReadInput(inst, lines);
            r.Ok? ==> var n := |Nodes(r.value.edges)|;
                      (r.value.T - 1) * inst.D < n <= r.value.T * inst.D
  {
    var r := ReadInput(inst, lines);
    if r.Ok? {
      var n := |Nodes(r.value.edges)|;
      assert r.value.T == CeilDiv(n, inst.D);
    }
  }

  /** The text of an instance file: five header lines, then one line per
      burned vertex, then one line per edge. */
  function Render(header: seq<string>, B: seq<int>, edges: seq<(int, int)>): seq<string>
    requires |header| == 5
  {
    header + SeedLines(B) + EdgeLines(edges)
  }

  function SeedLines(B: seq<int>): (r: seq<string>)
    ensures |r| == |B|
    ensures forall i :: 0 <= i < |B| ==> r[i] == IntToString(B[i])
  {
    if B == [] then [] else [IntToString(B[0])] + SeedLines(B[1..])
  }

  /** The line `"u v"` of an edge. */
  function EdgeLine(e: (int, int)): string {
    Join([IntToString(e.0), IntToString(e.1)])
  }

  function EdgeLines(edges: seq<(int, int)>): (r: seq<string>)
    ensures |r| == |edges|
    ensures forall i :: 0 <= i < |edges| ==> r[i] == EdgeLine(edges[i])
  {
    if edges == [] then [] else [EdgeLine(edges[0])] + EdgeLines(edges[1..])
  }

  /** A written burned-vertex line past the header reads back as that
      vertex, and a written edge line reads back as that edge anywhere. */
  lemma ClassifyWritten(idx: nat, b: int, u: int, v: int)
    ensures idx > 4 ==> ClassifyLine(idx, IntToString(b)) == Ok(Seed(b))
    ensures ClassifyLine(idx, EdgeLine((u, v))) == Ok(Edge(u, v))
  {
    ParseIntToString(b);
    ParseIntToString(u);
    ParseIntToString(v);
    SplitJoin([IntToString(b)]);
    SplitJoin([IntToString(u), IntToString(v)]);
  }

  /** Lines classified as the burned vertices `B` append them, in order. */
  lemma {:induction false} ApplySeeds(cs: seq<Result<Line>>, B: seq<int>, B0: seq<int>,
                                      edges: seq<(int, int)>)
    requires |cs| == |B|
    requires forall i :: 0 <= i < |cs| ==> cs[i] == Ok(Seed(B[i]))
    ensures Apply(cs, B0, edges) == Ok((B0 + B, edges))
    decreases |cs|
  {
    if cs == [] {
      assert B0 + B == B0;
    } else {
      ApplySeeds(cs[1..], B[1..], B0 + [B[0]], edges);
      assert B0 + [B[0]] + B[1..] == B0 + B;
    }
  }

  /** Lines classified as the edges `E` append them, in order. */
  lemma {:induction false} ApplyEdges(cs: seq<Result<Line>>, E: seq<(int, int)>, B0: seq<int>,
                                      edges: seq<(int, int)>)
    requires |cs| == |E|
    requires forall i :: 0 <= i < |cs| ==> cs[i] == Ok(Edge(E[i].0, E[i].1))
    ensures Apply(cs, B0, edges) == Ok((B0, edges + E))
    decreases |cs|
  {
    if cs == [] {
      assert edges + E == edges;
    } else {
      ApplyEdges(cs[1..], E[1..], B0, edges + [E[0]]);
      assert edges + [E[0]] + E[1..] == edges + E;
    }
  }

  /** Ignored lines change nothing. */
  lemma {:induction false} ApplyIgnored(cs: seq<Result<Line>>, B0: seq<int>, edges: seq<(int, int)>)
    requires forall i :: 0 <= i < |cs| ==> cs[i] == Ok(Ignored)
    ensures Apply(cs, B0, edges) == Ok((B0, edges))
    decreases |cs|
  {
    if cs != [] {
      ApplyIgnored(cs[1..], B0, edges);
    }
  }

  /** Header lines with neither one nor two tokens are ignored. */
  lemma HeaderIgnored(header: seq<string>)
    requires forall i :: 0 <= i < |header| ==> |Split(header[i])| != 1 && |Split(header[i])| != 2
    ensures forall i :: 0 <= i < |header| ==> Classes(header, 0)[i] == Ok(Ignored)
  {
    forall i | 0 <= i < |header| ensures Classes(header, 0)[i] == Ok(Ignored) {
      ClassifyLineSpec(i, header[i]);
    }
  }

  lemma SeedLinesClassify(B: seq<int>, idx: nat)
    requires idx > 4
    ensures forall i :: 0 <= i < |B| ==> Classes(SeedLines(B), idx)[i] == Ok(Seed(B[i]))
  {
    var lines := SeedLines(B);
    forall i | 0 <= i < |B| ensures Classes(lines, idx)[i] == Ok(Seed(B[i])) {
      var line := lines[i];
      assert line == IntToString(B[i]);
      assert Classes(lines, idx)[i] == ClassifyLine(idx + i, line);
      ClassifyWritten(idx + i, B[i], 0, 0);
    }
  }

  lemma EdgeLinesClassify(E: seq<(int, int)>, idx: nat)
    ensures forall i :: 0 <= i < |E| ==> Classes(EdgeLines(E), idx)[i] == Ok(Edge(E[i].0, E[i].1))
  {
    forall i | 0 <= i < |E| ensures Classes(EdgeLines(E), idx)[i] == Ok(Edge(E[i].0, E[i].1)) {
      ClassifyWritten(idx + i, 0, E[i].0, E[i].1);
    }
  }

  /** Reading back a written instance whose header lines hold neither one
      nor two tokens recovers the burned vertices and the edges in order,
      appended to what earlier reads left. */
  lemma ReadRendered(inst: Instance, header: seq<string>, B: seq<int>, edges: seq<(int, int)>)
    requires |header| == 5
    requires forall i :: 0 <= i < 5 ==> |Split(header[i])| != 1 && |Split(header[i])| != 2
    ensures ReadLines(Render(header, B, edges), 0, inst.B, inst.edges)
            == Ok((inst.B + B, inst.edges + edges))
  {
    ClassesOfRender(header, B, edges);
    HeaderApplied(header, inst.B, inst.edges);
    SeedsApplied(B, inst.B, inst.edges);
    EdgesApplied(edges, 5 + |B|, inst.B + B, inst.edges);
    ApplyThree(Classes(header, 0), Classes(SeedLines(B), 5), Classes(EdgeLines(edges), 5 + |B|),
               inst.B, inst.edges, B, edges);
  }

  /** `file` holds the lines `lines`, each possibly still ending in the
      `'\n'` that iterating over a file keeps. */
  ghost predicate LinesOfFile(file: seq<string>, lines: seq<string>) {
    |file| == |lines| && forall i :: 0 <= i < |lines| ==> file[i] == lines[i] || file[i] == lines[i] + "\n"
  }

  /** A line's terminator does not change its classification. */
  lemma ClassifyTerminated(idx: nat, line: string)
    ensures ClassifyLine(idx, line + "\n") == ClassifyLine(idx, line)
  {
    SplitTrailingSpace(line, '\n');
  }

  lemma ClassesOfFile(file: seq<string>, lines: seq<string>, idx: nat)
    requires LinesOfFile(file, lines)
    ensures Classes(file, idx) == Classes(lines, idx)
  {
    forall i | 0 <= i < |lines| ensures Classes(file, idx)[i] == Classes(lines, idx)[i] {
      ClassifyTerminated(idx + i, lines[i]);
    }
  }

  /** `read_input` of a file written from a header, the burned vertices and
      the edges, with or without line terminators: `B` and the edge list
      gain exactly those, in order, on top of what they held, and `T` is
      `ceil(n / D)` for the vertices of all the edges. */
  lemma ReadInputRendered(inst: Instance, header: seq<string>, B: seq<int>,
                          edges: seq<(int, int)>, file: seq<string>)
    requires inst.D != 0 && |header| == 5
    requires forall i :: 0 <= i < 5 ==> |Split(header[i])| != 1 && |Split(header[i])| != 2
    requires LinesOfFile(file, Render(header, B, edges))
    ensures ReadInput(inst, file)
            == Ok(Instance(inst.D, inst.B + B, inst.edges + edges,
                           CeilDiv(|Nodes(inst.edges + edges)|, inst.D)))
  {
    ReadRendered(inst, header, B, edges);
    ClassesOfFile(file, Render(header, B, edges), 0);
  }

  lemma ClassesOfRender(header: seq<string>, B: seq<int>, edges: seq<(int, int)>)
    requires |header| == 5
    ensures Classes(Render(header, B, edges), 0)
            == Classes(header, 0) + Classes(SeedLines(B), 5) + Classes(EdgeLines(edges), 5 + |B|)
  {
    ClassesAppendThree(header, SeedLines(B), EdgeLines(edges));
  }

  lemma ClassesAppendThree(a: seq<string>, b: seq<string>, c: seq<string>)
    ensures Classes(a + b + c, 0) == Classes(a, 0) + Classes(b, |a|) + Classes(c, |a| + |b|)
  {
    ClassesAppend(a + b, c, 0);
    ClassesAppend(a, b, 0);
  }

  lemma HeaderApplied(header: seq<string>, B0: seq<int>, E0: seq<(int, int)>)
    requires forall i :: 0 <= i < |header| ==> |Split(header[i])| != 1 && |Split(header[i])| != 2
    ensures Apply(Classes(header, 0), B0, E0) == Ok((B0, E0))
  {
    HeaderIgnored(header);
    ApplyIgnored(Classes(header, 0), B0, E0);
  }

  lemma SeedsApplied(B: seq<int>, B0: seq<int>, E0: seq<(int, int)>)
    ensures Apply(Classes(SeedLines(B), 5), B0, E0) == Ok((B0 + B, E0))
  {
    SeedLinesClassify(B, 5);
    ApplySeeds(Classes(SeedLines(B), 5), B, B0, E0);
  }

  lemma EdgesApplied(E: seq<(int, int)>, idx: nat, B0: seq<int>, E0: seq<(int, int)>)
    ensures Apply(Classes(EdgeLines(E), idx), B0, E0) == Ok((B0, E0 + E))
  {
    EdgeLinesClassify(E, idx);
    ApplyEdges(Classes(EdgeLines(E), idx), E, B0, E0);
  }

  /** Header, seed and edge lines applied one part after the other. */
  lemma ApplyThree(ch: seq<Result<Line>>, cb: seq<Result<Line>>, ce: seq<Result<Line>>,
                   B0: seq<int>, E0: seq<(int, int)>, B: seq<int>, E: seq<(int, int)>)
    requires Apply(ch, B0, E0) == Ok((B0, E0))
    requires Apply(cb, B0, E0) == Ok((B0 + B, E0))
    requires Apply(ce, B0 + B, E0) == Ok((B0 + B, E0 + E))
    ensures Apply(ch + cb + ce, B0, E0) == Ok((B0 + B, E0 + E))
  {
    ApplyAppend(ch, cb, B0, E0);
    ApplyAppend(ch + cb, ce, B0, E0);
  }

  /** What `local_search` did: the solution as its neighbourhood was left
      stored on it, the solution returned, and the vertices whose defence
      variables were fixed to zero (none on the early return). */
  datatype SearchCall = SearchCall(input: Solution, result: Solution, fixed: Option<set<nat>>)

  /** `local_search(sol, k, sigma, f, time_limit)`: with no time left the
      solution itself comes back; otherwise its filtered neighbourhood is
      built and every vertex outside it and outside `defended` has its
      defence variables fixed before the restricted program is solved by
      `solve`. */
  function LocalSearch(g: Graph, sol: Solution, k: nat, sigma: int, f: (Solution, nat) -> int,
                       timeLimit: real, solve: set<nat> -> Solution): (r: SearchCall)
    ensures timeLimit <= 0.0 ==> r == SearchCall(sol, sol, None)
    ensures timeLimit > 0.0 ==> r.fixed.Some? && r.result == solve(r.fixed.value)
    ensures r.fixed.Some? ==>
              r.input == sol.(kn := Some(CachedKn(sol, g, k)), neighborhood := r.input.neighborhood)
    ensures r.fixed.Some? ==>
              && r.input.neighborhood.Some?
              && sol.defended <= r.input.neighborhood.value <= CachedKn(sol, g, k) + sol.defended
              && r.fixed.value !! r.input.neighborhood.value
              && r.fixed.value !! sol.defended
              && r.fixed.value <= Vertices(g)
              && forall v :: v in Vertices(g) ==>
                   (v in r.fixed.value <==> v !in r.input.neighborhood.value && v !in sol.defended)
  {
    if timeLimit <= 0.0 then SearchCall(sol, sol, None)
    else
      var (sol', neigh) := ConstructNeighborhood(sol, g, k, sigma, (v: nat) => f(sol, v));
      var N := Vertices(g) - (neigh + sol.defended);
      SearchCall(sol', solve(N), Some(N))
  }

  /** The neighbourhood searched keeps the fraction sigma of the
      k-neighbourhood, rounded up, besides the defended vertices. */
  lemma LocalSearchKeepsFraction(g: Graph, sol: Solution, k: nat, sigma: int, f: (Solution, nat) -> int,
                                 timeLimit: real, solve: set<nat> -> Solution)
    requires timeLimit > 0.0 && 0 <= sigma <= 10
    requires CachedKn(sol, g, k) !! sol.defended
    ensures var r := LocalSearch(g, sol, k, sigma, f, timeLimit, solve);
            && r.input.neighborhood.Some?
            && |r.input.neighborhood.value - sol.defended| == KeepCount(sigma, |CachedKn(sol, g, k)|)
  {
    FilterKeepsFraction(sol, g, k, sigma, (v: nat) => f(sol, v));
  }

  /** Every vertex the searched neighbourhood keeps scores at least as high
      as every vertex of the k-neighbourhood it drops. */
  lemma LocalSearchKeepsBestScores(g: Graph, sol: Solution, k: nat, sigma: int, f: (Solution, nat) -> int,
                                   timeLimit: real, solve: set<nat> -> Solution, v: nat, w: nat)
    requires timeLimit > 0.0
    requires var r := LocalSearch(g, sol, k, sigma, f, timeLimit, solve);
             && r.input.neighborhood.Some?
             && v in r.input.neighborhood.value - sol.defended
             && w in CachedKn(sol, g, k) - r.input.neighborhood.value
    ensures f(sol, v) >= f(sol, w)
  {
    FilterKeepsBestScores(sol, g, k, sigma, (v: nat) => f(sol, v), v, w);
  }

  /** With sigma at 1 and nothing cached, the fixed vertices are exactly
      those farther than `k` hops from every defended vertex. */
  lemma LocalSearchFixesOutsideBall(g: Graph, sol: Solution, k: nat, f: (Solution, nat) -> int,
                                    timeLimit: real, solve: set<nat> -> Solution)
    requires timeLimit > 0.0 && sol.kn == None
    ensures LocalSearch(g, sol, k, 10, f, timeLimit, solve).fixed
            == Some(Vertices(g) - Ball(g, sol.defended, k))
  {
    var score := (v: nat) => f(sol, v);
    var cn := ConstructNeighborhood(sol, g, k, 10, score);
    var D := sol.defended;
    assert cn.1 == KHop(g, D, k) + D by {
      FullSigmaIsFullNeighborhood(sol, g, k, score);
      assert cn.0.neighborhood == Some(cn.1);
    }
    var ball := Ball(g, D, k);
    BallContainsSources(g, D, k);
    assert Vertices(g) - (cn.1 + D) == Vertices(g) - ball;
  }
}

=== FILE: graphs.dfy ===
/** The graph view the heuristic reads: the vertices 0..n-1, adjacency, and
    the k-hop ball that networkx's cut-off shortest-path search and
    shortest-path lengths compute. */
module Graphs {
  import opened Wrappers

  /** An undirected graph on the vertices 0..n-1. Each edge may be stored in
      either orientation. */
  datatype Graph = Graph(n: nat, edges: set<(nat, nat)>)

  predicate Adjacent(g: Graph, u: nat, v: nat) {
    (u, v) in g.edges || (v, u) in g.edges
  }

  /** The set {0, ..., n - 1}. */
  function Range(n: nat): (r: set<nat>)
    ensures forall v: nat :: v in r <==> v < n
    ensures |r| == n
  {
    if n == 0 then {} else Range(n - 1) + {n - 1}
  }

  function Vertices(g: Graph): set<nat> {
    Range(g.n)
  }

  /** Some vertex of `s` is adjacent to `v`. */
  predicate Touches(g: Graph, s: set<nat>, v: nat) {
    exists u :: u in s && Adjacent(g, u, v)
  }

  /** Every vertex adjacent to some vertex of `s`. */
  function Neighbors(g: Graph, s: set<nat>): (r: set<nat>)
    ensures r <= Vertices(g)
  {
    set v | v in Vertices(g) && Touches(g, s, v)
  }

  /** The vertices within `k` hops of `s`: what networkx's
      `single_source_shortest_path(G, d, k)` reaches, for a set of sources. */
  function Ball(g: Graph, s: set<nat>, k: nat): (r: set<nat>)
    ensures r <= Vertices(g)
  {
    if k == 0 then s * Vertices(g)
    else
      var b := Ball(g, s, k - 1);
      b + Neighbors(g, b)
  }

  /** A larger radius never loses a vertex. */
  lemma {:induction false} BallMonotone(g: Graph, s: set<nat>, j: nat, k: nat)
    requires j <= k
    ensures Ball(g, s, j) <= Ball(g, s, k)
    decreases k - j
  {
    if j < k {
      BallMonotone(g, s, j + 1, k);
    }
  }

  /** Every source vertex lies in its own ball. */
  lemma {:induction false} BallContainsSources(g: Graph, s: set<nat>, k: nat)
    ensures s * Vertices(g) <= Ball(g, s, k)
  {
    BallMonotone(g, s, 0, k);
  }

  /** The ball of a union is the union of the balls: collecting the ball of
      each defended vertex one by one gives the ball of the whole set. */
  lemma {:induction false} BallUnion(g: Graph, a: set<nat>, b: set<nat>, k: nat)
    ensures Ball(g, a + b, k) == Ball(g, a, k) + Ball(g, b, k)
  {
    if k == 0 {
      assert (a + b) * Vertices(g) == a * Vertices(g) + b * Vertices(g);
    } else {
      BallUnion(g, a, b, k - 1);
      var x, y := Ball(g, a, k - 1), Ball(g, b, k - 1);
      NeighborsUnion(g, x, y);
      calc {
        Ball(g, a + b, k);
        Ball(g, a + b, k - 1) + Neighbors(g, Ball(g, a + b, k - 1));
        (x + y) + Neighbors(g, x + y);
        (x + Neighbors(g, x)) + (y + Neighbors(g, y));
      }
    }
  }

  lemma NeighborsUnion(g: Graph, x: set<nat>, y: set<nat>)
    ensures Neighbors(g, x + y) == Neighbors(g, x) + Neighbors(g, y)
  {
    forall v | v in Neighbors(g, x + y)
      ensures v in Neighbors(g, x) + Neighbors(g, y)
    {
      var u :| u in x + y && Adjacent(g, u, v);
      if u in x {
        assert Touches(g, x, v);
      } else {
        assert Touches(g, y, v);
      }
    }
  }

  /** Nothing is within any distance of no vertex. */
  lemma {:induction false} BallOfEmpty(g: Graph, k: nat)
    ensures Ball(g, {}, k) == {}
  {
    if k > 0 {
      BallOfEmpty(g, k - 1);
      assert Neighbors(g, {}) == {};
    }
  }

  /** The ball stops growing at radius `j`. */
  predicate Settled(g: Graph, s: set<nat>, j: nat) {
    Ball(g, s, j + 1) == Ball(g, s, j)
  }

  lemma {:induction false} SettledStays(g: Graph, s: set<nat>, j: nat, k: nat)
    requires Settled(g, s, j)
    requires j <= k
    ensures Ball(g, s, k) == Ball(g, s, j)
    decreases k - j
  {
    if j < k {
      SettledStays(g, s, j, k - 1);
    }
  }

  lemma {:induction false} BallGrowsUntilSettled(g: Graph, s: set<nat>, k: nat)
    ensures (exists j :: 0 <= j < k && Settled(g, s, j)) || |Ball(g, s, k)| >= k
  {
    if k > 0 {
      BallGrowsUntilSettled(g, s, k - 1);
      if exists j :: 0 <= j < k - 1 && Settled(g, s, j) {
        var j :| 0 <= j < k - 1 && Settled(g, s, j);
        assert 0 <= j < k;
      } else if Settled(g, s, k - 1) {
        assert 0 <= k - 1 < k;
      } else {
        BallGrowsStrictly(g, s, k - 1);
      }
    }
  }

  /** An unsettled ball gains a vertex at the next radius. */
  lemma BallGrowsStrictly(g: Graph, s: set<nat>, j: nat)
    requires !Settled(g, s, j)
    ensures |Ball(g, s, j + 1)| > |Ball(g, s, j)|
  {
    var b := Ball(g, s, j);
    var c := Ball(g, s, j + 1);
    assert b <= c;
    assert c - b != {};
    var x :| x in c - b;
    assert b <= c - {x};
    SubsetCard(b, c - {x});
  }

  /** The ball of radius n is final: no larger radius adds a vertex. */
  lemma BallSettlesByN(g: Graph, s: set<nat>, k: nat)
    ensures Ball(g, s, k) <= Ball(g, s, g.n)
  {
    BallGrowsUntilSettled(g, s, g.n + 1);
    if |Ball(g, s, g.n + 1)| >= g.n + 1 {
      assert |Ball(g, s, g.n + 1)| <= |Vertices(g)| by {
        SubsetCard(Ball(g, s, g.n + 1), Vertices(g));
      }
      assert false;
    }
    var j :| 0 <= j < g.n + 1 && Settled(g, s, j);
    if k <= g.n {
      BallMonotone(g, s, k, g.n);
    } else {
      SettledStays(g, s, j, k);
      SettledStays(g, s, j, g.n);
    }
  }

  lemma SubsetCard(a: set<nat>, b: set<nat>)
    requires a <= b
    ensures |a| <= |b|
  {
    assert b == a + (b - a);
  }

  /** The hop count from `u` to `b`, searching radii `k`, `k + 1`, ...,
      `n`. */
  function SearchRadius(g: Graph, u: nat, b: nat, k: nat): (r: Result<nat>)
    requires forall j :: 0 <= j < k ==> b !in Ball(g, {u}, j)
    ensures r.Ok? ==> b in Ball(g, {u}, r.value)
    ensures r.Ok? ==> forall j :: 0 <= j < r.value ==> b !in Ball(g, {u}, j)
    ensures r.Err? ==> r.error == NoPath && b !in Ball(g, {u}, g.n)
    decreases g.n - k
  {
    if b in Ball(g, {u}, k) then Ok(k)
    else if k >= g.n then
      (BallMonotone(g, {u}, g.n, k); Err(NoPath))
    else SearchRadius(g, u, b, k + 1)
  }

  /** networkx `shortest_path_length(G, u, b)`: the least radius whose ball
      around `u` holds `b`; a vertex outside the graph or out of reach raises
      an error. */
  function ShortestPathLength(g: Graph, u: nat, b: nat): (r: Result<nat>)
    ensures r.Ok? <==> u < g.n && exists j: nat :: b in Ball(g, {u}, j)
    ensures r.Ok? ==> b in Ball(g, {u}, r.value)
    ensures r.Ok? ==> forall j :: 0 <= j < r.value ==> b !in Ball(g, {u}, j)
  {
    if u >= g.n then
      BallOfNonVertex(g, u);
      Err(NoPath)
    else if b >= g.n then
      BallOfNonVertexTarget(g, u, b);
      Err(NoPath)
    else
      var r := SearchRadius(g, u, b, 0);
      if r.Err? then
        NoPathAtAnyRadius(g, u, b);
        r
      else
        var d: nat := r.value;
        assert b in Ball(g, {u}, d);
        assert exists j: nat :: b in Ball(g, {u}, j);
        r
  }

  lemma NoPathAtAnyRadius(g: Graph, u: nat, b: nat)
    requires b !in Ball(g, {u}, g.n)
    ensures forall j: nat :: b !in Ball(g, {u}, j)
  {
    forall j: nat ensures b !in Ball(g, {u}, j) {
      BallSettlesByN(g, {u}, j);
    }
  }

  lemma BallOfNonVertex(g: Graph, u: nat)
    requires u >= g.n
    ensures forall j: nat :: Ball(g, {u}, j) == {}
  {
    forall j: nat ensures Ball(g, {u}, j) == {} {
      assert {u} * Vertices(g) == {};
      BallUnion(g, {}, {}, j);
      BallOfEmptyFrom(g, {u}, j);
    }
  }

  lemma {:induction false} BallOfEmptyFrom(g: Graph, s: set<nat>, k: nat)
    requires s * Vertices(g) == {}
    ensures Ball(g, s, k) == {}
  {
    if k > 0 {
      BallOfEmptyFrom(g, s, k - 1);
      assert Neighbors(g, {}) == {};
    }
  }

  lemma BallOfNonVertexTarget(g: Graph, u: nat, b: nat)
    requires b >= g.n
    ensures forall j: nat :: b !in Ball(g, {u}, j)
  {
  }
}

=== FILE: ioutil.dfy ===
/** The experiment driver's bookkeeping: turning the lines of an instance
    list into instance paths, and turning a finished run into the row of the
    results table. Paths follow POSIX `os.path.join` and `os.path.split`. */
module IoUtil {
  import opened Wrappers
  import opened Text
  import opened Solutions

  predicate NoSlash(s: string) {
    forall i :: 0 <= i < |s| ==> s[i] != '/'
  }

  /** `os.path.join(a, b)`: an absolute `b` replaces `a`; otherwise `b` is
      appended, with a `/` in between unless `a` is empty or already ends
      with one. */
  function PathJoin(a: string, b: string): (r: string)
    ensures |b| > 0 && b[0] == '/' ==> r == b
    ensures !(|b| > 0 && b[0] == '/') ==> a <= r && |a| + |b| <= |r| <= |a| + 1 + |b| && r[|r| - |b|..] == b
  {
    if |b| > 0 && b[0] == '/' then b
    else if a == [] || a[|a| - 1] == '/' then a + b
    else a + "/" + b
  }

  /** The position just after the last `/` of `p`, or 0 if there is none. */
  function AfterLastSlash(p: string): (i: nat)
    ensures i <= |p|
    ensures i > 0 ==> p[i - 1] == '/'
    ensures NoSlash(p[i..])
  {
    if p == [] then 0
    else if p[|p| - 1] == '/' then |p|
    else
      var i := AfterLastSlash(p[..|p| - 1]);
      assert p[i..] == p[..|p| - 1][i..] + [p[|p| - 1]];
      i
  }

  /** `h.rstrip('/')`. */
  function StripSlashes(h: string): (r: string)
    ensures r <= h
    ensures r == [] || r[|r| - 1] != '/'
    ensures forall j :: |r| <= j < |h| ==> h[j] == '/'
  {
    if h == [] || h[|h| - 1] != '/' then h
    else StripSlashes(h[..|h| - 1])
  }

  predicate AllSlashes(h: string) {
    forall j :: 0 <= j < |h| ==> h[j] == '/'
  }

  /** `t` is a suffix of `p` that is either all of `p` or preceded by a
      slash. */
  predicate AfterSlash(p: string, t: string) {
    |t| <= |p| && (|t| < |p| ==> p[|p| - |t| - 1] == '/')
  }

  /** `os.path.split(p)`: the tail is everything after the last `/`; the
      head is everything up to it, trailing slashes removed unless the head
      is made of slashes only. */
  function PathSplit(p: string): (r: (string, string))
    ensures NoSlash(r.1)
    ensures |r.1| <= |p| && r.1 == p[|p| - |r.1|..]
    ensures AfterSlash(p, r.1)
    ensures r.0 <= p
  {
    var i := AfterLastSlash(p);
    var head := p[..i];
    (if AllSlashes(head) then head else StripSlashes(head), p[i..])
  }

  /** Splitting a join gives back the appended component, and the first
      one without its trailing slashes. */
  lemma SplitOfJoin(a: string, b: string)
    requires |b| > 0 && NoSlash(b)
    ensures PathSplit(PathJoin(a, b)).1 == b
    ensures PathSplit(PathJoin(a, b)).0 == if AllSlashes(a) then a else StripSlashes(a)
  {
    if a == [] || a[|a| - 1] == '/' {
      assert PathJoin(a, b) == a + b;
      SplitAtSlash(a, b);
    } else {
      var m := a + "/";
      assert PathJoin(a, b) == m + b;
      SplitAtSlash(m, b);
      assert !AllSlashes(a) && StripSlashes(a) == a;
      assert !AllSlashes(m) by {
        assert m[|a| - 1] == a[|a| - 1];
      }
      assert StripSlashes(m) == a by {
        assert m[..|m| - 1] == a;
      }
    }
  }

  /** A path whose last `/` ends `m` splits into `m`, trailing slashes
      stripped, and the rest. */
  lemma SplitAtSlash(m: string, b: string)
    requires m == [] || m[|m| - 1] == '/'
    requires NoSlash(b)
    ensures PathSplit(m + b) == (if AllSlashes(m) then m else StripSlashes(m), b)
  {
    var p := m + b;
    assert AfterLastSlash(p) == |m| by {
      AfterSlashes(m, b);
    }
    assert p[..|m|] == m && p[|m|..] == b;
  }

  lemma {:induction false} AfterSlashes(m: string, b: string)
    requires m == [] || m[|m| - 1] == '/'
    requires NoSlash(b)
    ensures AfterLastSlash(m + b) == |m|
    decreases |b|
  {
    if b != [] {
      var p := m + b;
      assert p[..|p| - 1] == m + b[..|b| - 1];
      AfterSlashes(m, b[..|b| - 1]);
    } else {
      assert m + b == m;
    }
  }

  /** `filter(None, lines)`: the non-empty lines, in order. */
  function NonEmpty(lines: seq<string>): (r: seq<string>)
    ensures |r| <= |lines|
    ensures forall i :: 0 <= i < |r| ==> r[i] != []
    ensures forall i :: 0 <= i < |r| ==> r[i] in lines
    ensures forall s :: s in lines && s != [] ==> s in r
  {
    if lines == [] then []
    else (if lines[0] == [] then [] else [lines[0]]) + NonEmpty(lines[1..])
  }

  /** Filtering a concatenation filters each part. */
  lemma {:induction false} NonEmptyAppend(xs: seq<string>, ys: seq<string>)
    ensures NonEmpty(xs + ys) == NonEmpty(xs) + NonEmpty(ys)
  {
    if xs != [] {
      var t := xs[1..];
      var head := if xs[0] == [] then [] else [xs[0]];
      assert NonEmpty(xs + ys) == head + NonEmpty(t + ys) by {
        assert (xs + ys)[0] == xs[0];
        assert (xs + ys)[1..] == t + ys;
      }
      assert NonEmpty(t + ys) == NonEmpty(t) + NonEmpty(ys) by {
        NonEmptyAppend(t, ys);
      }
      assert NonEmpty(xs) == head + NonEmpty(t);
    } else {
      assert xs + ys == ys;
    }
  }

  /** The path of one instance: `join('instances', set, name)` built from the
      first two tokens of the line; a line with fewer tokens raises
      `IndexError`. */
  function InstancePath(line: string): (r: Result<string>)
    ensures r.Ok? <==> |Split(line)| >= 2
    ensures r.Err? ==> r.error == IndexError
  {
    var t := Split(line);
    if |t| < 2 then Err(IndexError)
    else Ok(PathJoin(PathJoin("instances", t[0]), t[1]))
  }

  function InstancePaths(lines: seq<string>): (r: Result<seq<string>>)
    ensures r.Ok? <==> forall i :: 0 <= i < |lines| ==> InstancePath(lines[i]).Ok?
    ensures r.Ok? ==> |r.value| == |lines|
    ensures r.Ok? ==> forall i :: 0 <= i < |lines| ==> r.value[i] == InstancePath(lines[i]).value
    ensures r.Err? ==> r.error == IndexError
  {
    if lines == [] then Ok([])
    else
      var p :- InstancePath(lines[0]);
      var rest :- InstancePaths(lines[1..]);
      assert forall i :: 1 <= i < |lines| ==> lines[i] == lines[1..][i - 1];
      Ok([p] + rest)
  }

  /** `generate_instance_list` on the lines of the list file: empty lines
      are dropped and every other line becomes an instance path, in order. */
  function GenerateInstanceList(lines: seq<string>): Result<seq<string>> {
    InstancePaths(NonEmpty(lines))
  }

  /** Every non-empty line needs two tokens; the result then holds one path
      per non-empty line, in order, and fails with `IndexError` otherwise. */
  lemma GenerateInstanceListSpec(lines: seq<string>)
    ensures GenerateInstanceList(lines).Ok? <==>
      forall i :: 0 <= i < |lines| && lines[i] != [] ==> |Split(lines[i])| >= 2
    ensures GenerateInstanceList(lines).Ok? ==> |GenerateInstanceList(lines).value| == |NonEmpty(lines)|
    ensures GenerateInstanceList(lines).Err? ==> GenerateInstanceList(lines).error == IndexError
  {
    var kept := NonEmpty(lines);
    if forall i :: 0 <= i < |lines| && lines[i] != [] ==> |Split(lines[i])| >= 2 {
      forall j | 0 <= j < |kept| ensures InstancePath(kept[j]).Ok? {
        var i :| 0 <= i < |lines| && lines[i] == kept[j];
      }
    } else {
      var i :| 0 <= i < |lines| && lines[i] != [] && |Split(lines[i])| < 2;
      assert lines[i] in kept;
      var j :| 0 <= j < |kept| && kept[j] == lines[i];
      assert !InstancePath(kept[j]).Ok?;
    }
  }

  /** A line `set name ...` gives `instances/set/name`: tokens past the
      second are ignored. */
  lemma LineToPath(ws: seq<string>)
    requires |ws| >= 2
    requires forall i :: 0 <= i < |ws| ==> Word(ws[i])
    ensures InstancePath(Join(ws)) == Ok(PathJoin(PathJoin("instances", ws[0]), ws[1]))
  {
    SplitJoin(ws);
  }

  /** A line of whitespace only has no token and raises `IndexError`. */
  lemma {:induction false} BlankLineFails(line: string)
    requires forall i :: 0 <= i < |line| ==> IsSpace(line[i])
    ensures InstancePath(line) == Err(IndexError)
  {
    BlankSplit(line);
  }

  lemma {:induction false} BlankSplit(line: string)
    requires forall i :: 0 <= i < |line| ==> IsSpace(line[i])
    ensures Split(line) == []
    decreases |line|
  {
    if line != [] {
      BlankSplit(line[1..]);
    }
  }

  /** A value in a row of the results table. */
  datatype Cell = Str(s: string) | Int(i: int) | Seconds(t: real)

  /** A column of the results table. */
  datatype Field = SetName | Size | Cost | InstanceName | Budget | Runtime

  /** The column's header in the CSV file. */
  function Name(f: Field): string {
    match f
    case SetName => "set"
    case Size => "n"
    case Cost => "result"
    case InstanceName => "instance"
    case Budget => "D"
    case Runtime => "runtime"
  }

  /** The columns of the results table, in order. */
  const FIELDNAMES: seq<Field> := [SetName, Size, Cost, InstanceName, Budget, Runtime]

  /** The header line the writer puts first. */
  lemma Header()
    ensures seq(|FIELDNAMES|, i requires 0 <= i < |FIELDNAMES| => Name(FIELDNAMES[i]))
      == ["set", "n", "result", "instance", "D", "runtime"]
  {
  }

  /** `result_to_dict(filename, n, best, D, final_time)`: the instance set is
      the name of the directory holding the instance file; `runtime` is the
      already rounded running time. */
  function ResultToDict(filename: string, n: int, best: Solution, D: int, runtime: real): map<Field, Cell> {
    var name := PathSplit(filename).1;
    var directory := PathSplit(PathSplit(filename).0).1;
    map[SetName := Str(directory), Size := Int(n), Cost := Int(best.cost),
        InstanceName := Str(name), Budget := Int(D), Runtime := Seconds(runtime)]
  }

  /** `csv.DictWriter(f, fieldnames).writerow(d)`: a key outside the field
      names raises `ValueError`; a missing one is written empty. */
  function CsvRow(d: map<Field, Cell>, fieldnames: seq<Field>): (r: Result<seq<Cell>>)
    ensures r.Ok? <==> forall k :: k in d ==> k in fieldnames
    ensures r.Ok? ==> |r.value| == |fieldnames|
    ensures r.Ok? ==> forall i :: 0 <= i < |fieldnames| && fieldnames[i] in d ==> r.value[i] == d[fieldnames[i]]
    ensures r.Ok? ==> forall i :: 0 <= i < |fieldnames| && fieldnames[i] !in d ==> r.value[i] == Str("")
  {
    if exists k :: k in d && k !in fieldnames then Err(ValueError)
    else Ok(seq(|fieldnames|, i requires 0 <= i < |fieldnames| => if fieldnames[i] in d then d[fieldnames[i]] else Str("")))
  }

  /** A run's dictionary is always written as one full row: its keys are
      exactly the table's columns, each column getting its value. */
  lemma ResultRowWritten(filename: string, n: int, best: Solution, D: int, runtime: real)
    ensures CsvRow(ResultToDict(filename, n, best, D, runtime), FIELDNAMES) ==
      Ok([Str(PathSplit(PathSplit(filename).0).1), Int(n), Int(best.cost),
          Str(PathSplit(filename).1), Int(D), Seconds(runtime)])
  {
    var d := ResultToDict(filename, n, best, D, runtime);
    forall f: Field ensures f in d {
      match f
      case SetName =>
      case Size =>
      case Cost =>
      case InstanceName =>
      case Budget =>
      case Runtime =>
    }
    FullRow(d);
  }

  /** A dictionary holding exactly the table's columns is written in
      column order. */
  lemma FullRow(d: map<Field, Cell>)
    requires forall f: Field :: f in d
    ensures CsvRow(d, FIELDNAMES) == Ok([d[SetName], d[Size], d[Cost], d[InstanceName], d[Budget], d[Runtime]])
  {
    assert forall k: Field :: k in FIELDNAMES by {
      forall k: Field ensures k in FIELDNAMES {
        match k
        case SetName => assert FIELDNAMES[0] == k;
        case Size => assert FIELDNAMES[1] == k;
        case Cost => assert FIELDNAMES[2] == k;
        case InstanceName => assert FIELDNAMES[3] == k;
        case Budget => assert FIELDNAMES[4] == k;
        case Runtime => assert FIELDNAMES[5] == k;
      }
    }
    assert CsvRow(d, FIELDNAMES).Ok?;
    var row := CsvRow(d, FIELDNAMES).value;
    assert |row| == 6;
    assert forall i :: 0 <= i < 6 ==> FIELDNAMES[i] in d;
    var want := [d[SetName], d[Size], d[Cost], d[InstanceName], d[Budget], d[Runtime]];
    assert forall i :: 0 <= i < 6 ==> row[i] == want[i];
    assert row == want;
  }

  /** Splitting `root/s/name` twice gives back `name` and then `s`. */
  lemma SplitTwice(root: string, s: string, name: string)
    requires |root| > 0 && root[|root| - 1] != '/'
    requires |s| > 0 && NoSlash(s) && |name| > 0 && NoSlash(name)
    ensures PathSplit(PathJoin(PathJoin(root, s), name)).1 == name
    ensures PathSplit(PathSplit(PathJoin(PathJoin(root, s), name)).0).1 == s
  {
    var first := PathJoin(root, s);
    assert first == root + "/" + s;
    SplitOfJoin(first, name);
    assert !AllSlashes(first) by {
      assert first[|first| - 1] == s[|s| - 1];
    }
    assert StripSlashes(first) == first;
    SplitOfJoin(root, s);
  }

  /** The row of an instance listed as `set name` names that set and that
      instance again. */
  lemma RowOfListedInstance(s: string, name: string, n: int, best: Solution, D: int, runtime: real)
    requires |s| > 0 && NoSlash(s) && |name| > 0 && NoSlash(name)
    ensures var path := PathJoin(PathJoin("instances", s), name);
      && ResultToDict(path, n, best, D, runtime)[SetName] == Str(s)
      && ResultToDict(path, n, best, D, runtime)[InstanceName] == Str(name)
  {
    var root := "instances";
    var path := PathJoin(PathJoin(root, s), name);
    assert PathSplit(path).1 == name && PathSplit(PathSplit(path).0).1 == s by {
      assert |root| > 0 && root[|root| - 1] != '/';
      SplitTwice(root, s, name);
    }
    RowOfPath(path, n, best, D, runtime);
  }

  lemma RowOfPath(path: string, n: int, best: Solution, D: int, runtime: real)
    ensures ResultToDict(path, n, best, D, runtime)[SetName] == Str(PathSplit(PathSplit(path).0).1)
    ensures ResultToDict(path, n, best, D, runtime)[InstanceName] == Str(PathSplit(path).1)
  {
  }
}

=== FILE: pool.dfy ===
/** `pool_selection`: sort the candidate solutions by cost, set the best one
    aside, bucket the rest by the "quartile" thresholds, and fill a pool of
    at most `rho - 1` members from the top bucket down, swapping in
    candidates whose neighbourhood differs more from the best one's.
    Candidates are any values with a cost and a neighbourhood. */
module Pool {
  import opened Wrappers
  import opened PyOps

  /** The three thresholds `q1, q2, q3`, doubled so that the median
      `(S[n//2] + S[n//2+1]) / 2` stays an integer. Indexing fails unless
      there are at least four candidates. */
  function DoubledQuartiles(costs: seq<int>): (q: Result<seq<int>>)
    ensures q.Ok? <==> |costs| >= 4
    ensures q.Ok? ==> |q.value| == 3
  {
    var n := |costs|;
    if n < 4 then
      assert (n + 1) / 4 >= n || n / 2 + 1 >= n || 3 * (n + 1) / 4 >= n;
      Err(IndexError)
    else
      assert 3 * (n + 1) / 4 < n;
      Ok([2 * costs[(n + 1) / 4], costs[n / 2] + costs[n / 2 + 1], 2 * costs[3 * (n + 1) / 4]])
  }

  /** Over ascending costs the thresholds ascend too. */
  lemma QuartilesAscend(costs: seq<int>)
    requires |costs| >= 4
    requires forall i, j :: 0 <= i < j < |costs| ==> costs[i] <= costs[j]
    ensures var q := DoubledQuartiles(costs).value; q[0] <= q[1] <= q[2]
  {
    var n := |costs|;
    assert (n + 1) / 4 <= n / 2;
    assert n / 2 + 1 <= 3 * (n + 1) / 4;
  }

  /** The inner `while`: advance the bucket index past every threshold the
      (doubled) cost exceeds, but never beyond 2. */
  function Advance(c2: int, q: seq<int>, i: nat): (r: nat)
    requires |q| == 3 && i <= 2
    ensures i <= r <= 2
    decreases 2 - i
  {
    if c2 > q[i] && i < 2 then Advance(c2, q, i + 1) else i
  }

  /** The bucket a candidate belongs in, read off the thresholds directly:
      the first of q1, q2 it does not exceed, else bucket 2. The third
      threshold is never consulted. */
  function Class(c2: int, q: seq<int>): (b: nat)
    requires |q| == 3
    ensures b <= 2
  {
    if c2 <= q[0] then 0 else if c2 <= q[1] then 1 else 2
  }

  /** Starting the scan at any index up to a candidate's class lands on that
      class. */
  lemma {:induction false} AdvanceReachesClass(c2: int, q: seq<int>, i: nat)
    requires |q| == 3 && i <= Class(c2, q)
    ensures Advance(c2, q, i) == Class(c2, q)
    decreases 2 - i
  {
    if i < Class(c2, q) {
      AdvanceReachesClass(c2, q, i + 1);
    }
  }

  /** A larger cost never lands in a lower class. */
  lemma ClassMonotone(c: int, d: int, q: seq<int>)
    requires |q| == 3 && c <= d
    ensures Class(c, q) <= Class(d, q)
  {
  }

  /** The four buckets, concatenated. */
  function Concat<C>(b: seq<seq<C>>): seq<C>
    requires |b| == 4
  {
    b[0] + b[1] + b[2] + b[3]
  }

  /** The `for s in S` loop: each candidate is appended to the bucket the
      scan index reaches. Returns the buckets and the final index. The index
      only moves forward and stays at most 2, so the fourth bucket stays
      empty, and since nothing is appended behind a later bucket, the
      buckets concatenate to the input in order. */
  function Bucketize<C>(xs: seq<C>, cost: C -> int, q: seq<int>, i: nat,
                        acc: seq<seq<C>>): (r: (seq<seq<C>>, nat))
    requires |q| == 3 && i <= 2 && |acc| == 4
    requires forall b :: i < b < 4 ==> acc[b] == []
    ensures |r.0| == 4
    ensures i <= r.1 <= 2
    ensures forall b :: r.1 < b < 4 ==> r.0[b] == []
    ensures r.0[3] == []
    ensures Concat(r.0) == Concat(acc) + xs
    decreases |xs|
  {
    if xs == [] then (acc, i)
    else
      var j := Advance(2 * cost(xs[0]), q, i);
      var acc' := acc[j := acc[j] + [xs[0]]];
      assert Concat(acc') == Concat(acc) + [xs[0]];
      assert xs == [xs[0]] + xs[1..];
      Bucketize(xs[1..], cost, q, j, acc')
  }

  /** Every candidate in bucket `b` has class `b`. */
  ghost predicate Classified<C>(acc: seq<seq<C>>, cost: C -> int, q: seq<int>)
    requires |q| == 3 && |acc| == 4
  {
    forall b, k :: 0 <= b < 4 && 0 <= k < |acc[b]| ==> Class(2 * cost(acc[b][k]), q) == b
  }

  /** Over candidates in ascending cost order the forward-only scan puts
      every candidate into its class: the bucketing agrees with the
      threshold reading. */
  lemma {:induction false} BucketizeClassifies<C>(xs: seq<C>, cost: C -> int, q: seq<int>, i: nat,
                                                  acc: seq<seq<C>>)
    requires |q| == 3 && i <= 2 && |acc| == 4
    requires forall b :: i < b < 4 ==> acc[b] == []
    requires SortedBy(xs, cost)
    requires Classified(acc, cost, q)
    requires |xs| > 0 ==> i <= Class(2 * cost(xs[0]), q)
    ensures Classified(Bucketize(xs, cost, q, i, acc).0, cost, q)
    decreases |xs|
  {
    if xs != [] {
      var c := 2 * cost(xs[0]);
      AdvanceReachesClass(c, q, i);
      var j := Advance(c, q, i);
      var acc' := acc[j := acc[j] + [xs[0]]];
      if |xs| > 1 {
        ClassMonotone(c, 2 * cost(xs[1]), q);
      }
      assert xs[1..] == [] || xs[1..][0] == xs[1];
      BucketizeClassifies(xs[1..], cost, q, j, acc');
    }
  }

  /** `len(A.symmetric_difference(B))`. */
  function SymDiffSize(a: set<nat>, b: set<nat>): nat {
    |(a - b) + (b - a)|
  }

  /** `min(pool, key=div)`: the position of the first member of least
      diversity. */
  function ArgMin<C>(pool: seq<C>, div: C -> nat): (j: nat)
    requires |pool| > 0
    ensures j < |pool|
    ensures forall k :: 0 <= k < |pool| ==> div(pool[j]) <= div(pool[k])
    ensures forall k :: 0 <= k < j ==> div(pool[k]) > div(pool[j])
  {
    if |pool| == 1 then 0
    else
      var j := ArgMin(pool[1..], div);
      if div(pool[0]) <= div(pool[1..][j]) then 0 else j + 1
  }

  /** One candidate meets a full pool: it replaces the least diverse member
      (the first one, as `min` and `list.remove` pick it) only when its own
      diversity is strictly larger. */
  function Swap<C>(pool: seq<C>, s: C, div: C -> nat): (r: seq<C>)
    requires |pool| > 0
    ensures |r| == |pool|
  {
    var j := ArgMin(pool, div);
    if div(s) > div(pool[j]) then pool[..j] + pool[j + 1..] + [s] else pool
  }

  /** The inner `for s in Si[i]` loop. `min` of an empty pool (when
      `rho - 1 <= 0`) raises. */
  function Visit<C>(xs: seq<C>, pool: seq<C>, rho: int, div: C -> nat): (r: Result<seq<C>>)
    decreases |xs|
  {
    if xs == [] then Ok(pool)
    else if |pool| < rho - 1 then Visit(xs[1..], pool + [xs[0]], rho, div)
    else if pool == [] then Err(ValueError)
    else Visit(xs[1..], Swap(pool, xs[0], div), rho, div)
  }

  /** The outer loop over the buckets `i, i - 1, ..., 0`, stopping after a
      bucket that leaves the pool exactly full. */
  function Walk<C>(buckets: seq<seq<C>>, i: int, pool: seq<C>, rho: int,
                   div: C -> nat): (r: Result<seq<C>>)
    requires |buckets| == 4 && i < 4
    decreases i + 1
  {
    if i < 0 then Ok(pool)
    else
      match Visit(buckets[i], pool, rho, div)
      case Err(e) => Err(e)
      case Ok(p) => if |p| == rho - 1 then Ok(p) else Walk(buckets, i - 1, p, rho, div)
  }

  /** The result of `pool_selection`: the pool and the best candidate. */
  datatype Selection<C> = Selection(pool: seq<C>, best: C)

  /** The costs of a list of candidates. */
  function Costs<C>(xs: seq<C>, cost: C -> int): (r: seq<int>)
    ensures |r| == |xs|
  {
    seq(|xs|, i requires 0 <= i < |xs| => cost(xs[i]))
  }

  /** The diversity of a candidate: how much its neighbourhood differs from
      the best candidate's. */
  function Diversity<C>(nbhd: C -> set<nat>, best: C): C -> nat {
    x => SymDiffSize(nbhd(x), nbhd(best))
  }

  /** `pool_selection(S, rho)` over the candidates listed in `S`: sort them
      by cost, then select from the sorted list. */
  function PoolSelection<C(==)>(S: seq<C>, rho: int, cost: C -> int,
                                nbhd: C -> set<nat>): (r: Result<Selection<C>>)
  {
    SelectFromSorted(SortBy(S, cost), rho, cost, nbhd)
  }

  /** The body of `pool_selection` after `S.sort()`: the last candidate is
      `best`, the quartiles of the costs split the others into buckets, and
      the walk over the buckets fills the pool. */
  function SelectFromSorted<C>(sorted: seq<C>, rho: int, cost: C -> int,
                               nbhd: C -> set<nat>): (r: Result<Selection<C>>)
  {
    var q := DoubledQuartiles(Costs(sorted, cost));
    if q.Err? then Err(q.error)
    else
      var best := sorted[|sorted| - 1];
      FillPool(sorted[..|sorted| - 1], best, cost, q.value, rho, Diversity(nbhd, best))
  }

  /** The candidates other than `best` go into the quartile buckets, and the
      walk over the buckets fills the pool. */
  function FillPool<C>(rest: seq<C>, best: C, cost: C -> int, q: seq<int>, rho: int,
                       div: C -> nat): (r: Result<Selection<C>>)
    requires |q| == 3
  {
    var buckets := Bucketize(rest, cost, q, 0, [[], [], [], []]).0;
    var w := Walk(buckets, |buckets| - 1, [], rho, div);
    if w.Err? then Err(w.error) else Ok(Selection(w.value, best))
  }

  /** A swap keeps the pool size, happens only when the newcomer is strictly
      more diverse than the least diverse member, which is the member it
      replaces, and never lowers the pool's least diversity. */
  lemma SwapKeepsDiversity<C>(pool: seq<C>, s: C, div: C -> nat)
    requires |pool| > 0
    ensures var r := Swap(pool, s, div);
            var least := div(pool[ArgMin(pool, div)]);
            && |r| == |pool|
            && (r != pool ==> div(s) > least
                              && multiset(r) == multiset(pool) - multiset{pool[ArgMin(pool, div)]} + multiset{s})
            && (div(s) <= least ==> r == pool)
            && (forall k :: 0 <= k < |r| ==> div(r[k]) >= least)
  {
    var j := ArgMin(pool, div);
    var r := Swap(pool, s, div);
    if div(s) > div(pool[j]) {
      assert pool == pool[..j] + [pool[j]] + pool[j + 1..];
      assert r == pool[..j] + pool[j + 1..] + [s];
      forall k | 0 <= k < |r| ensures div(r[k]) >= div(pool[j]) {
        if k < j {
          assert r[k] == pool[k];
        } else if k < |pool| - 1 {
          assert r[k] == pool[k + 1];
        }
      }
    }
  }

  function Min2(a: int, b: int): int {
    if a < b then a else b
  }

  /** One bucket's visit with a pool below its bound: the pool grows up to
      `rho - 1` members and only ever holds candidates it was given. */
  lemma {:induction false} VisitFills<C>(xs: seq<C>, pool: seq<C>, rho: int, div: C -> nat)
    requires rho >= 2 && |pool| <= rho - 1
    ensures var r := Visit(xs, pool, rho, div);
            && r.Ok?
            && |r.value| == Min2(rho - 1, |pool| + |xs|)
            && multiset(r.value) <= multiset(pool) + multiset(xs)
    decreases |xs|
  {
    if xs != [] {
      assert xs == [xs[0]] + xs[1..];
      if |pool| < rho - 1 {
        VisitFills(xs[1..], pool + [xs[0]], rho, div);
      } else {
        SwapKeepsDiversity(pool, xs[0], div);
        VisitFills(xs[1..], Swap(pool, xs[0], div), rho, div);
      }
    }
  }

  /** The buckets `0..i`, concatenated. */
  function Upto<C>(b: seq<seq<C>>, i: int): seq<C>
    requires |b| == 4 && i < 4
    decreases i + 1
  {
    if i < 0 then [] else Upto(b, i - 1) + b[i]
  }

  /** Walking the buckets from `i` down fills the pool to
      `min(rho - 1, all candidates seen)`, only with candidates from the
      buckets. */
  lemma {:induction false} WalkFills<C>(buckets: seq<seq<C>>, i: int, pool: seq<C>, rho: int,
                                           div: C -> nat)
    requires |buckets| == 4 && i < 4
    requires rho >= 2 && |pool| <= rho - 1
    ensures var r := Walk(buckets, i, pool, rho, div);
            && r.Ok?
            && |r.value| == Min2(rho - 1, |pool| + |Upto(buckets, i)|)
            && multiset(r.value) <= multiset(pool) + multiset(Upto(buckets, i))
    decreases i + 1
  {
    if i >= 0 {
      VisitFills(buckets[i], pool, rho, div);
      var p := Visit(buckets[i], pool, rho, div).value;
      if |p| != rho - 1 {
        WalkFills(buckets, i - 1, p, rho, div);
      }
    }
  }

  /** A bucket that fits in the pool's free room is appended whole, in
      order: no candidate meets a full pool. */
  lemma {:induction false} VisitAppends<C>(xs: seq<C>, pool: seq<C>, rho: int, div: C -> nat)
    requires |pool| + |xs| <= rho - 1
    ensures Visit(xs, pool, rho, div) == Ok(pool + xs)
    decreases |xs|
  {
    if xs != [] {
      VisitAppends(xs[1..], pool + [xs[0]], rho, div);
      assert pool + [xs[0]] + xs[1..] == pool + xs;
    } else {
      assert pool + xs == pool;
    }
  }

  /** The outer loop stops after the bucket that fills the pool: the walk's
      result is that bucket's visit, so no candidate of a lower (cheaper)
      bucket enters a pool a higher bucket filled. */
  lemma WalkStopsWhenFull<C>(buckets: seq<seq<C>>, i: int, pool: seq<C>, rho: int,
                             div: C -> nat)
    requires |buckets| == 4 && 0 <= i < 4
    requires rho >= 2 && |pool| <= rho - 1
    requires |pool| + |buckets[i]| >= rho - 1
    ensures Walk(buckets, i, pool, rho, div) == Visit(buckets[i], pool, rho, div)
    ensures var r := Walk(buckets, i, pool, rho, div);
            && r.Ok? && |r.value| == rho - 1
            && multiset(r.value) <= multiset(pool) + multiset(buckets[i])
  {
    VisitFills(buckets[i], pool, rho, div);
  }

  /** A bucket that leaves the pool short is taken whole, and the walk goes
      on to the next lower bucket. */
  lemma WalkPassesWhenShort<C>(buckets: seq<seq<C>>, i: int, pool: seq<C>, rho: int,
                               div: C -> nat)
    requires |buckets| == 4 && 0 <= i < 4
    requires |pool| + |buckets[i]| < rho - 1
    ensures Walk(buckets, i, pool, rho, div) == Walk(buckets, i - 1, pool + buckets[i], rho, div)
  {
    VisitAppends(buckets[i], pool, rho, div);
  }

  /** With `rho = 1` the outer loop stops after the (always empty) top
      bucket: the pool is empty. */
  lemma WalkEmptyForRhoOne<C>(buckets: seq<seq<C>>, div: C -> nat)
    requires |buckets| == 4 && buckets[3] == []
    ensures Walk(buckets, 3, [], 1, div) == Ok([])
  {
  }

  /** With `rho <= 0` the first non-empty bucket calls `min` on the empty
      pool. */
  lemma {:induction false} WalkFailsForNonPositiveRho<C>(buckets: seq<seq<C>>, i: int, rho: int,
                                                        div: C -> nat)
    requires |buckets| == 4 && i < 4 && rho <= 0
    requires Upto(buckets, i) != []
    ensures Walk(buckets, i, [], rho, div).Err?
    decreases i + 1
  {
    if buckets[i] == [] {
      WalkFailsForNonPositiveRho(buckets, i - 1, rho, div);
    }
  }

  lemma UptoAll<C>(b: seq<seq<C>>)
    requires |b| == 4
    ensures Upto(b, 3) == Concat(b)
  {
  }

  /** The last of the cost-sorted candidates has maximal cost, and the rest
      are the other candidates. */
  lemma SortedLastIsBest<C>(S: seq<C>, cost: C -> int)
    requires |S| > 0
    ensures var sorted := SortBy(S, cost);
            var n := |sorted|;
            && sorted[n - 1] in S
            && (forall x :: x in S ==> cost(x) <= cost(sorted[n - 1]))
            && multiset(sorted[..n - 1]) + multiset{sorted[n - 1]} == multiset(S)
  {
    var sorted := SortBy(S, cost);
    LastOfSorted(S, sorted, cost);
  }

  /** The last element of a sorted permutation has the largest key, and
      dropping it leaves the other elements. */
  lemma LastOfSorted<C>(S: seq<C>, sorted: seq<C>, cost: C -> int)
    requires |sorted| > 0
    requires SortedBy(sorted, cost)
    requires multiset(sorted) == multiset(S)
    ensures sorted[|sorted| - 1] in S
    ensures forall x :: x in S ==> cost(x) <= cost(sorted[|sorted| - 1])
    ensures multiset(sorted[..|sorted| - 1]) + multiset{sorted[|sorted| - 1]} == multiset(S)
  {
    var n := |sorted|;
    assert sorted == sorted[..n - 1] + [sorted[n - 1]];
    assert sorted[n - 1] in multiset(sorted);
    forall x | x in S ensures cost(x) <= cost(sorted[n - 1]) {
      assert x in multiset(sorted);
      var k :| 0 <= k < n && sorted[k] == x;
    }
  }

  /** The pool walk succeeds exactly when `rho >= 1`, and then fills the pool
      to `min(rho - 1, |rest|)` members, all taken from `rest`. */
  lemma WalkOverRest<C>(rest: seq<C>, buckets: seq<seq<C>>, rho: int, div: C -> nat)
    requires |buckets| == 4 && buckets[3] == [] && Concat(buckets) == rest && |rest| > 0
    ensures var w := Walk(buckets, |buckets| - 1, [], rho, div);
            && (w.Ok? <==> rho >= 1)
            && (w.Ok? ==> |w.value| == Min2(rho - 1, |rest|))
            && (w.Ok? ==> multiset(w.value) <= multiset(rest))
  {
    UptoAll(buckets);
    if rho >= 2 {
      WalkFills(buckets, 3, [], rho, div);
    } else if rho == 1 {
      WalkEmptyForRhoOne(buckets, div);
    } else {
      WalkFailsForNonPositiveRho(buckets, 3, rho, div);
    }
  }

  /** `pool_selection` succeeds exactly when there are at least four
      candidates and `rho >= 1`, and then the pool has
      `min(rho - 1, |S| - 1)` members. */
  lemma PoolSelectionOutcome<C>(S: seq<C>, rho: int, cost: C -> int, nbhd: C -> set<nat>)
    ensures var r := PoolSelection(S, rho, cost, nbhd);
            && (r.Ok? <==> |S| >= 4 && rho >= 1)
            && (r.Ok? ==> |r.value.pool| == Min2(rho - 1, |S| - 1))
  {
    SelectFromSortedSpec(SortBy(S, cost), rho, cost, nbhd);
  }

  /** On success `best` is a candidate of maximal cost, and the pool holds
      only other candidates: with `best` added it is a sub-multiset of `S`. */
  lemma PoolSelectionContents<C>(S: seq<C>, rho: int, cost: C -> int, nbhd: C -> set<nat>)
    ensures var r := PoolSelection(S, rho, cost, nbhd);
            && (r.Ok? ==> r.value.best in S)
            && (r.Ok? ==> forall x :: x in S ==> cost(x) <= cost(r.value.best))
            && (r.Ok? ==> multiset(r.value.pool) + multiset{r.value.best} <= multiset(S))
  {
    var sorted := SortBy(S, cost);
    var r := SelectFromSorted(sorted, rho, cost, nbhd);
    assert PoolSelection(S, rho, cost, nbhd) == r;
    if r.Ok? {
      SelectFromSortedSpec(sorted, rho, cost, nbhd);
      SortedContents(S, sorted, r.value, cost);
    }
  }

  /** A selection whose `best` is the last of the cost-sorted candidates and
      whose pool comes from the others keeps a candidate of maximal cost and
      takes each candidate at most once. */
  lemma SortedContents<C>(S: seq<C>, sorted: seq<C>, sel: Selection<C>, cost: C -> int)
    requires |sorted| > 0 && SortedBy(sorted, cost) && multiset(sorted) == multiset(S)
    requires sel.best == sorted[|sorted| - 1]
    requires multiset(sel.pool) <= multiset(sorted[..|sorted| - 1])
    ensures sel.best in S
    ensures forall x :: x in S ==> cost(x) <= cost(sel.best)
    ensures multiset(sel.pool) + multiset{sel.best} <= multiset(S)
  {
    LastOfSorted(S, sorted, cost);
  }

  /** Filling the pool from the non-empty `rest`: it succeeds exactly when
      `rho >= 1`, keeps `best`, and the pool is a sub-multiset of `rest` with
      `min(rho - 1, |rest|)` members. */
  lemma FillPoolSpec<C>(rest: seq<C>, best: C, cost: C -> int, q: seq<int>, rho: int, div: C -> nat)
    requires |rest| > 0 && |q| == 3
    ensures var r := FillPool(rest, best, cost, q, rho, div);
            && (r.Ok? <==> rho >= 1)
            && (r.Ok? ==> r.value.best == best)
            && (r.Ok? ==> multiset(r.value.pool) <= multiset(rest))
            && (r.Ok? ==> |r.value.pool| == Min2(rho - 1, |rest|))
  {
    var e: seq<seq<C>> := [[], [], [], []];
    var buckets := Bucketize(rest, cost, q, 0, e).0;
    assert |buckets| == 4 && buckets[3] == [] && Concat(buckets) == rest by {
      assert Concat(e) == [];
    }
    WalkOverRest(rest, buckets, rho, div);
  }

  /** Selecting from a sorted list of `n` candidates: it succeeds exactly when
      `n >= 4` and `rho >= 1`; `best` is the last candidate and the pool is a
      sub-multiset of the others with `min(rho - 1, n - 1)` members. */
  lemma SelectFromSortedSpec<C>(sorted: seq<C>, rho: int, cost: C -> int, nbhd: C -> set<nat>)
    ensures var r := SelectFromSorted(sorted, rho, cost, nbhd);
            && (r.Ok? <==> |sorted| >= 4 && rho >= 1)
            && (r.Ok? ==> r.value.best == sorted[|sorted| - 1])
            && (r.Ok? ==> multiset(r.value.pool) <= multiset(sorted[..|sorted| - 1]))
            && (r.Ok? ==> |r.value.pool| == Min2(rho - 1, |sorted| - 1))
  {
    var n := |sorted|;
    if n >= 4 {
      var best := sorted[n - 1];
      FillPoolSpec(sorted[..n - 1], best, cost, DoubledQuartiles(Costs(sorted, cost)).value, rho,
                   Diversity(nbhd, best));
    }
  }
}

=== FILE: pyops.dfy ===
/** Python's integer and list primitives that the heuristic relies on,
    written out exactly: `math.ceil` of an exact quotient, the slice `xs[:m]`
    (including a negative `m`), `min` of a list, and sorting by a key. */
module PyOps {

  /** `math.ceil(a / b)` for an exact quotient (the model keeps the
      operands as integers, so no floating-point rounding happens). */
  function CeilDiv(a: int, b: int): (r: int)
    requires b != 0
    ensures b > 0 ==> (r - 1) * b < a <= r * b
    ensures b < 0 ==> r * b <= a < (r - 1) * b
  {
    if b > 0 then
      var q := (-a) / b;
      assert q * b <= -a < (q + 1) * b;
      -q
    else
      var q := a / (-b);
      assert q * (-b) <= a < (q + 1) * (-b);
      -q
  }

  /** The ceiling of a quotient in `[0, n]` lies in `[0, n]`. */
  lemma CeilDivWithin(a: int, b: int, n: nat)
    requires b > 0 && 0 <= a <= n * b
    ensures 0 <= CeilDiv(a, b) <= n
  {
    var c := CeilDiv(a, b);
    if c > n {
      MulMonotone(n, c - 1, b);
      assert false;
    }
    if c < 0 {
      MulMonotone(c, -1, b);
      assert false;
    }
  }

  lemma MulMonotone(x: int, y: int, b: int)
    requires x <= y && b >= 0
    ensures x * b <= y * b
  {
  }

  /** `xs[:m]` in Python: a non-negative `m` keeps at most `m` elements, a
      negative one drops `-m` elements from the end. */
  function Prefix<T>(xs: seq<T>, m: int): (r: seq<T>)
    ensures r <= xs
    ensures 0 <= m ==> |r| == if m < |xs| then m else |xs|
    ensures m < 0 ==> |r| == if |xs| + m < 0 then 0 else |xs| + m
  {
    if 0 <= m then
      if m < |xs| then xs[..m] else xs
    else
      if |xs| + m < 0 then [] else xs[..|xs| + m]
  }

  /** `min(xs)` of a non-empty list. */
  function Min(xs: seq<int>): (r: int)
    requires |xs| > 0
    ensures r in xs
    ensures forall i :: 0 <= i < |xs| ==> r <= xs[i]
  {
    if |xs| == 1 then xs[0]
    else
      var m := Min(xs[1..]);
      assert forall i :: 1 <= i < |xs| ==> xs[i] == xs[1..][i - 1];
      if xs[0] <= m then xs[0] else m
  }

  /** `xs` is in ascending order of `key`. */
  ghost predicate SortedBy<T>(xs: seq<T>, key: T -> int) {
    forall i, j :: 0 <= i < j < |xs| ==> key(xs[i]) <= key(xs[j])
  }

  /** No element occurs twice in `xs`. */
  ghost predicate Distinct<T>(xs: seq<T>) {
    forall i, j :: 0 <= i < j < |xs| ==> xs[i] != xs[j]
  }

  /** The elements of `xs` as a set. */
  function Elems(xs: seq<nat>): (r: set<nat>)
    ensures forall x :: x in r <==> x in xs
  {
    set x | x in xs
  }

  /** A list without repetitions has as many distinct elements as entries. */
  lemma {:induction false} DistinctCard(xs: seq<nat>)
    requires Distinct(xs)
    ensures |Elems(xs)| == |xs|
  {
    if |xs| > 0 {
      DistinctCard(xs[1..]);
      assert Elems(xs) == Elems(xs[1..]) + {xs[0]};
      assert xs[0] !in xs[1..];
    }
  }

  /** Inserts `x` into the sorted `xs` ahead of every element with an equal
      or larger key. */
  function Insert<T(==)>(x: T, xs: seq<T>, key: T -> int): (r: seq<T>)
    requires SortedBy(xs, key)
    ensures SortedBy(r, key)
    ensures multiset(r) == multiset(xs) + multiset{x}
  {
    if |xs| == 0 || key(x) <= key(xs[0]) then
      InsertFront(x, xs, key);
      [x] + xs
    else
      var rest := Insert(x, xs[1..], key);
      InsertBehind(x, xs, rest, key);
      [xs[0]] + rest
  }

  lemma InsertFront<T>(x: T, xs: seq<T>, key: T -> int)
    requires SortedBy(xs, key)
    requires |xs| == 0 || key(x) <= key(xs[0])
    ensures SortedBy([x] + xs, key)
  {
    var r := [x] + xs;
    forall i, j | 0 <= i < j < |r| ensures key(r[i]) <= key(r[j]) {
      if i > 0 {
        assert r[i] == xs[i - 1] && r[j] == xs[j - 1];
      } else {
        assert r[j] == xs[j - 1];
      }
    }
  }

  lemma InsertBehind<T>(x: T, xs: seq<T>, rest: seq<T>, key: T -> int)
    requires SortedBy(xs, key) && |xs| > 0 && key(xs[0]) < key(x)
    requires SortedBy(rest, key)
    requires multiset(rest) == multiset(xs[1..]) + multiset{x}
    ensures SortedBy([xs[0]] + rest, key)
    ensures multiset([xs[0]] + rest) == multiset(xs) + multiset{x}
  {
    assert xs == [xs[0]] + xs[1..];
    forall i | 0 <= i < |rest|
      ensures key(xs[0]) <= key(rest[i])
    {
      assert rest[i] in multiset(rest);
      assert rest[i] == x || rest[i] in multiset(xs[1..]);
      if rest[i] != x {
        var k :| 0 <= k < |xs[1..]| && xs[1..][k] == rest[i];
        assert xs[k + 1] == rest[i];
      }
    }
    var r := [xs[0]] + rest;
    forall i, j | 0 <= i < j < |r| ensures key(r[i]) <= key(r[j]) {
      if i > 0 {
        assert r[i] == rest[i - 1] && r[j] == rest[j - 1];
      } else {
        assert r[j] == rest[j - 1];
      }
    }
  }

  /** `sorted(xs, key=key)`: a permutation of `xs` in ascending key order. */
  function SortBy<T(==)>(xs: seq<T>, key: T -> int): (r: seq<T>)
    ensures SortedBy(r, key)
    ensures multiset(r) == multiset(xs)
    ensures |r| == |xs|
  {
    if |xs| == 0 then []
    else
      assert xs == [xs[0]] + xs[1..];
      Insert(xs[0], SortBy(xs[1..], key), key)
  }

  /** A set holding an element no larger than `n` has a least element. */
  lemma {:induction false} MinBelow(s: set<nat>, n: nat)
    requires exists x :: x in s && x <= n
    ensures exists x :: x in s && forall y :: y in s ==> x <= y
    decreases n
  {
    if exists y :: y in s && y < n {
      var y :| y in s && y < n;
      MinBelow(s, n - 1);
    } else {
      var x :| x in s && x <= n;
      assert forall y :: y in s ==> x <= y;
    }
  }

  /** The least element of a non-empty set of naturals. */
  function SetMin(s: set<nat>): (m: nat)
    requires s != {}
    ensures m in s
    ensures forall y :: y in s ==> m <= y
  {
    var z :| z in s;
    MinBelow(s, z);
    var x :| x in s && forall y :: y in s ==> x <= y;
    x
  }

  /** `list(s)` for a set of non-negative ints. CPython lists a set in its
      hash-table order; the model fixes ascending order in its place. */
  function ListOfSet(s: set<nat>): (r: seq<nat>)
    ensures |r| == |s|
    ensures forall i :: 0 <= i < |r| ==> r[i] in s
    ensures forall v :: v in s ==> v in r
    ensures forall i, j :: 0 <= i < j < |r| ==> r[i] < r[j]
    decreases |s|
  {
    if s == {} then []
    else
      var m := SetMin(s);
      var rest := ListOfSet(s - {m});
      ListOfSetStep(s, m, rest);
      [m] + rest
  }

  lemma ListOfSetStep(s: set<nat>, m: nat, rest: seq<nat>)
    requires m in s && forall y :: y in s ==> m <= y
    requires |rest| == |s - {m}|
    requires forall i :: 0 <= i < |rest| ==> rest[i] in s - {m}
    requires forall v :: v in s - {m} ==> v in rest
    requires forall i, j :: 0 <= i < j < |rest| ==> rest[i] < rest[j]
    ensures |[m] + rest| == |s|
    ensures forall i :: 0 <= i < |[m] + rest| ==> ([m] + rest)[i] in s
    ensures forall v :: v in s ==> v in [m] + rest
    ensures forall i, j :: 0 <= i < j < |[m] + rest| ==> ([m] + rest)[i] < ([m] + rest)[j]
  {
    var r := [m] + rest;
    assert forall i :: 0 <= i < |rest| ==> m < rest[i] by {
      forall i | 0 <= i < |rest| ensures m < rest[i] {
        assert rest[i] in s - {m};
      }
    }
    assert forall i :: 1 <= i < |r| ==> r[i] == rest[i - 1];
    forall v | v in s ensures v in r {
      if v != m {
        assert v in s - {m};
      }
    }
  }

  /** In a list without repetitions every element occurs once. */
  lemma {:induction false} DistinctCount<T>(ys: seq<T>, a: T)
    requires Distinct(ys)
    ensures multiset(ys)[a] <= 1
  {
    if |ys| > 0 {
      DistinctCount(ys[1..], a);
      assert ys == [ys[0]] + ys[1..];
      if ys[0] == a {
        assert a !in ys[1..];
      }
    }
  }

  /** A permutation of a list without repetitions has none either. */
  lemma PermutationKeepsDistinct<T>(xs: seq<T>, ys: seq<T>)
    requires multiset(xs) == multiset(ys)
    requires Distinct(ys)
    ensures Distinct(xs)
  {
    forall i, j | 0 <= i < j < |xs|
      ensures xs[i] != xs[j]
    {
      if xs[i] == xs[j] {
        var a := xs[i];
        assert xs == xs[..i] + [a] + xs[i + 1..j] + [a] + xs[j + 1..];
        assert multiset(xs)[a] >= 2;
        DistinctCount(ys, a);
        assert false;
      }
    }
  }
}

=== FILE: solution.dfy ===
/** The Solution value object: defended and burned vertex sets, the round in
    which each vertex was touched, the cost, the optimality flag, and the
    cached k-neighbourhood and neighbourhood. */
module Solutions {
  import opened Wrappers
  import opened PyOps
  import opened Graphs

  /** The round in which a vertex was defended or burned; `Inf` stands for
      `math.inf`, a vertex never touched. */
  datatype Iter = Round(t: nat) | Inf

  datatype Solution = Solution(
    defended: set<nat>,
    burned: set<nat>,
    iterations: seq<Iter>,
    T: int,
    cost: int,
    optimal: bool,
    kn: Option<set<nat>>,           // vertices within k hops of `defended`, once computed
    neighborhood: Option<set<nat>>  // the last neighbourhood stored on the solution
  )

  /** `Solution(defended, burned, iterations, T, cost, optimal)`: nothing
      cached yet. */
  function NewSolution(defended: set<nat>, burned: set<nat>, iterations: seq<Iter>,
                       T: int, cost: int, optimal: bool): Solution
  {
    Solution(defended, burned, iterations, T, cost, optimal, None, None)
  }

  /** `calculate_cost`: the number of vertices of the graph that did not
      burn. Only `cost` changes. */
  function CalculateCost(s: Solution, g: Graph): (r: Solution)
    ensures r == s.(cost := r.cost)
    ensures r.cost + |s.burned * Vertices(g)| == g.n
    ensures s.burned <= Vertices(g) ==> r.cost == g.n - |s.burned|
  {
    var saved := Vertices(g) - s.burned;
    assert Vertices(g) == saved + s.burned * Vertices(g);
    s.(cost := |saved|)
  }

  /** The k-neighbourhood of a defended set: every vertex within `k` hops of
      some defended vertex that is not itself defended. Burned vertices are
      not excluded. */
  function KHop(g: Graph, defended: set<nat>, k: nat): set<nat> {
    Ball(g, defended, k) - defended
  }

  /** `_construct_k_neighborhood`: one cut-off shortest-path search per
      defended vertex, collecting the reached vertices that are not
      defended. The union of the per-vertex searches is the k-hop ball of
      the whole defended set. */
  method ConstructKNeighborhood(g: Graph, defended: set<nat>, k: nat) returns (kn: set<nat>)
    requires defended <= Vertices(g)
    ensures kn == KHop(g, defended, k)
    ensures kn !! defended
    ensures kn <= Vertices(g)
  {
    kn := {};
    var todo := defended;
    ghost var done: set<nat> := {};
    BallOfEmpty(g, k);
    while todo != {}
      invariant todo + done == defended
      invariant todo !! done
      invariant kn == Ball(g, done, k) - defended
      decreases |todo|
    {
      var d :| d in todo;
      BallUnion(g, done, {d}, k);
      kn := kn + (Ball(g, {d}, k) - defended);
      done := done + {d};
      todo := todo - {d};
    }
  }

  /** The k-neighbourhood never meets the defended set, is empty for `k = 0`
      and for an empty defended set, and only grows with `k`. */
  lemma KHopShape(g: Graph, defended: set<nat>, k: nat)
    ensures KHop(g, defended, k) !! defended
    ensures k == 0 ==> KHop(g, defended, k) == {}
    ensures defended == {} ==> KHop(g, defended, k) == {}
    ensures KHop(g, defended, k) <= KHop(g, defended, k + 1)
  {
    BallOfEmpty(g, k);
    BallMonotone(g, defended, k, k + 1);
  }

  /** Burned vertices stay in the k-neighbourhood: on the edge 0-1 with 0
      defended and 1 burned, the 1-neighbourhood is {1}. */
  lemma KHopKeepsBurned()
    ensures var s := NewSolution({0}, {1}, [Round(0), Round(0)], 1, 0, true);
            KHop(Graph(2, {(0, 1)}), s.defended, 1) == {1} == s.burned
  {
    var g := Graph(2, {(0, 1)});
    assert Ball(g, {0}, 0) == {0};
    assert Touches(g, {0}, 1);
    assert !Touches(g, {0}, 0);
    assert Neighbors(g, {0}) == {1};
  }

  /** The cached k-neighbourhood, or the one for radius `k` when none is
      cached. */
  function CachedKn(s: Solution, g: Graph, k: nat): set<nat> {
    if s.kn.Some? then s.kn.value else KHop(g, s.defended, k)
  }

  /** `construct_full_neighborhood`: the k-neighbourhood (computed only if
      not cached yet) joined with the defended vertices. */
  function ConstructFullNeighborhood(s: Solution, g: Graph, k: nat): (r: Solution)
    ensures r == s.(kn := r.kn, neighborhood := r.neighborhood)
    ensures s.kn.Some? ==> r.kn == s.kn
    ensures s.kn.None? ==> r.kn == Some(KHop(g, s.defended, k))
    ensures r.kn.Some? && r.neighborhood == Some(r.kn.value + s.defended)
  {
    var kn := CachedKn(s, g, k);
    s.(kn := Some(kn), neighborhood := Some(kn + s.defended))
  }

  /** Once a k-neighbourhood is cached, a later call with another radius
      recomputes nothing and changes nothing. */
  lemma FullNeighborhoodReusesCache(s: Solution, g: Graph, k1: nat, k2: nat)
    ensures var once := ConstructFullNeighborhood(s, g, k1);
            ConstructFullNeighborhood(once, g, k2) == once
  {
  }

  /** The k-neighbourhood ranked by descending score; ties keep the listing
      order (Python's `sorted(..., reverse=True)` is stable). */
  function RankByScore(kn: set<nat>, score: nat -> int): (r: seq<nat>)
    ensures SortedBy(r, v => -score(v))
    ensures Distinct(r)
    ensures Elems(r) == kn
    ensures |r| == |kn|
  {
    var listed := ListOfSet(kn);
    var r := SortBy(listed, v => -score(v));
    PermutationKeepsDistinct(r, listed);
    forall v ensures v in r <==> v in kn {
      assert v in r <==> v in multiset(r);
      assert v in listed <==> v in multiset(listed);
    }
    r
  }

  /** How many neighbours a fraction `sigma / 10` keeps: `ceil(sigma * |kn|)`. */
  function KeepCount(sigma: int, size: nat): (m: int)
    ensures 0 <= sigma <= 10 ==> 0 <= m <= size
    ensures sigma == 10 ==> m == size
    ensures sigma == 0 ==> m == 0
  {
    var m := CeilDiv(sigma * size, 10);
    if 0 <= sigma <= 10 then
      assert sigma * size <= 10 * size;
      assert 0 <= sigma * size;
      m
    else m
  }

  /** `filter_neighborhood` with `sigma` in tenths: rank the cached (or newly
      computed) k-neighbourhood by descending score, keep the first
      `ceil(sigma * |kn|)` and add the defended vertices. Returns the
      solution with its k-neighbourhood cached, and the filtered set. */
  function FilterNeighborhood(s: Solution, g: Graph, k: nat, sigma: int,
                              score: nat -> int): (r: (Solution, set<nat>))
    ensures r.0 == s.(kn := Some(CachedKn(s, g, k)))
    ensures s.defended <= r.1 <= CachedKn(s, g, k) + s.defended
  {
    var kn := CachedKn(s, g, k);
    var ranked := RankByScore(kn, score);
    var kept := Prefix(ranked, KeepCount(sigma, |ranked|));
    assert Elems(kept) <= kn by {
      forall v | v in Elems(kept) ensures v in kn {
        assert v in ranked;
      }
    }
    (s.(kn := Some(kn)), Elems(kept) + s.defended)
  }

  /** With `sigma` in [0, 1] the filter keeps exactly `ceil(sigma * |kn|)`
      neighbours: all of them for `sigma = 1`, none for `sigma = 0`. */
  lemma FilterKeepsFraction(s: Solution, g: Graph, k: nat, sigma: int, score: nat -> int)
    requires 0 <= sigma <= 10
    requires CachedKn(s, g, k) !! s.defended
    ensures var kn := CachedKn(s, g, k);
            var f := FilterNeighborhood(s, g, k, sigma, score).1;
            && |f - s.defended| == KeepCount(sigma, |kn|)
            && (sigma == 10 ==> f == kn + s.defended)
            && (sigma == 0 ==> f == s.defended)
  {
    var kn := CachedKn(s, g, k);
    var ranked := RankByScore(kn, score);
    var m := KeepCount(sigma, |ranked|);
    assert FilterNeighborhood(s, g, k, sigma, score).1 == Elems(Prefix(ranked, m)) + s.defended;
    KeptPrefix(ranked, kn, m, s.defended);
  }

  /** The first `m` of the distinct listing `ranked` of `kn`, joined with a
      set disjoint from `kn`, add exactly `m` members to it. */
  lemma KeptPrefix(ranked: seq<nat>, kn: set<nat>, m: int, defended: set<nat>)
    requires Distinct(ranked) && Elems(ranked) == kn && kn !! defended
    requires 0 <= m <= |ranked|
    ensures |(Elems(Prefix(ranked, m)) + defended) - defended| == m
    ensures m == |ranked| ==> Elems(Prefix(ranked, m)) + defended == kn + defended
    ensures m == 0 ==> Elems(Prefix(ranked, m)) + defended == defended
  {
    var kept := Prefix(ranked, m);
    assert Distinct(kept);
    DistinctCard(kept);
    assert Elems(kept) <= kn by {
      forall v | v in Elems(kept) ensures v in kn {
        assert v in ranked;
      }
    }
    assert (Elems(kept) + defended) - defended == Elems(kept);
    if m == |ranked| {
      assert kept == ranked;
    }
  }

  /** The greedy filter keeps the best-scored neighbours: no dropped
      neighbour scores higher than a kept one. */
  lemma FilterKeepsBestScores(s: Solution, g: Graph, k: nat, sigma: int, score: nat -> int,
                              v: nat, w: nat)
    requires v in FilterNeighborhood(s, g, k, sigma, score).1 - s.defended
    requires w in CachedKn(s, g, k) - FilterNeighborhood(s, g, k, sigma, score).1
    ensures score(v) >= score(w)
  {
    var kn := CachedKn(s, g, k);
    var ranked := RankByScore(kn, score);
    var kept := Prefix(ranked, KeepCount(sigma, |ranked|));
    assert FilterNeighborhood(s, g, k, sigma, score).1 == Elems(kept) + s.defended;
    assert w in ranked;
    PrefixComesFirst(ranked, v => -score(v), KeepCount(sigma, |ranked|), v, w);
  }

  /** In a listing sorted by `key`, a member of a prefix has a key no larger
      than a member left out of it. */
  lemma PrefixComesFirst<T>(ranked: seq<T>, key: T -> int, m: int, v: T, w: T)
    requires SortedBy(ranked, key)
    requires v in Prefix(ranked, m) && w in ranked && w !in Prefix(ranked, m)
    ensures key(v) <= key(w)
  {
    var kept := Prefix(ranked, m);
    var i :| 0 <= i < |kept| && kept[i] == v;
    var j :| 0 <= j < |ranked| && ranked[j] == w;
    assert ranked[i] == v;
  }

  /** `construct_neighborhood`, which the callers use but Solution.py does
      not define: read as `filter_neighborhood` that also stores its result
      as the solution's neighbourhood and returns it. */
  function ConstructNeighborhood(s: Solution, g: Graph, k: nat, sigma: int,
                                 score: nat -> int): (r: (Solution, set<nat>))
    ensures r.0 == s.(kn := r.0.kn, neighborhood := Some(r.1))
    ensures r.0.kn == Some(CachedKn(s, g, k))
    ensures s.defended <= r.1 <= CachedKn(s, g, k) + s.defended
    ensures r.1 == FilterNeighborhood(s, g, k, sigma, score).1
  {
    var f := FilterNeighborhood(s, g, k, sigma, score);
    (f.0.(neighborhood := Some(f.1)), f.1)
  }

  /** With `sigma = 1` the filtered neighbourhood is the full one, whatever
      the scoring function. */
  lemma FullSigmaIsFullNeighborhood(s: Solution, g: Graph, k: nat, score: nat -> int)
    ensures ConstructNeighborhood(s, g, k, 10, score).0 == ConstructFullNeighborhood(s, g, k)
  {
    var kn := CachedKn(s, g, k);
    var ranked := RankByScore(kn, score);
    assert Prefix(ranked, KeepCount(10, |ranked|)) == ranked;
  }

  /** Gurobi's `OPTIMAL` status code. */
  const OPTIMAL: int := 2

  /** Neither variable of vertex `v` is set in rounds `0 .. t - 1`. */
  ghost predicate UnmarkedBefore(b: (nat, nat) -> bool, d: (nat, nat) -> bool, v: nat, t: nat) {
    forall t' :: 0 <= t' < t ==> !b(v, t') && !d(v, t')
  }

  /** `vars_to_solution` with each `.X == 1.0` test given as a boolean: a
      vertex is burned (or defended) in the first round `t <= T` where one of
      its variables is set, the burn variable being looked at first; vertices
      with no variable set stay untouched at `inf`. */
  method VarsToSolution(n: nat, T: int, b: (nat, nat) -> bool, d: (nat, nat) -> bool,
                        status: int, objVal: int) returns (sol: Solution)
    ensures sol.defended !! sol.burned
    ensures forall v: nat :: v in sol.burned <==>
      v < n && exists t: nat :: t <= T && b(v, t) && UnmarkedBefore(b, d, v, t)
    ensures forall v: nat :: v in sol.defended <==>
      v < n && exists t: nat :: t <= T && d(v, t) && !b(v, t) && UnmarkedBefore(b, d, v, t)
    ensures |sol.iterations| == n
    ensures forall v :: 0 <= v < n ==>
      (sol.iterations[v] == Inf <==> T < 0 || UnmarkedBefore(b, d, v, T + 1))
    ensures forall v :: 0 <= v < n && sol.iterations[v].Round? ==>
      var t := sol.iterations[v].t;
      t <= T && (b(v, t) || d(v, t)) && UnmarkedBefore(b, d, v, t)
    ensures sol.optimal <==> status == OPTIMAL
    ensures sol.cost == objVal && sol.T == T
    ensures sol.kn == None && sol.neighborhood == None
  {
    var defended: set<nat> := {};
    var burned: set<nat> := {};
    var iteration: seq<Iter> := seq(n, _ => Inf);
    var v := 0;
    while v < n
      invariant v <= n
      invariant |iteration| == n
      invariant defended !! burned
      invariant forall u: nat :: u in burned <==>
        u < v && exists t: nat :: t <= T && b(u, t) && UnmarkedBefore(b, d, u, t)
      invariant forall u: nat :: u in defended <==>
        u < v && exists t: nat :: t <= T && d(u, t) && !b(u, t) && UnmarkedBefore(b, d, u, t)
      invariant forall u :: v <= u < n ==> iteration[u] == Inf
      invariant forall u :: 0 <= u < v ==>
        (iteration[u] == Inf <==> T < 0 || UnmarkedBefore(b, d, u, T + 1))
      invariant forall u :: 0 <= u < v && iteration[u].Round? ==>
        var t := iteration[u].t;
        t <= T && (b(u, t) || d(u, t)) && UnmarkedBefore(b, d, u, t)
    {
      var t, marked := FirstMark(v, T, b, d);
      if marked {
        if b(v, t) {
          burned := burned + {v};
        } else {
          defended := defended + {v};
        }
        iteration := iteration[v := Round(t)];
      }
      v := v + 1;
    }
    sol := Solution(defended, burned, iteration, T, objVal, status == OPTIMAL, None, None);
  }

  /** The inner loop of `vars_to_solution` for vertex `v`: the first round
      `t <= T` in which one of its variables is set, if any. */
  method FirstMark(v: nat, T: int, b: (nat, nat) -> bool, d: (nat, nat) -> bool)
    returns (t: nat, marked: bool)
    ensures marked ==> t <= T && (b(v, t) || d(v, t)) && UnmarkedBefore(b, d, v, t)
    ensures !marked <==> T < 0 || UnmarkedBefore(b, d, v, T + 1)
    ensures forall t': nat :: t' <= T && b(v, t') && UnmarkedBefore(b, d, v, t') <==>
              marked && t' == t && b(v, t)
    ensures forall t': nat :: t' <= T && d(v, t') && !b(v, t') && UnmarkedBefore(b, d, v, t') <==>
              marked && t' == t && !b(v, t)
  {
    t := 0;
    marked := false;
    while t <= T && !marked
      invariant t == 0 || t <= T + 1
      invariant !marked ==> UnmarkedBefore(b, d, v, t)
      invariant marked ==> t <= T && (b(v, t) || d(v, t)) && UnmarkedBefore(b, d, v, t)
      decreases T + 1 - t, if marked then 0 else 1
    {
      if b(v, t) || d(v, t) {
        marked := true;
      } else {
        t := t + 1;
      }
    }
    if !marked && T >= 0 {
      assert t == T + 1;
    }
  }
}

=== FILE: text.dfy ===
/** Python's text primitives that the input readers use: `str.split()` with
    no separator, which splits at runs of whitespace and drops empty tokens,
    and `int()` of a token. */
module Text {
  import opened Wrappers

  /** `c.isspace()`: the characters Python treats as whitespace. */
  predicate IsSpace(c: char) {
    || ('\U{0009}' <= c <= '\U{000D}')
    || ('\U{001C}' <= c <= '\U{0020}')
    || c == '\U{0085}' || c == '\U{00A0}' || c == '\U{1680}'
    || ('\U{2000}' <= c <= '\U{200A}')
    || c == '\U{2028}' || c == '\U{2029}' || c == '\U{202F}' || c == '\U{205F}' || c == '\U{3000}'
  }

  /** A token `str.split()` can produce: non-empty, without whitespace. */
  predicate Word(w: string) {
    |w| > 0 && forall i :: 0 <= i < |w| ==> !IsSpace(w[i])
  }

  /** The longest whitespace-free prefix of `s`. */
  function Token(s: string): (t: string)
    ensures t <= s
    ensures forall i :: 0 <= i < |t| ==> !IsSpace(t[i])
    ensures |t| == |s| || IsSpace(s[|t|])
  {
    if s == [] || IsSpace(s[0]) then []
    else
      var rest := Token(s[1..]);
      assert forall i :: 1 <= i <= |rest| ==> s[i] == s[1..][i - 1];
      [s[0]] + rest
  }

  /** `s.split()`: the maximal whitespace-free runs of `s`, in order. */
  function Split(s: string): (r: seq<string>)
    ensures forall i :: 0 <= i < |r| ==> Word(r[i])
    decreases |s|
  {
    if s == [] then []
    else if IsSpace(s[0]) then Split(s[1..])
    else
      var t := Token(s);
      [t] + Split(s[|t|..])
  }

  /** `' '.join(ws)`. */
  function Join(ws: seq<string>): string {
    if ws == [] then [] else if |ws| == 1 then ws[0] else ws[0] + " " + Join(ws[1..])
  }

  lemma {:induction false} TokenOfWord(w: string, rest: string)
    requires Word(w)
    requires rest == [] || IsSpace(rest[0])
    ensures Token(w + rest) == w
    decreases |w|
  {
    var s := w + rest;
    if |w| > 1 {
      assert s[1..] == w[1..] + rest;
      TokenOfWord(w[1..], rest);
    } else {
      assert s[1..] == rest;
    }
    assert [w[0]] + w[1..] == w;
  }

  /** A whitespace character ends the token before it. */
  lemma {:induction false} TokenBeforeSpace(a: string, c: char, b: string)
    requires IsSpace(c)
    ensures Token(a + [c] + b) == Token(a)
    decreases |a|
  {
    var s := a + [c] + b;
    if a == [] {
      assert s[0] == c;
    } else {
      assert s[0] == a[0];
      if !IsSpace(a[0]) {
        assert s[1..] == a[1..] + [c] + b;
        TokenBeforeSpace(a[1..], c, b);
      }
    }
  }

  /** `str.split()` cuts at every whitespace character: splitting around one
      splits each side on its own. */
  lemma {:induction false} SplitAtSpace(a: string, c: char, b: string)
    requires IsSpace(c)
    ensures Split(a + [c] + b) == Split(a) + Split(b)
    decreases |a|
  {
    var s := a + [c] + b;
    if a == [] {
      assert s[0] == c && s[1..] == b;
    } else if IsSpace(a[0]) {
      assert s[0] == a[0] && s[1..] == a[1..] + [c] + b;
      SplitAtSpace(a[1..], c, b);
    } else {
      assert s[0] == a[0];
      TokenBeforeSpace(a, c, b);
      var t := Token(a);
      assert |t| > 0 && t[0] == a[0];
      assert s[|t|..] == a[|t|..] + [c] + b;
      SplitAtSpace(a[|t|..], c, b);
    }
  }

  /** Trailing whitespace, such as the `'\n'` ending a line read from a
      file, does not change the tokens. */
  lemma SplitTrailingSpace(s: string, c: char)
    requires IsSpace(c)
    ensures Split(s + [c]) == Split(s)
  {
    SplitAtSpace(s, c, []);
    assert s + [c] + [] == s + [c];
    assert Split(s) + [] == Split(s);
  }

  /** Splitting a line of words joined by single spaces gives the words
      back. */
  lemma {:induction false} SplitJoin(ws: seq<string>)
    requires forall i :: 0 <= i < |ws| ==> Word(ws[i])
    ensures Split(Join(ws)) == ws
    decreases |ws|
  {
    if |ws| == 1 {
      TokenOfWord(ws[0], []);
      assert ws[0] + [] == ws[0];
      assert Join(ws)[|ws[0]|..] == [];
    } else if |ws| > 1 {
      var rest := " " + Join(ws[1..]);
      assert Join(ws) == ws[0] + rest;
      TokenOfWord(ws[0], rest);
      assert Join(ws)[|ws[0]|..] == rest;
      assert rest[1..] == Join(ws[1..]);
      SplitJoin(ws[1..]);
      assert ws == [ws[0]] + ws[1..];
    }
  }

  predicate IsDigit(c: char) {
    '0' <= c <= '9'
  }

  /** A numeral `int()` accepts after the sign: digits, where a single
      underscore may separate two digits. */
  predicate Numeral(t: string) {
    && |t| > 0
    && IsDigit(t[0]) && IsDigit(t[|t| - 1])
    && forall i :: 0 <= i < |t| ==> IsDigit(t[i]) || (t[i] == '_' && i + 1 < |t| && IsDigit(t[i + 1]))
  }

  lemma NumeralChars(t: string)
    requires Numeral(t)
    ensures forall i :: 0 <= i < |t| ==> IsDigit(t[i]) || t[i] == '_'
  {
    forall i | 0 <= i < |t| ensures IsDigit(t[i]) || t[i] == '_' {
      assert IsDigit(t[i]) || (t[i] == '_' && i + 1 < |t| && IsDigit(t[i + 1]));
    }
  }

  /** The digits of a numeral, underscores dropped. */
  function Digits(t: string): (r: string)
    ensures forall i :: 0 <= i < |r| ==> r[i] != '_'
  {
    if t == [] then [] else (if t[0] == '_' then [] else [t[0]]) + Digits(t[1..])
  }

  function DigitValue(c: char): nat
    requires IsDigit(c)
  {
    (c as int) - ('0' as int)
  }

  /** The value of a string of decimal digits. */
  function DecimalValue(s: string): nat
    requires forall i :: 0 <= i < |s| ==> IsDigit(s[i])
  {
    if s == [] then 0 else 10 * DecimalValue(s[..|s| - 1]) + DigitValue(s[|s| - 1])
  }

  lemma {:induction false} DigitsAreDigits(t: string)
    requires forall i :: 0 <= i < |t| ==> IsDigit(t[i]) || t[i] == '_'
    ensures forall i :: 0 <= i < |Digits(t)| ==> IsDigit(Digits(t)[i])
    decreases |t|
  {
    if t != [] {
      DigitsAreDigits(t[1..]);
      assert forall i :: 0 <= i < |t[1..]| ==> t[1..][i] == t[i + 1];
    }
  }

  /** `int(t)` of a token: an optional sign, then a numeral; anything else
      raises `ValueError`. */
  function ParseInt(t: string): (r: Result<int>)
    ensures r.Ok? <==> Numeral(t) || (|t| > 0 && (t[0] == '+' || t[0] == '-') && Numeral(t[1..]))
  {
    if |t| > 0 && (t[0] == '+' || t[0] == '-') then
      var m :- ParseNat(t[1..]);
      var v: int := m;
      Ok(if t[0] == '-' then -v else v)
    else
      var m :- ParseNat(t);
      Ok(m)
  }

  function ParseNat(t: string): (r: Result<nat>)
    ensures r.Ok? <==> Numeral(t)
  {
    if Numeral(t) then
      NumeralChars(t);
      DigitsAreDigits(t);
      Ok(DecimalValue(Digits(t)))
    else Err(ValueError)
  }

  /** `str(n)` of a natural number. */
  function NatToString(n: nat): (s: string)
    ensures |s| > 0
    ensures forall i :: 0 <= i < |s| ==> IsDigit(s[i])
    decreases n
  {
    var d := [('0' as int + n % 10) as char];
    if n < 10 then d else NatToString(n / 10) + d
  }

  /** `str(n)`. */
  function IntToString(n: int): string {
    if n < 0 then "-" + NatToString(-n) else NatToString(n)
  }

  lemma {:induction false} NatToStringValue(n: nat)
    ensures DecimalValue(NatToString(n)) == n
    decreases n
  {
    var s := NatToString(n);
    if n >= 10 {
      NatToStringValue(n / 10);
      assert s[..|s| - 1] == NatToString(n / 10);
    }
  }

  lemma {:induction false} DigitsOfDigits(s: string)
    requires forall i :: 0 <= i < |s| ==> IsDigit(s[i])
    ensures Digits(s) == s
    decreases |s|
  {
    if s != [] {
      DigitsOfDigits(s[1..]);
    }
  }

  /** `str(m)` of a natural number is a numeral denoting `m`. */
  lemma ParseNatToString(m: nat)
    ensures ParseNat(NatToString(m)) == Ok(m)
  {
    var s := NatToString(m);
    NatToStringValue(m);
    DigitsOfDigits(s);
    assert Numeral(s);
  }

  /** `str(n)` never holds whitespace. */
  lemma NatToStringWord(m: nat)
    ensures Word(NatToString(m)) && Word("-" + NatToString(m))
  {
    var s := NatToString(m);
    assert forall i :: 0 <= i < |s| ==> IsDigit(s[i]);
    assert forall i :: 1 <= i < |s| + 1 ==> ("-" + s)[i] == s[i - 1];
  }

  /** `int(str(n)) == n`, and `str(n)` is a single token. */
  lemma ParseIntToString(n: int)
    ensures ParseInt(IntToString(n)) == Ok(n)
    ensures Word(IntToString(n))
  {
    var m: nat := if n < 0 then -n else n;
    var s := NatToString(m);
    ParseNatToString(m);
    NatToStringWord(m);
    if n < 0 {
      var t := "-" + s;
      assert IntToString(n) == t;
      assert t[1..] == s;
      assert |t| > 0 && t[0] == '-';
    } else {
      assert IntToString(n) == s;
      assert s[0] != '+' && s[0] != '-' by {
        assert IsDigit(s[0]);
      }
    }
  }
}

=== FILE: wrappers.dfy ===
/** Failure-compatible wrappers used to model the source's exceptions
    (IndexError, ValueError, ZeroDivisionError, ...) as values. */
module Wrappers {

  /** A value that may be absent. */
  datatype Option<+T> = None | Some(value: T) {

    /** The wrapped value, or `default` when absent. */
    function GetOr(default: T): T {
      match this
      case Some(v) => v
      case None => default
    }
  }

  /** The Python exceptions that the modelled code can raise. */
  datatype Error =
    | IndexError       // list index out of range
    | ValueError       // int() of a non-integer token, min() of an empty sequence, ...
    | ZeroDivisionError
    | KeyError         // a missing dictionary entry
    | NoPath           // networkx found no path between two vertices

  /** Either a computed value or the exception the source raises instead. */
  datatype Result<+R> = Ok(value: R) | Err(error: Error) {

    predicate IsFailure() {
      Err?
    }

    function PropagateFailure<U>(): Result<U>
      requires Err?
    {
      Err(error)
    }

    function Extract(): R
      requires Ok?
    {
      value
    }
  }
}
